=== FILE: README.md ===
# Frame store, path registry and read path of the tracking data engine

This project models, in Dafny, the `DataEngine` of a monocular face tracker
(`core/data_engine.py`) together with two small pieces of its FLAME head
model (`model/FLAME/FLAME.py`):

- **Path registry** (`__init__`, core/data_engine.py:13-23; `check_path` and
  `save`, core/data_engine.py:77-89): the nine artifact paths derived from the
  output directory with POSIX `os.path.join` (`DataEngine.Init`,
  `DataEngine.Registry`), and `DataEngine.CheckPath` / `DataEngine.Save`,
  which dispatch on a substring test of the registered path.
- **Frame store build** (`build_data_lmdb`, core/data_engine.py:91-122): a
  video's frames are put into a fresh LMDB store under keys `f_{:07d}.jpg`
  (`FrameKey.Key`, core/data_engine.py:105), skipping keys already present
  and committing every 1000 puts; the whole build is skipped when the store
  directory exists (`DataEngine.BuildDataLmdb`). The store is a
  `map<string, Bytes>`, a write transaction is a pair (durable contents,
  pending puts), and a crash is modelled as losing the pending puts. One
  pass of the loop body (core/data_engine.py:105-117) is `FrameStore.Step`
  over `FrameStore.PutIfAbsent`, the `for` loop (core/data_engine.py:104-117)
  is `FrameStore.Run`, and the loop with its final commit
  (core/data_engine.py:102-118) is `FrameStore.Ingest`.
- **Frame list** (`frames()`, core/data_engine.py:124-137): the store's keys
  in cursor (byte-lexicographic) order (`KeyOrder.Ascending`), stably sorted
  by `int(key[2:-4])` (`FrameKey.KeyIndex` over `FrameKey.ParseInt`, and
  `KeyOrder.NumericOrder`, core/data_engine.py:135), memoised, first ten
  returned (`DataEngine.Frames`).
- **Lazy getters and the read path** (`get_frame`, `get_landmarks`,
  `get_emoca_params`, `get_camera_params`, `get_frames`,
  core/data_engine.py:28-75): an immutable `Engine` value holds the
  registry, the read handle and the three caches; every operation returns
  the new engine together with its result or the exception it raised.
  `ReadPath.GetFrame` is `get_frame` (core/data_engine.py:28-41);
  `ReadPath.Gather` is the `for` loop of `get_frames` on the engine
  (core/data_engine.py:44-55), `ReadPath.Annotated` its `'annotation' in
  keys` test (core/data_engine.py:47), and `ReadPath.GetFrames` the whole
  method (core/data_engine.py:43-60). `ReadPath.GatherFrom` is a state-free
  reference loop over what the store and the two annotation collections
  yield, and `ReadPath.GatherReads` proves the two loops agree;
  `default_collate` is modelled for tensors (stacking) and dicts (per key)
  in `Values.Collate`.
- **FLAME**: the mapping of a whole-degree yaw to a row of the 79-row
  dynamic contour table (`Flame.ContourRow` is the mask arithmetic of
  model/FLAME/FLAME.py:124-128 and `Flame.SelectRow` adds the clamp of
  model/FLAME/FLAME.py:120-122), and the walk up the kinematic tree from the
  neck joint that builds `neck_kin_chain` (model/FLAME/FLAME.py:82-88):
  `Flame.Next` is `self.parents[curr_idx]`, `Flame.Walk` the `while` loop
  with a step bound, and `Flame.NeckKinChain` the walk from joint 1.

Smaller pieces each of these operations is built from, whose contracts only
spell out the source line they model; the lemmas in the table state what
they mean:

- `DataEngine.Registry` is the nine `os.path.join` calls
  (core/data_engine.py:15-23); `DataEngine.ArtifactNamesPlain` and
  `DataEngine.ArtifactNamesDistinct` are facts about their literal file
  names, used by `DataEngine.RegistryDistinct`.
- `DataEngine.PathOf` is `self.path_dict[key]` (core/data_engine.py:78, 85);
  `DataEngine.CheckPath` is `check_path` (core/data_engine.py:77-82).
- `FrameKey.IndexField` is the slice `x[2:-4]` (core/data_engine.py:135).
- `Files.TorchLoad` is `torch.load` (core/data_engine.py:64, 69, 74) and
  `Files.ReadVideo` the video read of core/data_engine.py:94-98.
- `DataEngine.StoreSource` and `DataEngine.OpenReader` are the lazy
  read-only open (core/data_engine.py:29-33 and 125-129);
  `DataEngine.CacheSource` is the lazy `torch.load` of a getter
  (core/data_engine.py:63-64, 68-69, 73-74).
- `ReadPath.DecodeFrame` is the lookup and decode of core/data_engine.py:35-41,
  `ReadPath.CollateLists` the three `default_collate` calls of
  core/data_engine.py:56-59, and `Values.CollateStack` the stacking branch of
  `default_collate`.
- `Flame.Parents` is the parent array of model/FLAME/FLAME.py:41-42.

Modules: `Common` (results, errors, substring test), `FrameKey` (the key
codec), `KeyOrder` (cursor order and the stable sort of `frames()`),
`FrameStore` (transactions, the ingestion loop, crash and resume), `Values`
(tensors, dicts, `default_collate`), `Files` (disk, `os.path.join`,
`torch.load`, `save`'s format dispatch), `DataEngine` (the engine's state and
operations), `ReadPath` (`get_frame` / `get_frames`), `Flame`.

Behaviours of the code a reader may not expect:

- `get_frames` with `'annotation'` drops a name whose expression record is
  `None` instead of failing the whole batch; the landmark lookup for that name
  still happens and can still fail (`ReadPath.DroppedNameStillReadsLandmarks`),
  and a batch where every name is dropped fails in `default_collate([])`
  (`ReadPath.AllDroppedIsEmpty`).
- `save` does not raise for an unknown kind: a path containing neither `.pth`
  nor `.json` is silently not written (`DataEngine.UnsavedArtifacts`). The
  dispatch looks at the whole path, so an output directory whose name contains
  `.pth` turns every artifact into a tensor blob
  (`DataEngine.SaveFormatFollowsDirectory`).
- Resumption is at store granularity in `build_data_lmdb` (an existing store
  directory skips the build); the skip-if-present loop is nevertheless proved
  to resume correctly from any crash point (`FrameStore.ResumeAfterCrash`).

## Model

| member | source | states |
|---|---|---|
| `DataEngine.Init` | core/data_engine.py:13-23 | construction fails with `KeyError('output_path')` exactly when the dict lacks it; otherwise the nine artifact keys are (re)bound to their joined paths, every other caller key keeps its value, and no handle or cache exists yet |
| `DataEngine.RegistryDistinct` | core/data_engine.py:15-23 | the basename of every registered artifact path is its file name, and distinct artifact keys get distinct paths whatever the output directory |
| `Files.BasenameJoin` | core/data_engine.py:15 | round trip: the basename of `os.path.join(a, b)` is `b` for a slash-free `b` |
| `Files.JoinInjective` | core/data_engine.py:15-23 | joining one directory with two slash-free names gives equal paths iff the names are equal |
| `Files.OccursInJoin` | core/data_engine.py:85-87 | a slash-free pattern absent from the directory occurs in the joined path iff it occurs in the file name |
| `DataEngine.CheckPathAfterBuild` | core/data_engine.py:77-118 | after `build_data_lmdb` succeeds (built or skipped), `check_path('dataset_path')` answers true |
| `DataEngine.CheckPathAfterSave` | core/data_engine.py:77-89 | after a `save` that writes (the path names `.pth` or `.json`), `check_path` of that key answers true |
| `DataEngine.CheckPathAfterUnsaved` | core/data_engine.py:77-89 | a `save` whose path names neither format leaves `check_path` of that key as it was |
| `DataEngine.CheckPathOtherKey` | core/data_engine.py:77-89 | a `save` leaves `check_path` of every key registered to another path as it was |
| `Files.SaveFormat` | core/data_engine.py:84-89 | a tensor blob iff the path contains `.pth`; JSON iff it contains `.json` but not `.pth`; nothing otherwise |
| `Files.Write` | core/data_engine.py:84-89 | a save writes only its own path and nothing when the path names neither format; when it names a format and a store directory sits at the path, it raises `IsADirectoryError` and the disk is unchanged |
| `Files.SaveLoad` | core/data_engine.py:84-86 | round trip: when `save` to a `.pth` path succeeds, `torch.load` reads back exactly what it wrote |
| `Files.SaveJsonNotLoadable` | core/data_engine.py:87-89 | what a successful `save` wrote to a `.json` path is not loadable with `torch.load` |
| `DataEngine.Save` | core/data_engine.py:84-89 | `save` raises `KeyError` for an unregistered key and `IsADirectoryError` exactly when the path names a format and holds the store directory; otherwise the disk changes as the path's format dictates and nowhere else |
| `DataEngine.PlainName` | core/data_engine.py:15-23 | a dot-free stem plus a one-dot extension is a slash-free name whose only dot starts the extension |
| `DataEngine.OccursAtDot` | core/data_engine.py:85-87 | in such a name, a dot-led pattern like `.pth` occurs iff the extension starts with it |
| `DataEngine.FormatInDirectory` | core/data_engine.py:84-89 | inside a directory whose path contains neither `.pth` nor `.json`, the save format of a file is decided by its extension alone |
| `DataEngine.TorchInDirectory` | core/data_engine.py:85-86 | a `.pth` file in such a directory is saved as a tensor blob |
| `DataEngine.JsonInDirectory` | core/data_engine.py:87-89 | a `.json` file in such a directory is saved as JSON |
| `DataEngine.OtherInDirectory` | core/data_engine.py:84-89 | a file with any other one-dot extension in such a directory is not written |
| `DataEngine.TorchArtifacts` | core/data_engine.py:16-18 | the landmarks, expression and camera artifacts are saved as tensor blobs |
| `DataEngine.JsonArtifacts` | core/data_engine.py:19-21 | the lighting, analysis-by-synthesis and smoothed artifacts are saved as JSON |
| `DataEngine.UnsavedArtifacts` | core/data_engine.py:22-23 | the video and the calibration image are not written by `save` |
| `DataEngine.DatasetNotSaved` | core/data_engine.py:15 | the store directory is not written by `save` |
| `DataEngine.SaveFormatFollowsDirectory` | core/data_engine.py:85-86 | an output directory containing `.pth` makes every artifact, including JSON ones, a tensor blob |
| `FrameKey.DigitChar` | core/data_engine.py:105 | the character written for a digit reads back as that digit |
| `FrameKey.Decimal` | core/data_engine.py:105 | the decimal spelling is a non-empty digit string |
| `FrameKey.Zeros` | core/data_engine.py:105 | the fill is exactly `k` zeros |
| `FrameKey.DecimalValue` | core/data_engine.py:105 | the decimal spelling of `n` is worth `n` |
| `FrameKey.LeadingZeros` | core/data_engine.py:105 | zero padding does not change a digit string's value |
| `FrameKey.DigitsValueBound` | core/data_engine.py:105 | a digit string is worth less than ten to its length |
| `FrameKey.DecimalLength` | core/data_engine.py:105 | a number below `10^w` is spelled in at most `w` digits |
| `FrameKey.ParseDecimal` | core/data_engine.py:135 | `int(str(n)) == n` |
| `FrameKey.PaddedValue` | core/data_engine.py:105 | the seven-digit zero-padded spelling of `n` is a digit string worth `n` |
| `FrameKey.KeyField` | core/data_engine.py:105 | `key[2:-4]` of the key of frame `i` is the padded spelling of `i` |
| `FrameKey.KeyRoundTrip` | core/data_engine.py:135 | round trip: `int(key[2:-4])` of the key written for frame `i` is `i`, for every `i >= 0` |
| `FrameKey.KeyInjective` | core/data_engine.py:105 | distinct frames get distinct keys |
| `FrameKey.KeyFixedWidth` | core/data_engine.py:105 | below `10^7` every key is `f_` plus seven digits plus `.jpg`, 13 characters |
| `FrameKey.KeyExample` | core/data_engine.py:105 | frame 42 is stored as `f_0000042.jpg`, and that key parses back to 42 |
| `KeyOrder.LexIrreflexive` | core/data_engine.py:132 | the cursor order is irreflexive |
| `KeyOrder.LexAsymmetric` | core/data_engine.py:132 | the cursor order is asymmetric |
| `KeyOrder.LexTransitive` | core/data_engine.py:132 | the cursor order is transitive |
| `KeyOrder.LexTotal` | core/data_engine.py:132 | any two distinct keys are ordered one way or the other |
| `KeyOrder.LexMinExists` | core/data_engine.py:132 | every non-empty key set has a least key |
| `KeyOrder.LexMinUnique` | core/data_engine.py:132 | the least key is unique |
| `KeyOrder.LexMin` | core/data_engine.py:132 | the cursor's first key is the least key of the store |
| `KeyOrder.Ascending` | core/data_engine.py:132 | the cursor lists every key of the store exactly once, in ascending byte order |
| `KeyOrder.DigitsLexOrder` | core/data_engine.py:105 | equal-length digit strings compare in byte order as their values compare |
| `KeyOrder.LexCommonPrefix` | core/data_engine.py:105 | the common `f_` prefix does not affect the comparison of keys |
| `KeyOrder.LexCommonSuffix` | core/data_engine.py:105 | behind equal-length digit fields, the common `.jpg` suffix does not affect the comparison |
| `KeyOrder.KeyLexOrder` | core/data_engine.py:105 | for frames below `10^7`, the cursor order of keys is the numeric order of frame indices |
| `KeyOrder.InsertByIndex` | core/data_engine.py:135 | one insertion step of the sort adds exactly the inserted entry |
| `KeyOrder.SortByIndex` | core/data_engine.py:135 | the stable sort permutes its entries |
| `KeyOrder.SortByIndexKeys` | core/data_engine.py:135 | the stable sort permutes the keys |
| `KeyOrder.SortByIndexSorted` | core/data_engine.py:135 | the stable sort's output is ordered by parsed index |
| `KeyOrder.InsertKeepsIndexSorted` | core/data_engine.py:135 | inserting into an index-ordered list keeps it index-ordered |
| `KeyOrder.InsertKeepsBeforeSorted` | core/data_engine.py:135 | inserting a key larger in byte order than every key present keeps the list ordered by (index, bytes) |
| `KeyOrder.SortByIndexOrdersTies` | core/data_engine.py:132-135 | stability: fed in cursor order, keys with equal index stay in cursor order, so the output is ordered by (index, bytes) |
| `KeyOrder.SortByIndexFixesSorted` | core/data_engine.py:135 | a list already in strictly increasing index order is left unchanged |
| `KeyOrder.Decorate` | core/data_engine.py:135 | the sort key is computed for every key in order; it fails with `ValueError` exactly when some key's index field does not parse, naming such a key |
| `KeyOrder.DecorateKeys` | core/data_engine.py:135 | undecorating the decorated list gives the keys back, each entry carrying its key's parsed index |
| `KeyOrder.NumericOrder` | core/data_engine.py:134-135 | `frames.sort(key=lambda x: int(x[2:-4]))`: the sort raises `ValueError`, naming the key, exactly when some key's index field does not parse; otherwise the result is a permutation of the keys (same multiset) in ascending parsed index |
| `KeyOrder.NumericOrderOfCursor` | core/data_engine.py:132-135 | applied to keys in cursor order, the result is strictly increasing by (index, bytes) |
| `KeyOrder.CanonicalKeysNeedNoSort` | core/data_engine.py:132-135 | canonical keys arrive from the cursor already in frame order and the sort leaves them in place |
| `KeyOrder.LegacyIndices` | core/data_engine.py:135 | unpadded legacy keys `f_10.jpg` and `f_2.jpg` parse to 10 and 2 |
| `KeyOrder.LegacyCursorOrder` | core/data_engine.py:132 | the cursor lists `f_10.jpg` before `f_2.jpg` |
| `KeyOrder.SwapPair` | core/data_engine.py:135 | two keys listed against frame order are swapped by the sort |
| `KeyOrder.LegacyNumericOrder` | core/data_engine.py:132-135 | `frames()` lists `f_2.jpg` before `f_10.jpg` although the cursor does not |
| `FrameStore.WriteTxn.Get` | core/data_engine.py:108 | `txn.get` sees the durable contents overlaid with the transaction's own puts, `None` when absent |
| `FrameStore.WriteTxn.Put` | core/data_engine.py:113 | `txn.put` changes only the pending part, and the visible contents gain exactly the new binding |
| `FrameStore.WriteTxn.Commit` | core/data_engine.py:116-117 | a commit followed by a fresh `begin` leaves nothing pending and the visible contents unchanged |
| `FrameStore.PutIfAbsent` | core/data_engine.py:108-117 | a present key changes nothing at all; an absent key becomes visible with its frame and the counter goes up by one |
| `FrameStore.KeyInKeysUpTo` | core/data_engine.py:104-105 | frame `i`'s key is among the keys of frames `0..n-1` iff `i < n` |
| `FrameStore.KeysUpToSize` | core/data_engine.py:104-105 | `n` frames have `n` distinct keys |
| `FrameStore.TallyQuotient` | core/data_engine.py:114-117 | the commits made so far and the pending puts are `counter`'s quotient and remainder by 1000 |
| `FrameStore.TallyStep` | core/data_engine.py:114-117 | a put either fills the chunk and becomes one more commit, or adds one pending put |
| `FrameStore.ChunkDue` | core/data_engine.py:115 | the `counter % 1000 == 0` test fires exactly on the put that fills a chunk |
| `FrameStore.PutIfAbsentChunkInv` | core/data_engine.py:108-117 | every loop iteration preserves the chunk bookkeeping: at most 999 pending puts, all for new keys, the initial entries durable |
| `FrameStore.RunChunkInv` | core/data_engine.py:104-117 | the bookkeeping holds after any number of frames |
| `FrameStore.StepContents` | core/data_engine.py:104-117 | one iteration extends the visible contents by the current frame under its key, unless the key was present |
| `FrameStore.RunContents` | core/data_engine.py:104-117 | after the loop, the visible contents are the initial entries plus every frame not already present, under its key |
| `FrameStore.ChunkCount` | core/data_engine.py:114 | `counter` is the number of entries the loop added |
| `FrameStore.IngestPutIfAbsent` | core/data_engine.py:104-118 | a whole ingestion never overwrites: initial entries keep their bytes, every frame key ends up present, nothing else is added |
| `FrameStore.IngestCommits` | core/data_engine.py:114-118 | before the final commit, `counter / 1000` commits have made that many thousands of puts durable and `counter % 1000` are pending; the final commit is one more |
| `FrameStore.IngestFresh` | core/data_engine.py:100-118 | a fresh store ends holding exactly the keys of frames `0..N-1`, each with its frame, and `counter == N` |
| `FrameStore.CommittedPrefix` | core/data_engine.py:115-116 | the frames made durable by the periodic commits are `k` rounded down to a multiple of 1000 |
| `FrameStore.FreshContents` | core/data_engine.py:104-117 | the loop over a fresh store has put every frame so far under its key |
| `FrameStore.FreshCount` | core/data_engine.py:114 | the loop over a fresh store has counted every frame so far |
| `FrameStore.DurableStep` | core/data_engine.py:115-117 | handling frame `k-1` makes everything durable exactly when `k` is a multiple of 1000, and changes nothing durable otherwise |
| `FrameStore.FreshDurablePrefix` | core/data_engine.py:104-117 | a crash after `k` frames of a fresh run leaves exactly the first `(k / 1000) * 1000` frames durable |
| `FrameStore.HoldsExactlyUnique` | core/data_engine.py:104-118 | the frame keys and the frames under them determine the store |
| `FrameStore.ResumeStore` | core/data_engine.py:108-118 | re-running the loop on what a crash left produces the same store as an uninterrupted run |
| `FrameStore.ResumeCount` | core/data_engine.py:108-114 | the resumed run inserts exactly the frames that were not durable |
| `FrameStore.ResumeAfterCrash` | core/data_engine.py:104-118 | resuming the loop on what a crash after any `k` frames left ends with the store of an uninterrupted run, inserting only the frames that were not durable |
| `DataEngine.BuildDataLmdb` | core/data_engine.py:91-122 | an existing store directory leaves the disk unchanged; otherwise the build adds exactly the store directory and touches nothing else; an unregistered key raises `KeyError` |
| `DataEngine.BuildFresh` | core/data_engine.py:92-118 | without a store directory the build succeeds iff the video reads, and the new store holds exactly its frames under keys `0..N-1` |
| `DataEngine.Shown` | core/data_engine.py:137 | `self._frames[:10]`: the first `min(n, 10)` keys |
| `DataEngine.Frames` | core/data_engine.py:124-137 | on success at most ten keys are returned, the memoised list's first ten |
| `DataEngine.FramesResult` | core/data_engine.py:124-137 | `frames()` keeps the memo coherent, returns the first ten store keys in numeric order, and fails exactly when the store does not open or a key does not parse |
| `DataEngine.FramesMemoised` | core/data_engine.py:130-137 | after one success, a later call changes nothing and does not look at the disk |
| `DataEngine.FrameKeys` | core/data_engine.py:105 | the list of keys of frames `0..n-1`, in order |
| `DataEngine.FrameKeysSet` | core/data_engine.py:104-105 | that list holds exactly the keys the build puts |
| `DataEngine.FrameKeysSorted` | core/data_engine.py:105 | below `10^7` frames, the keys of frames `0..n-1` are in cursor order |
| `DataEngine.SortedIsAscending` | core/data_engine.py:132 | a byte-sorted key list is exactly the cursor order of its key set |
| `DataEngine.FreshStoreOrder` | core/data_engine.py:132-135 | below `10^7` frames, the cursor lists a freshly built store in frame order, and the sort of `frames()` moves nothing |
| `DataEngine.KeysUpToIndex` | core/data_engine.py:104-105 | every key of a freshly built store of `n` frames parses to a frame below `n` and is that frame's key |
| `DataEngine.FreshKeysOrdered` | core/data_engine.py:132-135 | on a freshly built store every key parses, and the sort yields `n` keys of frames below `n` |
| `DataEngine.FrameKeysByIndex` | core/data_engine.py:132-135 | `n` keys of frames below `n` in strictly increasing (number, bytes) order are exactly the keys of frames `0..n-1` in order |
| `DataEngine.FreshFrameOrder` | core/data_engine.py:132-135 | for any number of frames, the sort of `frames()` puts a freshly built store in frame order, even above `10^7` frames where the cursor order differs |
| `DataEngine.BuildThenFrames` | core/data_engine.py:91-137 | end to end: after a build from a video of any number `N` of frames, `frames()` returns the keys of frames `0..min(N,10)-1` in order |
| `ReadPath.GetFrameReads` | core/data_engine.py:28-41 | `get_frame` returns what its key reads to in the store, and opening the handle changes nothing a later read sees |
| `ReadPath.GetEmocaReads` | core/data_engine.py:67-70 | `get_emoca_params` returns the name's record of the loaded collection, and the first load fixes what later lookups see |
| `ReadPath.GetLandmarksReads` | core/data_engine.py:62-65 | the same for `get_landmarks` |
| `ReadPath.CachesLoadOnce` | core/data_engine.py:62-75 | once a collection is cached, every later lookup ignores the disk, even a changed one, and leaves the engine unchanged |
| `ReadPath.CacheFillsOnSuccess` | core/data_engine.py:63-64 | a failed load caches nothing and raises the load's error; a successful one caches exactly what `torch.load` read |
| `ReadPath.GatherReads` | core/data_engine.py:44-55 | the engine loop of `get_frames` returns what the state-free reference loop returns over the sources, and keeps the sources fixed |
| `ReadPath.Kept` | core/data_engine.py:50 | the names an annotated batch keeps, never more than the input; `ReadPath.KeptSubList` places them |
| `ReadPath.KeptPositions` | core/data_engine.py:47-53 | the positions of the kept names in the input are strictly increasing and each holds a name whose record is not `None` |
| `ReadPath.KeptSubList` | core/data_engine.py:47-53 | the kept names are the input's names at those positions, in order: an order-preserving sub-list |
| `ReadPath.KeptComplete` | core/data_engine.py:47-53 | every input position whose record is not `None` is among those positions |
| `ReadPath.KeptIsMasked` | core/data_engine.py:47-53 | the names kept are exactly the names the per-name `emo is not None` test selects |
| `ReadPath.MaskedAtPositions` | core/data_engine.py:47-53 | the entries a mask selects are the entries at its set positions, in order |
| `ReadPath.PositionsSound` | core/data_engine.py:47-53 | each listed position lies in the mask and is set there |
| `ReadPath.PositionsIncreasing` | core/data_engine.py:47-53 | the listed positions strictly increase |
| `ReadPath.PositionsComplete` | core/data_engine.py:47-53 | every set entry of a mask is listed, after as many positions as set entries precede it |
| `ReadPath.KeptMembers` | core/data_engine.py:50-53 | a name is kept exactly when it is an input whose record is not `None` |
| `ReadPath.KeptAll` | core/data_engine.py:50-53 | with no `None` record, nothing is dropped |
| `ReadPath.KeptNone` | core/data_engine.py:50-53 | with every record `None`, everything is dropped |
| `ReadPath.GatherFromOk` | core/data_engine.py:45-55 | the loop succeeds exactly when every name's frame reads and, with annotations, its record and landmarks read too |
| `ReadPath.GatherFromPlain` | core/data_engine.py:54-55 | without annotations the frame list holds one frame per name, in input order, and the other lists are empty |
| `ReadPath.GatherFromAnnotated` | core/data_engine.py:46-53 | with annotations the three lists line up with the kept names, entry by entry |
| `ReadPath.NoNoneRecords` | core/data_engine.py:50-52 | no record in an annotated batch is `None` |
| `ReadPath.GetFramesReads` | core/data_engine.py:43-60 | `get_frames` returns the collation of the reference loop's lists, or its error, and succeeds in the loop exactly when every name reads |
| `ReadPath.GetFramesInOrder` | core/data_engine.py:43-60 | without annotations, same-shape frames stack into one tensor whose `i`-th slice is the `i`-th name's frame |
| `ReadPath.GetFramesAnnotated` | core/data_engine.py:43-60 | with annotations, the frames of the kept names stack in input order and records and landmarks are collated |
| `ReadPath.AllDroppedIsEmpty` | core/data_engine.py:47-56 | with annotations and every record `None`, the call fails in `default_collate([])` |
| `ReadPath.DroppedNameStillReadsLandmarks` | core/data_engine.py:48-50 | a dropped name's landmark lookup still happens, and its failure fails the call |
| `Values.Find` | core/data_engine.py:65 | a dict lookup yields the value bound to the key, and nothing exactly when no binding has that key |
| `Values.Subscript` | core/data_engine.py:65 | `d[key]` succeeds exactly on a dict binding the key; `KeyError` on other dicts, a type error on non-dicts |
| `Values.Column` | core/data_engine.py:58-59 | `[d[key] for d in batch]` succeeds exactly when every element has the key, entry `i` being element `i`'s value |
| `Values.Collate` | core/data_engine.py:56-59 | `default_collate` fails on an empty batch exactly, stacks tensors under a new leading dimension of the batch size, and refuses `None` |
| `Values.CollateFields` | core/data_engine.py:58-59 | a dict batch collates key by key, in the first element's key order |
| `Values.CollateTensors` | core/data_engine.py:56 | a tensor batch collates exactly when every element is a tensor of the first one's shape |
| `Values.StackSelect` | core/data_engine.py:56 | slice `i` of the stacked batch is the `i`-th tensor |
| `Values.UnstackCollate` | core/data_engine.py:56 | round trip: slicing the collated batch gives back each element |
| `Values.CollateDictFields` | core/data_engine.py:58-59 | a collated dict batch has the first dict's keys in order, each bound to its column's collation |
| `Values.CollateFieldsOk` | core/data_engine.py:58-59 | a dict batch's fields collate exactly when every key's column collates |
| `Values.CollateDictOk` | core/data_engine.py:58-59 | a dict batch collates exactly when every key of the first dict collates across the batch |
| `Flame.ClampYaw` | model/FLAME/FLAME.py:120-122 | the clamp caps the yaw at 39 and leaves smaller yaws alone |
| `Flame.ContourRowCases` | model/FLAME/FLAME.py:124-128 | non-negative yaws map to themselves, yaws `-1..-39` to `40..78`, smaller ones to the last row 78 |
| `Flame.SelectRowRange` | model/FLAME/FLAME.py:120-128 | every yaw selects a row of a 79-row table |
| `Flame.SelectRowSaturates` | model/FLAME/FLAME.py:120-128 | yaws above 39 select like 39, yaws below -39 like -39 |
| `Flame.YawOfRow` | model/FLAME/FLAME.py:124-128 | every row belongs to a yaw in `-39..39` |
| `Flame.ContourRowBijective` | model/FLAME/FLAME.py:120-128 | on yaws `-39..39` the row selection is a bijection onto rows `0..78`, with `YawOfRow` its inverse |
| `Flame.SelectRowInjective` | model/FLAME/FLAME.py:120-128 | distinct yaws in `-39..39` select distinct rows |
| `Flame.ContourEntry` | model/FLAME/FLAME.py:130-133 | `index_select` succeeds exactly when the selected row is inside the table, and yields that row |
| `Flame.ContourEntryTotal` | model/FLAME/FLAME.py:120-133 | a table of 79 rows serves every yaw |
| `Flame.Slot` | model/FLAME/FLAME.py:87 | a scalar index in `-len..len-1` refers to a position inside the tensor |
| `Flame.NeckKinChain` | model/FLAME/FLAME.py:82-88 | a chain `neck_kin_chain` returns starts at the neck joint, holds only valid joint indices and never -1, each entry's parent is the next entry, and the last entry's parent is -1 |
| `Flame.WalkSound` | model/FLAME/FLAME.py:82-88 | a finished chain starts at the start joint, never holds -1, and each entry's parent is the next entry, the last one's parent being -1 |
| `Flame.TreeWalk` | model/FLAME/FLAME.py:82-88 | on a parent array numbered parent-first (every parent below its child), the walk from any joint succeeds and ends at the root |
| `Flame.NeckChainOfTree` | model/FLAME/FLAME.py:82-88 | for a kinematic table numbered parent-first, the neck chain is found, starts at the neck and ends at the root |
| `Flame.SkeletonWalk` | model/FLAME/FLAME.py:82-88 | when joint 0 is the only root and every other parent is a joint, the walk either ends at joint 0 or never ends |
| `Flame.AcyclicWalk` | model/FLAME/FLAME.py:82-88 | with such a parent array, in any numbering, the walk succeeds exactly when it visits no joint twice, and then runs from the start joint to joint 0 |
| `Flame.NeckChainOfAcyclic` | model/FLAME/FLAME.py:82-88 | for any kinematic table whose non-root entries are joints, the neck chain is found exactly when the walk from the neck visits no joint twice, and then runs from the neck to the root |
| `Flame.ChildFirstNeckChain` | model/FLAME/FLAME.py:82-88 | a table that numbers a parent after its child, `[root, 2, 0]`, still gives the chain `[1, 2, 0]` |
| `Flame.FlameNeckChain` | model/FLAME/FLAME.py:82-88 | FLAME's five-joint tree, with the root parent stored unsigned, gives the neck chain `[1, 0]` |
| `Flame.RootOnlyFails` | model/FLAME/FLAME.py:82-87 | a table without a neck joint fails on the first lookup |
| `Flame.LiveSplit` | model/FLAME/FLAME.py:85-87 | walk steps compose |
| `Flame.LiveJoin` | model/FLAME/FLAME.py:85-87 | walk steps compose, the other way |
| `Flame.DivergesIffLive` | model/FLAME/FLAME.py:85-87 | running out of steps is exactly the walk staying live and off -1 for all of them |
| `Flame.CycleDiverges` | model/FLAME/FLAME.py:85-87 | a walk that returns to where it started never ends |
| `Flame.Repeats` | model/FLAME/FLAME.py:85-87 | a walk live for one step more than there are joints visits some index twice |
| `Flame.DivergesForever` | model/FLAME/FLAME.py:85-87 | if the walk has not ended after one step per joint plus one, it never ends, so the bound loses no terminating walk |
| `Flame.RevisitDiverges` | model/FLAME/FLAME.py:85-87 | a walk that reaches the same joint twice never ends |
| `Flame.DivergesIffRevisits` | model/FLAME/FLAME.py:85-87 | with one step per joint plus one, the walk fails to end exactly when it visits some joint twice |
| `Flame.CyclicDiverges` | model/FLAME/FLAME.py:85-87 | a two-joint cycle never reaches -1 |

## Left out

- File and device I/O: video decoding, resizing, cropping and JPEG encoding
  are one opaque step yielding one byte string per frame; image decoding is a
  parameter (`Decoder`) returning the image or `None`; `torch.load` returns
  whatever a tensor file holds.
- LMDB itself: the `map_size` of one terabyte, the lock and read-ahead flags,
  `env.close()` and the on-disk layout are not modelled; a store is its
  contents. A crash is modelled only at the granularity of commits.
- `json.dump`'s serialisability check: a JSON save of a non-serialisable
  value would raise; the model writes any value.
- `default_collate` is modelled for tensors, dicts and `None`; its handling of
  numbers, strings, numpy arrays, named tuples and sequences, and its element
  type checks, are not.
- Float arithmetic: the yaw comes from `rot_mat_to_euler` of a product of
  `batch_rodrigues` rotations, converted to degrees and rounded; the model
  takes the rounded whole-degree angle as input (`Flame.ClampYaw` onwards).
  `batch_rodrigues`, `torch.bmm` and the rest of FLAME's forward pass are not
  modelled.
- `Flame.Walk` takes a step bound (one step per joint plus one) in place of
  the unbounded `while` loop; `Flame.DivergesForever` shows the bound loses
  no walk that would terminate, so `Diverges` stands for the loop that never
  ends.
- The root entry of FLAME's kinematic table is an unsigned 32-bit value in the
  file; line 42 overwrites it, so the model treats table entries as integers.
- `Flame.NeckChainOfAcyclic`: line 41 passes the whole kinematic row through
  `to_np`, whose default dtype is `float32` (model/FLAME/FLAME.py:267), before
  `.long()`; joint indices are exact there only below 2^24. The model keeps
  the integers exact, so its "any kinematic table" matches the source only
  for tables of fewer than 2^24 joints (FLAME has five).
- `DataEngine.Save`: the disk is a flat map from paths to files whose only
  directories are store directories, and parent directories are not
  modelled, so a save into an output directory that does not exist
  succeeds in the model, where `torch.save` and `open` raise
  `FileNotFoundError`. A save onto the store directory itself raises
  `IsADirectoryError` in the model as in the source.
- `__init__` stores the caller's dict and mutates it in place; the model
  returns a new registry and does not model the aliasing.
- `__str__`, every `print` and the `tqdm` progress bar are output only.
- Python's `int()` is modelled on an optional sign followed by ASCII digits;
  surrounding whitespace, underscores and non-ASCII digits are not.
- `DataEngine.GetLandmarks`, `DataEngine.GetEmocaParams` and
  `DataEngine.GetCameraParams` carry no contract of their own; what they read
  and cache is stated by `ReadPath.GetLandmarksReads`,
  `ReadPath.GetEmocaReads`, `ReadPath.CachesLoadOnce` and
  `ReadPath.CacheFillsOnSuccess`.
- `FrameStore.ResumeAfterCrash`: resumption is proved for the loop itself;
  `build_data_lmdb` never re-runs it on an existing directory, so the
  resumed run is not reachable through `DataEngine.BuildDataLmdb`.

=== FILE: common.dfy ===
/**
 Shared vocabulary of the model: optional values, results carrying the
 error the Python code would raise, opaque byte payloads and the substring
 test the persistence layer dispatches on.
 */
module Common {

  /** A value that may be missing (Python's `None`). */
  datatype Option<+T> = None | Some(value: T)

  /** The exceptions the modelled code can raise, one constructor per cause. */
  datatype Error =
    | KeyNotFound(key: string)          // a `KeyError`: the path registry, an annotation collection or a record lacks the key
    | FileNotFound(path: string)        // `torch.load` / `read_video` on a missing file
    | LoadFailure(path: string)         // `torch.load` / `read_video` on a file of the wrong kind
    | IsADirectory(path: string)        // `torch.save` / `open(path, "w")` on a path that is a directory
    | StoreNotFound(path: string)       // `lmdb.open(readonly=True)` on a missing store
    | FrameNotFound(name: string)       // `txn.get` returned `None` for a frame key
    | DecodeFailure(name: string)       // the decoded image was `None`
    | NotSubscriptable                  // indexing a value that is not a dict by a string
    | InvalidKey(key: string)           // `int(key[2:-4])` raised `ValueError`
    | EmptyBatch                        // `default_collate([])` raised `IndexError`
    | ShapeMismatch                     // stacking values of different shapes
    | NotCollatable                     // collating `None`, or a batch mixing tensors with other values
    | IndexOutOfRange(index: int)       // indexing a tensor out of bounds
    | Diverges                          // a loop that never ends (the parent walk never reaches -1)

  /** Either the computed value or the error that aborted the computation. */
  datatype Result<+T> = Ok(value: T) | Err(error: Error) {

    predicate IsFailure() {
      Err?
    }

    function PropagateFailure<U>(): Result<U>
      requires Err?
    {
      Err(error)
    }

    function Extract(): T
      requires Ok?
    {
      value
    }
  }

  /** One byte of an encoded frame. */
  newtype byte = x: int | 0 <= x < 256

  /** Encoded payloads are opaque byte strings. */
  type Bytes = seq<byte>

  /** `t` occurs in `s` starting at position `i`. */
  predicate OccursAt(t: string, s: string, i: int) {
    0 <= i <= |s| - |t| && s[i..i + |t|] == t
  }

  /** Python's `t in s` on strings: `t` occurs as a contiguous block of `s`. */
  ghost predicate Occurs(t: string, s: string) {
    exists i :: OccursAt(t, s, i)
  }

  /** An executable substring test, scanning `s` from the left. */
  function Contains(s: string, t: string): (b: bool)
    ensures b <==> Occurs(t, s)
    decreases |s|
  {
    if |s| < |t| then
      false
    else if s[..|t|] == t then
      assert OccursAt(t, s, 0);
      true
    else
      var rest := Contains(s[1..], t);
      if rest then
        var i :| OccursAt(t, s[1..], i);
        assert s[1..][i..i + |t|] == s[i + 1..i + 1 + |t|];
        assert OccursAt(t, s, i + 1);
        true
      else
        assert forall i | OccursAt(t, s, i) :: i == 0 || OccursAt(t, s[1..], i - 1) by {
          forall i | OccursAt(t, s, i) && i != 0
            ensures OccursAt(t, s[1..], i - 1)
          {
            assert s[1..][i - 1..i - 1 + |t|] == s[i..i + |t|];
          }
        }
        false
  }
}

=== FILE: engine.dfy ===
/**
 The `DataEngine` object: its path registry, the existence check and the
 format dispatch of `save`, the one-shot build of the frame store, the
 read-only store handle it opens on first use, the memoised frame list,
 and the annotation collections it loads on first access.
 */
module DataEngine {
  import opened Common
  import opened FrameKey
  import opened KeyOrder
  import opened FrameStore
  import opened Values
  import opened Files

  // ---------------------------------------------------------------------
  // Path registry (`__init__`)

  /** The artifacts of a run: registry key to file name inside the output directory. */
  const ArtifactNames: map<string, string> := map[
    "dataset_path" := "lmdb",
    "lmks_path" := "landmarks.pth",
    "emoca_path" := "emoca_v2.pth",
    "camera_path" := "camera_params.pth",
    "lightning_path" := "lightning.json",
    "anal_by_synth_path" := "anal_by_synth.json",
    "smoothed_path" := "smoothed_results.json",
    "visul_path" := "track.mp4",
    "calib_path" := "calibration.jpg"
  ]

  const OutputKey: string := "output_path"
  const DatasetKey: string := "dataset_path"
  const VideoKey: string := "video_path"
  const LandmarksKey: string := "lmks_path"
  const EmocaKey: string := "emoca_path"
  const CameraKey: string := "camera_path"

  /** How many frame keys `frames()` hands out: `self._frames[:10]`. */
  const ShownFrames: nat := 10

  /** The engine's state: the registry and the handles and caches it creates on first use. */
  datatype Engine = Engine(
    paths: map<string, string>,
    reader: Option<Store>,           // `_dataset_lmdb_txn`: a read-only view of the store
    frameList: Option<seq<string>>,  // `_frames`
    landmarks: Option<Value>,
    emoca: Option<Value>,
    camera: Option<Value>)

  /** An operation's new engine state together with its result or the exception it raised. */
  datatype Outcome<T> = Outcome(engine: Engine, result: Result<T>)

  /** The nine paths `__init__` derives from the output directory. */
  function Registry(out: string): (r: map<string, string>)
    ensures r.Keys == ArtifactNames.Keys
    ensures forall k :: k in ArtifactNames ==> r[k] == Join(out, ArtifactNames[k])
  {
    map k | k in ArtifactNames :: Join(out, ArtifactNames[k])
  }

  /**
   `DataEngine(path_dict)`: `KeyError` without an output directory;
   otherwise every artifact key is (re)bound to its path inside the output
   directory and every other key of `path_dict` is kept.
   */
  function Init(pathDict: map<string, string>): (r: Result<Engine>)
    ensures r.Ok? <==> OutputKey in pathDict
    ensures r.Err? ==> r.error == KeyNotFound(OutputKey)
    ensures r.Ok? ==> r.value.paths.Keys == pathDict.Keys + ArtifactNames.Keys
    ensures r.Ok? ==> forall k :: k in ArtifactNames ==> r.value.paths[k] == Join(pathDict[OutputKey], ArtifactNames[k])
    ensures r.Ok? ==> forall k :: k in pathDict && k !in ArtifactNames ==> r.value.paths[k] == pathDict[k]
    ensures r.Ok? ==> r.value.reader.None? && r.value.frameList.None?
    ensures r.Ok? ==> r.value.landmarks.None? && r.value.emoca.None? && r.value.camera.None?
  {
    if OutputKey !in pathDict then
      Err(KeyNotFound(OutputKey))
    else
      Ok(Engine(pathDict + Registry(pathDict[OutputKey]), None, None, None, None, None))
  }

  /** The artifact names are plain file names, without a directory part. */
  lemma ArtifactNamesPlain()
    ensures forall k :: k in ArtifactNames ==> NoSlash(ArtifactNames[k])
  {
  }

  /** No two artifacts share a file name. */
  lemma ArtifactNamesDistinct()
    ensures forall k, l :: k in ArtifactNames && l in ArtifactNames && k != l ==> ArtifactNames[k] != ArtifactNames[l]
  {
  }

  /** Round trip of the registry: the file name of each registered path is its artifact's name, so no two artifacts share a path. */
  lemma RegistryDistinct(pathDict: map<string, string>)
    requires OutputKey in pathDict
    ensures var e := Init(pathDict).value;
      && (forall k :: k in ArtifactNames ==> Basename(e.paths[k]) == ArtifactNames[k])
      && (forall k, l :: k in ArtifactNames && l in ArtifactNames && k != l ==> e.paths[k] != e.paths[l])
  {
    var e := Init(pathDict).value;
    var out := pathDict[OutputKey];
    ArtifactNamesPlain();
    ArtifactNamesDistinct();
    forall k | k in ArtifactNames ensures Basename(e.paths[k]) == ArtifactNames[k] {
      BasenameJoin(out, ArtifactNames[k]);
    }
  }

  /** `self.path_dict[key]`, a `KeyError` when the key was never registered. */
  function PathOf(e: Engine, key: string): (r: Result<string>)
    ensures r.Ok? <==> key in e.paths
    ensures r.Ok? ==> r.value == e.paths[key]
    ensures r.Err? ==> r.error == KeyNotFound(key)
  {
    if key in e.paths then Ok(e.paths[key]) else Err(KeyNotFound(key))
  }

  // ---------------------------------------------------------------------
  // check_path and save

  /** `check_path(key)`: does the registered path exist? */
  function CheckPath(e: Engine, disk: Disk, key: string): (r: Result<bool>)
    ensures r.Ok? <==> key in e.paths
    ensures r == Ok(true) <==> key in e.paths && e.paths[key] in disk
  {
    var path :- PathOf(e, key);
    Ok(path in disk)
  }

  /**
   `save(data, key)`: a tensor blob when the path contains `.pth`, else JSON
   when it contains `.json`, else nothing; writing onto the store directory
   raises `IsADirectoryError`.
   */
  function Save(e: Engine, disk: Disk, data: Value, key: string): (r: Result<Disk>)
    ensures key !in e.paths ==> r == Err(KeyNotFound(key))
    ensures key in e.paths ==> var path := e.paths[key];
      && (r.Err? <==> (Occurs(".pth", path) || Occurs(".json", path)) && path in disk && disk[path].StoreDir?)
      && (r.Err? ==> r.error == IsADirectory(path))
    ensures r.Ok? ==> var path := e.paths[key];
      && (Occurs(".pth", path) ==> r.value == disk[path := TorchFile(data)])
      && (!Occurs(".pth", path) && Occurs(".json", path) ==> r.value == disk[path := JsonFile(data)])
      && (!Occurs(".pth", path) && !Occurs(".json", path) ==> r.value == disk)
  {
    var path :- PathOf(e, key);
    Write(disk, path, data)
  }

  /** After a save that writes, `check_path` finds the artifact. */
  lemma CheckPathAfterSave(e: Engine, disk: Disk, data: Value, key: string)
    requires Save(e, disk, data, key).Ok?
    requires SaveFormat(e.paths[key]) != NotSaved
    ensures CheckPath(e, Save(e, disk, data, key).value, key) == Ok(true)
  {
  }

  /** After a save that writes nothing, `check_path` answers as before. */
  lemma CheckPathAfterUnsaved(e: Engine, disk: Disk, data: Value, key: string)
    requires Save(e, disk, data, key).Ok?
    requires SaveFormat(e.paths[key]) == NotSaved
    ensures CheckPath(e, Save(e, disk, data, key).value, key) == CheckPath(e, disk, key)
  {
  }

  /** Saving under one key leaves `check_path` of every other artifact unchanged, unless both keys share a path. */
  lemma CheckPathOtherKey(e: Engine, disk: Disk, data: Value, key: string, other: string)
    requires Save(e, disk, data, key).Ok?
    requires other !in e.paths || e.paths[other] != e.paths[key]
    ensures CheckPath(e, Save(e, disk, data, key).value, other) == CheckPath(e, disk, other)
  {
  }

  predicate NoDot(s: string) {
    forall i :: 0 <= i < |s| ==> s[i] != '.'
  }

  /** A file name stem without dots or slashes. */
  predicate PlainStem(s: string) {
    forall i :: 0 <= i < |s| ==> s[i] != '.' && s[i] != '/'
  }

  /** A stem followed by a one-dot extension is a slash-free name whose only dot starts the extension. */
  lemma PlainName(stem: string, ext: string)
    requires PlainStem(stem) && |ext| > 0 && ext[0] == '.' && NoSlash(ext)
    ensures NoDot(stem) && NoSlash(stem + ext)
  {
    var name := stem + ext;
    forall i | 0 <= i < |name| ensures name[i] != '/' {
      CharOfConcat(stem, ext, i);
    }
  }

  /** In a name with a single dot, a pattern starting with a dot can only occur at that dot. */
  lemma OccursAtDot(t: string, stem: string, ext: string)
    requires |t| > 0 && t[0] == '.' && NoDot(stem) && |ext| > 0 && ext[0] == '.' && NoDot(ext[1..])
    ensures Occurs(t, stem + ext) <==> |t| <= |ext| && ext[..|t|] == t
  {
    var s := stem + ext;
    if Occurs(t, s) {
      var i :| OccursAt(t, s, i);
      assert s[i] == t[0];
      CharOfConcat(stem, ext, i);
      assert s[i..i + |t|] == ext[..|t|];
    }
    if |t| <= |ext| && ext[..|t|] == t {
      assert s[|stem|..|stem| + |t|] == ext[..|t|];
      assert OccursAt(t, s, |stem|);
    }
  }

  /** Where the `i`-th character of `x + y` comes from. */
  lemma CharOfConcat(x: string, y: string, i: int)
    requires 0 <= i < |x| + |y| && |y| > 0
    ensures i < |x| ==> (x + y)[i] == x[i]
    ensures i > |x| ==> (x + y)[i] == y[1..][i - |x| - 1]
  {
  }

  /** The format an extension asks for: `.pth` first, then `.json`. */
  function ExtensionFormat(ext: string): Format {
    if |ext| >= 4 && ext[..4] == ".pth" then TorchBlob
    else if |ext| >= 5 && ext[..5] == ".json" then JsonText
    else NotSaved
  }

  /**
   Inside an output directory whose path mentions neither `.pth` nor
   `.json`, `save` on a one-dot file name follows its extension.
   */
  lemma FormatInDirectory(out: string, name: string, stem: string, ext: string)
    requires name == stem + ext && NoSlash(name)
    requires NoDot(stem) && |ext| > 0 && ext[0] == '.' && NoDot(ext[1..])
    requires !Occurs(".pth", out) && !Occurs(".json", out)
    ensures SaveFormat(Join(out, name)) == ExtensionFormat(ext)
  {
    OccursInJoin(".pth", out, name);
    OccursInJoin(".json", out, name);
    OccursAtDot(".pth", stem, ext);
    OccursAtDot(".json", stem, ext);
  }

  /** A `.pth` file inside such a directory is saved as a tensor blob. */
  lemma TorchInDirectory(out: string, name: string, stem: string)
    requires name == stem + ".pth" && PlainStem(stem)
    requires !Occurs(".pth", out) && !Occurs(".json", out)
    ensures SaveFormat(Join(out, name)) == TorchBlob
  {
    PlainName(stem, ".pth");
    FormatInDirectory(out, name, stem, ".pth");
  }

  /** A `.json` file inside such a directory is saved as JSON. */
  lemma JsonInDirectory(out: string, name: string, stem: string)
    requires name == stem + ".json" && PlainStem(stem)
    requires !Occurs(".pth", out) && !Occurs(".json", out)
    ensures SaveFormat(Join(out, name)) == JsonText
  {
    PlainName(stem, ".json");
    FormatInDirectory(out, name, stem, ".json");
    assert ".json"[..4][1] != ".pth"[1];
  }

  /** A file with another one-dot extension inside such a directory is not saved. */
  lemma OtherInDirectory(out: string, name: string, stem: string, ext: string)
    requires name == stem + ext && PlainStem(stem) && |ext| == 4 && ext[0] == '.'
    requires PlainStem(ext[1..]) && ext != ".pth"
    requires !Occurs(".pth", out) && !Occurs(".json", out)
    ensures SaveFormat(Join(out, name)) == NotSaved
  {
    assert NoSlash(ext) by {
      assert forall i :: 1 <= i < 4 ==> ext[i] == ext[1..][i - 1];
    }
    PlainName(stem, ext);
    FormatInDirectory(out, name, stem, ext);
  }

  /** The annotation collections and the camera parameters are saved as tensor blobs. */
  lemma TorchArtifacts(out: string)
    requires !Occurs(".pth", out) && !Occurs(".json", out)
    ensures SaveFormat(Join(out, "landmarks.pth")) == TorchBlob
    ensures SaveFormat(Join(out, "emoca_v2.pth")) == TorchBlob
    ensures SaveFormat(Join(out, "camera_params.pth")) == TorchBlob
  {
    TorchInDirectory(out, "landmarks.pth", "landmarks");
    TorchInDirectory(out, "emoca_v2.pth", "emoca_v2");
    TorchInDirectory(out, "camera_params.pth", "camera_params");
  }

  /** The lighting, analysis-by-synthesis and smoothed results are saved as JSON. */
  lemma JsonArtifacts(out: string)
    requires !Occurs(".pth", out) && !Occurs(".json", out)
    ensures SaveFormat(Join(out, "lightning.json")) == JsonText
    ensures SaveFormat(Join(out, "anal_by_synth.json")) == JsonText
    ensures SaveFormat(Join(out, "smoothed_results.json")) == JsonText
  {
    JsonInDirectory(out, "lightning.json", "lightning");
    JsonInDirectory(out, "anal_by_synth.json", "anal_by_synth");
    JsonInDirectory(out, "smoothed_results.json", "smoothed_results");
  }

  /** `save` writes nothing for the video and the calibration image. */
  lemma UnsavedArtifacts(out: string)
    requires !Occurs(".pth", out) && !Occurs(".json", out)
    ensures SaveFormat(Join(out, "track.mp4")) == NotSaved
    ensures SaveFormat(Join(out, "calibration.jpg")) == NotSaved
  {
    OtherInDirectory(out, "track.mp4", "track", ".mp4");
    OtherInDirectory(out, "calibration.jpg", "calibration", ".jpg");
  }

  /** Nor for the store directory. */
  lemma DatasetNotSaved(out: string)
    requires !Occurs(".pth", out) && !Occurs(".json", out)
    ensures SaveFormat(Join(out, "lmdb")) == NotSaved
  {
    OccursInJoin(".pth", out, "lmdb");
    OccursInJoin(".json", out, "lmdb");
    assert "lmdb"[0..4][0] != ".pth"[0];
  }

  /**
   The dispatch looks at the whole path: under an output directory whose
   name contains `.pth`, the JSON artifacts are written with `torch.save`.
   */
  lemma SaveFormatFollowsDirectory(out: string, name: string)
    requires NoSlash(name) && Occurs(".pth", out)
    ensures SaveFormat(Join(out, name)) == TorchBlob
  {
    var i :| OccursAt(".pth", out, i);
    var p := Join(out, name);
    if |name| > 0 {
      assert name[0] != '/';
    }
    assert p[i..i + 4] == out[i..i + 4];
    assert OccursAt(".pth", p, i);
  }

  // ---------------------------------------------------------------------
  // build_data_lmdb

  /**
   `build_data_lmdb()`: when the store directory exists nothing happens;
   otherwise the video is read, every frame is put under its key in a fresh
   store with the chunked commits, and the store directory appears.
   */
  function BuildDataLmdb(e: Engine, disk: Disk): (r: Result<Disk>)
    ensures DatasetKey !in e.paths ==> r == Err(KeyNotFound(DatasetKey))
    ensures DatasetKey in e.paths && e.paths[DatasetKey] in disk ==> r == Ok(disk)
    ensures r.Ok? ==> DatasetKey in e.paths && e.paths[DatasetKey] in r.value
    ensures r.Ok? ==> r.value.Keys == disk.Keys + {e.paths[DatasetKey]}
    ensures r.Ok? ==> forall p :: p in disk && p != e.paths[DatasetKey] ==> r.value[p] == disk[p]
  {
    var dataset :- PathOf(e, DatasetKey);
    if dataset in disk then
      Ok(disk)
    else
      var video :- PathOf(e, VideoKey);
      var frames :- ReadVideo(disk, video);
      Ok(disk[dataset := StoreDir(Ingest(map[], frames).store)])
  }

  /** After a successful build, `check_path('dataset_path')` finds the store. */
  lemma CheckPathAfterBuild(e: Engine, disk: Disk)
    requires BuildDataLmdb(e, disk).Ok?
    ensures CheckPath(e, BuildDataLmdb(e, disk).value, DatasetKey) == Ok(true)
  {
  }

  /** A build on a disk without the store reads the whole video and stores exactly its frames under keys `0 .. N-1`. */
  lemma BuildFresh(e: Engine, disk: Disk)
    requires DatasetKey in e.paths && e.paths[DatasetKey] !in disk
    ensures BuildDataLmdb(e, disk).Ok? <==>
      VideoKey in e.paths && e.paths[VideoKey] in disk && disk[e.paths[VideoKey]].VideoFile?
    ensures BuildDataLmdb(e, disk).Ok? ==>
      var frames := disk[e.paths[VideoKey]].frames;
      var f := BuildDataLmdb(e, disk).value[e.paths[DatasetKey]];
      f.StoreDir? && HoldsExactly(frames, f.store)
  {
    if BuildDataLmdb(e, disk).Ok? {
      var frames := disk[e.paths[VideoKey]].frames;
      IngestFresh(frames);
    }
  }

  // ---------------------------------------------------------------------
  // The store handle and frames()

  /** What opening the store read-only gives: the handle already held, or the store on disk. */
  function StoreSource(e: Engine, disk: Disk): (r: Result<Store>)
    ensures e.reader.Some? ==> r == Ok(e.reader.value)
  {
    if e.reader.Some? then
      Ok(e.reader.value)
    else
      var dataset :- PathOf(e, DatasetKey);
      if dataset in disk && disk[dataset].StoreDir? then Ok(disk[dataset].store) else Err(StoreNotFound(dataset))
  }

  /** `if not hasattr(self, '_dataset_lmdb_env'): ... lmdb.open(..., readonly=True)`. */
  function OpenReader(e: Engine, disk: Disk): (r: Result<Engine>)
    ensures r.Ok? <==> StoreSource(e, disk).Ok?
    ensures r.Ok? ==> r.value == e.(reader := Some(StoreSource(e, disk).value))
    ensures r.Err? ==> r.error == StoreSource(e, disk).error
  {
    var store :- StoreSource(e, disk);
    Ok(e.(reader := Some(store)))
  }

  /** `self._frames[:10]`. */
  function Shown(frames: seq<string>): (r: seq<string>)
    ensures |r| <= ShownFrames
    ensures |r| == if |frames| < ShownFrames then |frames| else ShownFrames
    ensures r == frames[..|r|]
  {
    if |frames| < ShownFrames then frames else frames[..ShownFrames]
  }

  /** The memoised list is the numeric ordering of the keys of the store the engine holds. */
  ghost predicate FrameListCoherent(e: Engine) {
    e.frameList.Some? ==> e.reader.Some? && NumericOrder(Ascending(e.reader.value.Keys)) == Ok(e.frameList.value)
  }

  /**
   `frames()`: open the store if needed, list its keys in cursor order and
   sort them by parsed index once, then hand out the first ten.
   */
  function Frames(e: Engine, disk: Disk): (o: Outcome<seq<string>>)
    ensures o.result.Ok? ==> |o.result.value| <= ShownFrames
    ensures o.result.Ok? ==> o.engine.frameList.Some? && o.result.value == Shown(o.engine.frameList.value)
  {
    match OpenReader(e, disk)
    case Err(err) => Outcome(e, Err(err))
    case Ok(e1) =>
      if e1.frameList.Some? then
        Outcome(e1, Ok(Shown(e1.frameList.value)))
      else
        match NumericOrder(Ascending(e1.reader.value.Keys))
        case Err(err) => Outcome(e1, Err(err))
        case Ok(all) => Outcome(e1.(frameList := Some(all)), Ok(Shown(all)))
  }

  /**
   On a coherent engine `frames()` keeps the memo coherent, and what it
   returns is the first ten keys of the store in frame order; it fails
   exactly when the store cannot be opened or some key's index does not parse.
   */
  lemma FramesResult(e: Engine, disk: Disk)
    requires FrameListCoherent(e)
    ensures var o := Frames(e, disk);
      && FrameListCoherent(o.engine)
      && (o.result.Ok? <==> StoreSource(e, disk).Ok? && NumericOrder(Ascending(StoreSource(e, disk).value.Keys)).Ok?)
      && (o.result.Ok? ==> o.result.value == Shown(NumericOrder(Ascending(StoreSource(e, disk).value.Keys)).value))
  {
  }

  /** The memo: once `frames()` succeeded, calling it again changes nothing and ignores the disk. */
  lemma FramesMemoised(e: Engine, disk: Disk, later: Disk)
    requires Frames(e, disk).result.Ok?
    ensures var o := Frames(e, disk);
      Frames(o.engine, later) == Outcome(o.engine, o.result)
  {
  }

  // ---------------------------------------------------------------------
  // The frame list of a freshly built store

  /** `[Key(0), ..., Key(n-1)]`. */
  function FrameKeys(n: nat): (ks: seq<string>)
    ensures |ks| == n
    ensures forall i :: 0 <= i < n ==> ks[i] == Key(i)
  {
    if n == 0 then [] else FrameKeys(n - 1) + [Key(n - 1)]
  }

  lemma {:induction false} FrameKeysSet(n: nat)
    ensures forall k :: k in FrameKeys(n) <==> k in KeysUpTo(n)
  {
    if n > 0 {
      FrameKeysSet(n - 1);
      assert FrameKeys(n) == FrameKeys(n - 1) + [Key(n - 1)];
    }
  }

  lemma FrameKeysSorted(n: nat)
    requires n <= Pow10(Width)
    ensures LexSorted(FrameKeys(n))
  {
    var ks := FrameKeys(n);
    forall i, j | 0 <= i < j < n ensures LexLess(ks[i], ks[j]) {
      KeyLexOrder(i, j);
    }
  }

  /** The first element of a sorted sequence is the least of its elements. */
  lemma SortedHeadIsMin(ks: seq<string>)
    requires |ks| > 0 && LexSorted(ks)
    ensures var s := set k | k in ks; ks[0] in s && LexMin(s) == ks[0]
    ensures (set k | k in ks) - {ks[0]} == set k | k in ks[1..]
  {
    var s := set k | k in ks;
    assert IsLexMin(ks[0], s) by {
      forall x | x in s && x != ks[0] ensures LexLess(ks[0], x) {
        var j :| 0 <= j < |ks| && ks[j] == x;
      }
    }
    LexMinUnique(s);
    forall x | x in ks[1..] ensures x != ks[0] {
      var j :| 0 <= j < |ks[1..]| && ks[1..][j] == x;
      assert ks[j + 1] == x;
      LexIrreflexive(x);
    }
  }

  lemma SortedTail(ks: seq<string>)
    requires |ks| > 0 && LexSorted(ks)
    ensures LexSorted(ks[1..])
  {
    forall i, j | 0 <= i < j < |ks| - 1 ensures LexLess(ks[1..][i], ks[1..][j]) {
      assert ks[1..][i] == ks[i + 1] && ks[1..][j] == ks[j + 1];
    }
  }

  /** A sorted sequence of keys is exactly the cursor order of its key set. */
  lemma {:induction false} SortedIsAscending(ks: seq<string>)
    requires LexSorted(ks)
    ensures Ascending(set k | k in ks) == ks
  {
    if |ks| > 0 {
      var s := set k | k in ks;
      SortedHeadIsMin(ks);
      SortedTail(ks);
      SortedIsAscending(ks[1..]);
      assert Ascending(s) == [ks[0]] + Ascending(s - {ks[0]});
      assert ks == [ks[0]] + ks[1..];
    }
  }

  /** The cursor lists a freshly built store's keys in frame order, and `frames()` sorts nothing. */
  lemma FreshStoreOrder(n: nat)
    requires n <= Pow10(Width)
    ensures Ascending(KeysUpTo(n)) == FrameKeys(n)
    ensures NumericOrder(FrameKeys(n)) == Ok(FrameKeys(n))
  {
    var ks := FrameKeys(n);
    FrameKeysSet(n);
    assert (set k | k in ks) == KeysUpTo(n);
    FrameKeysSorted(n);
    SortedIsAscending(ks);
    var idx := seq(n, i => i);
    CanonicalKeysNeedNoSort(ks, idx);
  }

  /** A strictly increasing sequence of non-negative numbers has each entry at least its position. */
  lemma {:induction false} AtLeastPosition(idx: seq<int>, i: nat)
    requires i < |idx| && 0 <= idx[0]
    requires forall a, b :: 0 <= a < b < |idx| ==> idx[a] < idx[b]
    ensures i <= idx[i]
    decreases i
  {
    if i > 0 {
      AtLeastPosition(idx, i - 1);
    }
  }

  /** A strictly increasing sequence whose last entry is below its length has each entry at most its position. */
  lemma {:induction false} AtMostPosition(idx: seq<int>, i: nat)
    requires i < |idx| && idx[|idx| - 1] < |idx|
    requires forall a, b :: 0 <= a < b < |idx| ==> idx[a] < idx[b]
    ensures idx[i] <= i
    decreases |idx| - i
  {
    if i < |idx| - 1 {
      AtMostPosition(idx, i + 1);
    }
  }

  /** A key of one of the first `n` frames parses to that frame's index. */
  lemma KeysUpToIndex(k: string, n: nat)
    requires k in KeysUpTo(n)
    ensures KeyIndex(k).Some? && 0 <= KeyIndex(k).value < n && k == Key(KeyIndex(k).value)
  {
    KeysUpToMember(k, n);
    var i :| 0 <= i < n && Key(i) == k;
    KeyRoundTrip(i);
  }

  /** `frames()` on a freshly built store: every key parses, and the result holds `n` keys of frames below `n`. */
  lemma FreshKeysOrdered(n: nat)
    ensures NumericOrder(Ascending(KeysUpTo(n))).Ok?
    ensures var r := NumericOrder(Ascending(KeysUpTo(n))).value;
      |r| == n && forall k :: 0 <= k < n ==> r[k] in KeysUpTo(n)
  {
    var ks := Ascending(KeysUpTo(n));
    KeysUpToSize(n);
    forall k | 0 <= k < |ks| ensures KeyIndex(ks[k]).Some? {
      KeysUpToIndex(ks[k], n);
    }
    var o := NumericOrder(ks);
    assert o.Ok?;
    PermutedWithin(ks, o.value, KeysUpTo(n));
  }

  /** A permutation of a list drawn from `s` has its length and is drawn from `s`. */
  lemma PermutedWithin(ks: seq<string>, r: seq<string>, s: set<string>)
    requires multiset(r) == multiset(ks) && forall k :: k in ks ==> k in s
    ensures |r| == |ks| && forall k :: 0 <= k < |r| ==> r[k] in s
  {
    assert |multiset(r)| == |multiset(ks)|;
    forall k | 0 <= k < |r| ensures r[k] in s {
      assert r[k] in multiset(ks);
    }
  }

  /** `n` keys of frames below `n`, strictly increasing by (index, bytes), are the keys of frames `0 .. n-1` in order. */
  lemma FrameKeysByIndex(r: seq<string>, n: nat)
    requires |r| == n && forall k :: 0 <= k < n ==> r[k] in KeysUpTo(n)
    requires forall a, b :: 0 <= a < b < |r| ==>
      KeyIndex(r[a]).Some? && KeyIndex(r[b]).Some? &&
      (KeyIndex(r[a]).value < KeyIndex(r[b]).value ||
       (KeyIndex(r[a]) == KeyIndex(r[b]) && LexLess(r[a], r[b])))
    ensures r == FrameKeys(n)
  {
    forall k | 0 <= k < n ensures KeyIndex(r[k]).Some? && 0 <= KeyIndex(r[k]).value < n && r[k] == Key(KeyIndex(r[k]).value) {
      KeysUpToIndex(r[k], n);
    }
    var idx := seq(n, k requires 0 <= k < n => KeyIndex(r[k]).value);
    forall a, b | 0 <= a < b < n ensures idx[a] < idx[b] {
      if idx[a] == idx[b] {
        LexIrreflexive(r[a]);
      }
    }
    forall k | 0 <= k < n ensures r[k] == FrameKeys(n)[k] {
      AtLeastPosition(idx, k);
      AtMostPosition(idx, k);
    }
  }

  /**
   Whatever the number of frames, `frames()` puts a freshly built store in
   frame order: above `10^7` frames the cursor order is not the frame order,
   but the numeric sort restores it.
   */
  lemma FreshFrameOrder(n: nat)
    ensures NumericOrder(Ascending(KeysUpTo(n))) == Ok(FrameKeys(n))
  {
    var ks := Ascending(KeysUpTo(n));
    FreshKeysOrdered(n);
    NumericOrderOfCursor(ks);
    FrameKeysByIndex(NumericOrder(ks).value, n);
  }

  /**
   End to end: after building the store from a video of `N` frames, a new
   engine's `frames()` lists `f_0000000.jpg`, `f_0000001.jpg`, ... — the
   first `min(N, 10)` frame keys in frame order.
   */
  lemma BuildThenFrames(pathDict: map<string, string>, disk: Disk)
    requires Init(pathDict).Ok?
    requires var e := Init(pathDict).value;
      e.paths[DatasetKey] !in disk && VideoKey in e.paths && e.paths[VideoKey] in disk
      && disk[e.paths[VideoKey]].VideoFile?
    ensures var e := Init(pathDict).value;
      var built := BuildDataLmdb(e, disk).value;
      Frames(e, built).result == Ok(Shown(FrameKeys(|disk[e.paths[VideoKey]].frames|)))
  {
    var e := Init(pathDict).value;
    assert DatasetKey in ArtifactNames;
    var n := |disk[e.paths[VideoKey]].frames|;
    BuildFresh(e, disk);
    var built := BuildDataLmdb(e, disk).value;
    assert StoreSource(e, built).value.Keys == KeysUpTo(n);
    FreshFrameOrder(n);
    FramesResult(e, built);
  }

  // ---------------------------------------------------------------------
  // The annotation caches

  /** What a lazy getter reads: its cache when present, otherwise `torch.load` of the registered path. */
  function CacheSource(cache: Option<Value>, e: Engine, disk: Disk, key: string): (r: Result<Value>)
    ensures cache.Some? ==> r == Ok(cache.value)
    ensures cache.None? && key in e.paths ==> r == TorchLoad(disk, e.paths[key])
    ensures cache.None? && key !in e.paths ==> r == Err(KeyNotFound(key))
  {
    if cache.Some? then
      Ok(cache.value)
    else
      var path :- PathOf(e, key);
      TorchLoad(disk, path)
  }

  /** `get_landmarks(name)`: load the collection on first use, then `self.landmarks[name]`. */
  function GetLandmarks(e: Engine, disk: Disk, name: string): (o: Outcome<Value>)
  {
    match CacheSource(e.landmarks, e, disk, LandmarksKey)
    case Err(err) => Outcome(e, Err(err))
    case Ok(table) => Outcome(e.(landmarks := Some(table)), Subscript(table, name))
  }

  /** `get_emoca_params(name)`: load the collection on first use, then `self.emoca_params[name]`. */
  function GetEmocaParams(e: Engine, disk: Disk, name: string): (o: Outcome<Value>)
  {
    match CacheSource(e.emoca, e, disk, EmocaKey)
    case Err(err) => Outcome(e, Err(err))
    case Ok(table) => Outcome(e.(emoca := Some(table)), Subscript(table, name))
  }

  /** `get_camera_params()`: load on first use, then the whole value. */
  function GetCameraParams(e: Engine, disk: Disk): (o: Outcome<Value>)
  {
    match CacheSource(e.camera, e, disk, CameraKey)
    case Err(err) => Outcome(e, Err(err))
    case Ok(v) => Outcome(e.(camera := Some(v)), Ok(v))
  }
}

=== FILE: files.dfy ===
/**
 The file system as the data engine sees it: a flat map from paths to
 files, `os.path.join`, `torch.load`, the video reader, and the
 format dispatch of `save`.
 */
module Files {
  import opened Common
  import opened Values
  import opened FrameStore

  /**
   What a path can hold: a `torch.save` blob, a `json.dump` text, the
   directory of a frame store, a video (already decoded, resized,
   cropped and JPEG-encoded, one byte string per frame) or anything else.
   */
  datatype File =
    | TorchFile(content: Value)
    | JsonFile(content: Value)
    | StoreDir(store: Store)
    | VideoFile(frames: seq<Bytes>)
    | OtherFile

  type Disk = map<string, File>

  // ---------------------------------------------------------------------
  // Paths

  predicate NoSlash(s: string) {
    forall i :: 0 <= i < |s| ==> s[i] != '/'
  }

  /** The separator `os.path.join` puts between `a` and a relative `b`. */
  function Separator(a: string): string {
    if a == "" || a[|a| - 1] == '/' then "" else "/"
  }

  /** POSIX `os.path.join(a, b)`: an absolute `b` replaces `a`; otherwise a `/` is added unless `a` is empty or ends with one. */
  function Join(a: string, b: string): string {
    if |b| > 0 && b[0] == '/' then b else a + Separator(a) + b
  }

  /** POSIX `os.path.basename`: everything after the last `/`. */
  function Basename(p: string): (b: string)
    ensures NoSlash(b) && |b| <= |p|
  {
    if |p| == 0 || p[|p| - 1] == '/' then "" else Basename(p[..|p| - 1]) + [p[|p| - 1]]
  }

  /** A slash-free name after a directory prefix (empty or ending in `/`) is the basename. */
  lemma {:induction false} BasenameAfterDir(d: string, b: string)
    requires d == "" || d[|d| - 1] == '/'
    requires NoSlash(b)
    ensures Basename(d + b) == b
  {
    if |b| == 0 {
      assert d + b == d;
    } else {
      var init := b[..|b| - 1];
      assert (d + b)[..|d + b| - 1] == d + init;
      BasenameAfterDir(d, init);
      assert b == init + [b[|b| - 1]];
    }
  }

  /** Round trip: the basename of `join(a, b)` gives back a slash-free `b`. */
  lemma BasenameJoin(a: string, b: string)
    requires NoSlash(b)
    ensures Basename(Join(a, b)) == b
  {
    var d := a + Separator(a);
    assert d == "" || d[|d| - 1] == '/';
    if |b| > 0 {
      assert b[0] != '/';
    }
    assert Join(a, b) == d + b;
    BasenameAfterDir(d, b);
  }

  /** Joining one directory with distinct slash-free names gives distinct paths. */
  lemma JoinInjective(a: string, b: string, c: string)
    requires NoSlash(b) && NoSlash(c)
    ensures Join(a, b) == Join(a, c) <==> b == c
  {
    BasenameJoin(a, b);
    BasenameJoin(a, c);
  }

  lemma OccursInSuffix(t: string, x: string, y: string, i: int)
    requires OccursAt(t, x + y, i) && i >= |x|
    ensures OccursAt(t, y, i - |x|)
  {
    assert (x + y)[i..i + |t|] == y[i - |x|..i - |x| + |t|];
  }

  lemma OccursInPrefix(t: string, x: string, y: string, i: int)
    requires OccursAt(t, x + y, i) && i + |t| <= |x|
    ensures OccursAt(t, x, i)
  {
    assert (x + y)[i..i + |t|] == x[i..i + |t|];
  }

  lemma OccursCovers(t: string, p: string, i: int, k: int)
    requires OccursAt(t, p, i) && i <= k < i + |t|
    ensures t[k - i] == p[k]
  {
    assert p[i..i + |t|][k - i] == p[k];
  }

  /** An occurrence in `join(a, b)` lies inside `b`, inside `a`, or covers the separating `/`. */
  lemma WindowSplit(t: string, a: string, b: string, i: int)
    requires NoSlash(b) && OccursAt(t, Join(a, b), i)
    ensures var n := |a + Separator(a)|;
      OccursAt(t, b, i - n) || OccursAt(t, a, i) || !NoSlash(t)
  {
    var sep := Separator(a);
    var d := a + sep;
    if |b| > 0 {
      assert b[0] != '/';
    }
    assert Join(a, b) == d + b;
    if i >= |d| {
      OccursInSuffix(t, d, b, i);
    } else if i + |t| <= |a| {
      assert d + b == a + (sep + b);
      OccursInPrefix(t, a, sep + b, i);
    } else {
      OccursCovers(t, d + b, i, |d| - 1);
      assert (d + b)[|d| - 1] == '/';
    }
  }

  /**
   A slash-free pattern that does not occur in the directory occurs in
   `join(a, b)` exactly when it occurs in the relative name `b`: no
   occurrence can straddle the separator.
   */
  lemma OccursInJoin(t: string, a: string, b: string)
    requires NoSlash(t) && NoSlash(b)
    requires !Occurs(t, a)
    ensures Occurs(t, Join(a, b)) <==> Occurs(t, b)
  {
    var d := a + Separator(a);
    var p := Join(a, b);
    if |b| > 0 {
      assert b[0] != '/';
    }
    assert p == d + b;
    if Occurs(t, b) {
      var i :| OccursAt(t, b, i);
      assert p[|d| + i..|d| + i + |t|] == b[i..i + |t|];
      assert OccursAt(t, p, |d| + i);
    }
    if Occurs(t, p) {
      var i :| OccursAt(t, p, i);
      WindowSplit(t, a, b, i);
      assert OccursAt(t, b, i - |d|);
    }
  }

  // ---------------------------------------------------------------------
  // Loading

  /** `torch.load(path)`: the blob a `torch.save` left there. */
  function TorchLoad(disk: Disk, path: string): (r: Result<Value>)
    ensures r.Ok? <==> path in disk && disk[path].TorchFile?
    ensures r.Ok? ==> r.value == disk[path].content
    ensures r.Err? ==> r.error == (if path in disk then LoadFailure(path) else FileNotFound(path))
  {
    if path !in disk then
      Err(FileNotFound(path))
    else
      match disk[path]
      case TorchFile(v) => Ok(v)
      case _ => Err(LoadFailure(path))
  }

  /** `torchvision.io.read_video` followed by the resize, crop and JPEG encoding of every frame. */
  function ReadVideo(disk: Disk, path: string): (r: Result<seq<Bytes>>)
    ensures r.Ok? <==> path in disk && disk[path].VideoFile?
    ensures r.Ok? ==> r.value == disk[path].frames
    ensures r.Err? ==> r.error == (if path in disk then LoadFailure(path) else FileNotFound(path))
  {
    if path !in disk then
      Err(FileNotFound(path))
    else
      match disk[path]
      case VideoFile(frames) => Ok(frames)
      case _ => Err(LoadFailure(path))
  }

  // ---------------------------------------------------------------------
  // Saving

  datatype Format = TorchBlob | JsonText | NotSaved

  /** The writer `save` picks: `'.pth' in path` decides first, then `'.json' in path`. */
  function SaveFormat(path: string): (f: Format)
    ensures f == TorchBlob <==> Occurs(".pth", path)
    ensures f == JsonText <==> !Occurs(".pth", path) && Occurs(".json", path)
    ensures f == NotSaved <==> !Occurs(".pth", path) && !Occurs(".json", path)
  {
    if Contains(path, ".pth") then TorchBlob
    else if Contains(path, ".json") then JsonText
    else NotSaved
  }

  /**
   `save(data, path)` on the disk: `torch.save`, `json.dump` or nothing; no
   other path changes. Both writers open the path for writing, which raises
   `IsADirectoryError` when a store directory sits there.
   */
  function Write(disk: Disk, path: string, data: Value): (r: Result<Disk>)
    ensures r.Err? <==> SaveFormat(path) != NotSaved && path in disk && disk[path].StoreDir?
    ensures r.Err? ==> r.error == IsADirectory(path)
    ensures r.Ok? && SaveFormat(path) == NotSaved ==> r.value == disk
    ensures r.Ok? && SaveFormat(path) != NotSaved ==> r.value.Keys == disk.Keys + {path}
    ensures r.Ok? ==> forall p :: p in disk && p != path ==> r.value[p] == disk[p]
  {
    match SaveFormat(path)
    case NotSaved => Ok(disk)
    case _ =>
      if path in disk && disk[path].StoreDir? then
        Err(IsADirectory(path))
      else if SaveFormat(path) == TorchBlob then
        Ok(disk[path := TorchFile(data)])
      else
        Ok(disk[path := JsonFile(data)])
  }

  /** Round trip: what `save` wrote to a `.pth` path, `torch.load` reads back. */
  lemma SaveLoad(disk: Disk, path: string, data: Value)
    requires Occurs(".pth", path)
    ensures Write(disk, path, data).Ok? ==> TorchLoad(Write(disk, path, data).value, path) == Ok(data)
  {
  }

  /** A path naming JSON but not a tensor blob cannot be read back with `torch.load`. */
  lemma SaveJsonNotLoadable(disk: Disk, path: string, data: Value)
    requires !Occurs(".pth", path) && Occurs(".json", path)
    ensures Write(disk, path, data).Ok? ==> TorchLoad(Write(disk, path, data).value, path) == Err(LoadFailure(path))
  {
  }
}

=== FILE: flame.dfy ===
/**
 The two integer rules inside the FLAME head model: which row of the
 dynamic-contour table a head yaw selects, and the neck kinematic chain,
 the walk from the neck joint up the `parents` array to the root.
 */
module Flame {
  import opened Common

  // ---------------------------------------------------------------------
  // Contour rows

  /** The largest yaw, in degrees, the contour table distinguishes. */
  const MaxYaw: int := 39

  /** The last row of the contour table, which also serves every yaw below `-MaxYaw`. */
  const LastRow: int := 78

  /** `torch.clamp(angle, max=39)` on an angle already rounded to whole degrees. */
  function ClampYaw(angle: int): (y: int)
    ensures y <= MaxYaw
    ensures y == angle || (angle > MaxYaw && y == MaxYaw)
  {
    if angle > MaxYaw then MaxYaw else angle
  }

  /** The mask arithmetic that turns a clamped yaw into a row index. */
  function ContourRow(y: int): int {
    var negMask := if y < 0 then 1 else 0;
    var mask := if y < -MaxYaw then 1 else 0;
    var negVals := mask * LastRow + (1 - mask) * (MaxYaw - y);
    negMask * negVals + (1 - negMask) * y
  }

  /** The row a whole-degree yaw selects. */
  function SelectRow(angle: int): int {
    ContourRow(ClampYaw(angle))
  }

  /**
   Read case by case: a non-negative yaw is its own row, a yaw in
   `-39..-1` selects row `39 - y` (40..78), and anything below `-39` the
   last row.
   */
  lemma ContourRowCases(y: int)
    ensures 0 <= y ==> ContourRow(y) == y
    ensures -MaxYaw <= y < 0 ==> ContourRow(y) == MaxYaw - y && MaxYaw < ContourRow(y) <= LastRow
    ensures y < -MaxYaw ==> ContourRow(y) == LastRow
  {
  }

  /** Every yaw selects a row of a 79-row table. */
  lemma SelectRowRange(angle: int)
    ensures 0 <= SelectRow(angle) <= LastRow
  {
    ContourRowCases(ClampYaw(angle));
  }

  /** Yaws beyond the range saturate: above 39 like 39, below -39 like -39. */
  lemma SelectRowSaturates(angle: int)
    ensures angle >= MaxYaw ==> SelectRow(angle) == SelectRow(MaxYaw) == MaxYaw
    ensures angle <= -MaxYaw ==> SelectRow(angle) == SelectRow(-MaxYaw) == LastRow
  {
    ContourRowCases(ClampYaw(angle));
    ContourRowCases(MaxYaw);
    ContourRowCases(-MaxYaw);
  }

  /** The yaw a row belongs to: rows `0..39` are the yaws `0..39`, rows `40..78` the yaws `-1..-39`. */
  function YawOfRow(r: int): (y: int)
    requires 0 <= r <= LastRow
    ensures -MaxYaw <= y <= MaxYaw
  {
    if r <= MaxYaw then r else MaxYaw - r
  }

  /**
   On `-39..39` the mapping is a bijection onto the rows `0..78`:
   `YawOfRow` undoes it and it undoes `YawOfRow`.
   */
  lemma ContourRowBijective(y: int, r: int)
    ensures -MaxYaw <= y <= MaxYaw ==> 0 <= SelectRow(y) <= LastRow && YawOfRow(SelectRow(y)) == y
    ensures 0 <= r <= LastRow ==> SelectRow(YawOfRow(r)) == r
  {
    ContourRowCases(y);
    if 0 <= r <= LastRow {
      ContourRowCases(YawOfRow(r));
    }
  }

  /** Distinct yaws in `-39..39` select distinct rows. */
  lemma SelectRowInjective(a: int, b: int)
    requires -MaxYaw <= a <= MaxYaw && -MaxYaw <= b <= MaxYaw
    ensures SelectRow(a) == SelectRow(b) <==> a == b
  {
    ContourRowBijective(a, 0);
    ContourRowBijective(b, 0);
  }

  /** `torch.index_select(table, 0, row)`: an out-of-range row raises. */
  function ContourEntry<T>(table: seq<T>, angle: int): (r: Result<T>)
    ensures r.Ok? <==> SelectRow(angle) < |table|
    ensures r.Ok? ==> SelectRow(angle) >= 0 && r.value == table[SelectRow(angle)]
  {
    var row := SelectRow(angle);
    SelectRowRange(angle);
    if row < |table| then Ok(table[row]) else Err(IndexOutOfRange(row))
  }

  /** A table of 79 rows, as the FLAME landmark embedding ships, serves every yaw. */
  lemma ContourEntryTotal<T>(table: seq<T>, angle: int)
    requires |table| > LastRow
    ensures ContourEntry(table, angle).Ok?
  {
    SelectRowRange(angle);
  }

  // ---------------------------------------------------------------------
  // The parent array

  /** The joint the neck chain starts from. */
  const NeckIdx: int := 1

  /**
   The first row of the kinematic tree table with the root's parent set to
   `-1` (the table may store it as an unsigned `2^32 - 1`); an empty row
   has no entry 0 to overwrite.
   */
  function Parents(kintree: seq<int>): (r: Result<seq<int>>)
    ensures r.Ok? <==> |kintree| > 0
    ensures r.Ok? ==> |r.value| == |kintree| && r.value[0] == -1
    ensures r.Ok? ==> forall j :: 1 <= j < |kintree| ==> r.value[j] == kintree[j]
  {
    if |kintree| == 0 then Err(IndexOutOfRange(0)) else Ok(kintree[0 := -1])
  }

  /** Indexing a tensor by a scalar accepts `-len .. len-1`. */
  predicate InRange(parents: seq<int>, c: int) {
    -|parents| <= c < |parents|
  }

  /** The position a (possibly negative) index refers to. */
  function Slot(parents: seq<int>, c: int): (s: nat)
    requires InRange(parents, c)
    ensures s < |parents| && (s == c || s == c + |parents|)
  {
    if c < 0 then c + |parents| else c
  }

  /** `self.parents[curr_idx]`. */
  function Next(parents: seq<int>, c: int): int
    requires InRange(parents, c)
  {
    parents[Slot(parents, c)]
  }

  // ---------------------------------------------------------------------
  // The walk

  /**
   The `while curr_idx != -1` loop from `c`, with at most `fuel` steps:
   the indices appended before reaching `-1`, an index error, or
   `Diverges` when the fuel runs out.
   */
  function Walk(parents: seq<int>, c: int, fuel: nat): Result<seq<int>>
    decreases fuel
  {
    if c == -1 then Ok([])
    else if fuel == 0 then Err(Diverges)
    else if !InRange(parents, c) then Err(IndexOutOfRange(c))
    else
      var rest :- Walk(parents, Next(parents, c), fuel - 1);
      Ok([c] + rest)
  }

  /**
   `neck_kin_chain`: the walk from joint 1, given one step per joint and one
   more. A chain it returns starts at the neck, holds valid indices and never
   `-1`, links each joint to its parent, and ends at a joint whose parent is `-1`.
   */
  function NeckKinChain(kintree: seq<int>): (r: Result<seq<int>>)
    ensures |kintree| == 0 ==> r == Err(IndexOutOfRange(0))
    ensures r.Ok? ==> Parents(kintree).Ok?
    ensures r.Ok? ==>
      var parents, chain := Parents(kintree).value, r.value;
      && chain != [] && chain[0] == NeckIdx
      && (forall k :: 0 <= k < |chain| ==> chain[k] != -1 && InRange(parents, chain[k]))
      && (forall k :: 0 <= k < |chain| - 1 ==> chain[k + 1] == Next(parents, chain[k]))
      && Next(parents, chain[|chain| - 1]) == -1
  {
    var parents :- Parents(kintree);
    var w := Walk(parents, NeckIdx, |parents| + 1);
    if w.Ok? then
      WalkSound(parents, NeckIdx, |parents| + 1);
      w
    else
      w
  }

  /**
   A chain the walk returns starts at `c`, holds valid indices and never
   `-1`, links each joint to its parent, and ends at a joint whose parent is `-1`.
   */
  lemma {:induction false} WalkSound(parents: seq<int>, c: int, fuel: nat)
    requires Walk(parents, c, fuel).Ok?
    ensures var chain := Walk(parents, c, fuel).value;
      && (c == -1 <==> chain == [])
      && (forall k :: 0 <= k < |chain| ==> chain[k] != -1 && InRange(parents, chain[k]))
      && (forall k :: 0 <= k < |chain| - 1 ==> chain[k + 1] == Next(parents, chain[k]))
      && (chain != [] ==> chain[0] == c && Next(parents, chain[|chain| - 1]) == -1)
    decreases fuel
  {
    if c != -1 {
      var n := Next(parents, c);
      WalkSound(parents, n, fuel - 1);
      var rest := Walk(parents, n, fuel - 1).value;
      var chain := [c] + rest;
      forall k | 1 <= k < |chain| ensures chain[k] == rest[k - 1] { }
    }
  }

  /**
   A parent array numbered parent-first: the root has no parent and every
   other joint's parent comes earlier. `Skeleton` drops the numbering.
   */
  predicate Tree(parents: seq<int>) {
    && |parents| > 0 && parents[0] == -1
    && forall j :: 1 <= j < |parents| ==> 0 <= parents[j] < j
  }

  /** Numbered parent-first, the walk from any joint with enough fuel reaches the root `0` and stops. */
  lemma {:induction false} TreeWalk(parents: seq<int>, c: int, fuel: nat)
    requires Tree(parents) && 0 <= c < |parents| && c < fuel
    ensures Walk(parents, c, fuel).Ok?
    ensures var chain := Walk(parents, c, fuel).value;
      0 < |chain| <= c + 1 && chain[0] == c && chain[|chain| - 1] == 0
    decreases c
  {
    if c > 0 {
      TreeWalk(parents, parents[c], fuel - 1);
    }
  }

  /** FLAME's own skeleton is numbered parent-first: the neck chain is found and ends at the root. */
  lemma NeckChainOfTree(kintree: seq<int>)
    requires Parents(kintree).Ok? && Tree(Parents(kintree).value) && |kintree| > NeckIdx
    ensures NeckKinChain(kintree).Ok?
    ensures var chain := NeckKinChain(kintree).value;
      0 < |chain| <= 2 && chain[0] == NeckIdx && chain[|chain| - 1] == 0
  {
    TreeWalk(Parents(kintree).value, NeckIdx, |kintree| + 1);
  }

  /** The FLAME 2020 tree (root, neck, jaw, two eyes) with the root parent stored unsigned. */
  lemma FlameNeckChain()
    ensures NeckKinChain([4294967295, 0, 1, 1, 1]) == Ok([1, 0])
  {
    var parents := Parents([4294967295, 0, 1, 1, 1]).value;
    assert parents == [-1, 0, 1, 1, 1];
    assert Next(parents, 0) == -1 && Next(parents, 1) == 0;
    assert InRange(parents, 0) && InRange(parents, 1);
    assert Walk(parents, -1, 4) == Ok([]);
    assert [0] + [] == [0] && [1] + [0] == [1, 0];
    assert Walk(parents, 0, 5) == Ok([0]);
    assert Walk(parents, 1, 6) == Ok([1, 0]);
  }

  /** A row too short to hold the neck joint fails on the first lookup. */
  lemma RootOnlyFails()
    ensures NeckKinChain([7]) == Err(IndexOutOfRange(1))
  {
  }

  // ---------------------------------------------------------------------
  // Running out of fuel means the loop never ends

  /** The first `k` steps from `c` neither stop at `-1` nor fail. */
  predicate Live(parents: seq<int>, c: int, k: nat)
    decreases k
  {
    k == 0 || (c != -1 && InRange(parents, c) && Live(parents, Next(parents, c), k - 1))
  }

  /** The index reached after `k` live steps. */
  function Pos(parents: seq<int>, c: int, k: nat): int
    requires Live(parents, c, k)
    decreases k
  {
    if k == 0 then c else Pos(parents, Next(parents, c), k - 1)
  }

  /** Steps compose: `a + b` live steps are `a` live steps followed by `b` more. */
  lemma {:induction false} LiveSplit(parents: seq<int>, c: int, a: nat, b: nat)
    requires Live(parents, c, a + b)
    ensures Live(parents, c, a) && Live(parents, Pos(parents, c, a), b)
    ensures Pos(parents, c, a + b) == Pos(parents, Pos(parents, c, a), b)
    decreases a
  {
    if a > 0 {
      LiveSplit(parents, Next(parents, c), a - 1, b);
    }
  }

  lemma {:induction false} LiveJoin(parents: seq<int>, c: int, a: nat, b: nat)
    requires Live(parents, c, a) && Live(parents, Pos(parents, c, a), b)
    ensures Live(parents, c, a + b)
    decreases a
  {
    if a > 0 {
      LiveJoin(parents, Next(parents, c), a - 1, b);
    }
  }

  /** Fewer steps of a live walk are live too. */
  lemma LivePrefix(parents: seq<int>, c: int, a: nat, b: nat)
    requires a <= b && Live(parents, c, b)
    ensures Live(parents, c, a)
  {
    LiveSplit(parents, c, a, b - a);
  }

  /** `Diverges` is the walk being live for all its fuel and not standing on `-1`. */
  lemma {:induction false} DivergesIffLive(parents: seq<int>, c: int, fuel: nat)
    ensures Walk(parents, c, fuel) == Err(Diverges) <==> Live(parents, c, fuel) && Pos(parents, c, fuel) != -1
    decreases fuel
  {
    if fuel > 0 && c != -1 && InRange(parents, c) {
      DivergesIffLive(parents, Next(parents, c), fuel - 1);
    }
  }

  /** A walk that comes back to where it started keeps going forever. */
  lemma {:induction false} CycleLive(parents: seq<int>, x: int, p: nat, k: nat)
    requires p > 0 && Live(parents, x, p) && Pos(parents, x, p) == x
    ensures Live(parents, x, k)
    decreases k
  {
    if k <= p {
      LivePrefix(parents, x, k, p);
    } else {
      CycleLive(parents, x, p, k - p);
      LiveJoin(parents, x, p, k - p);
    }
  }

  /** On a cycle, the walk diverges whatever the fuel. */
  lemma CycleDiverges(parents: seq<int>, x: int, p: nat, fuel: nat)
    requires p > 0 && Live(parents, x, p) && Pos(parents, x, p) == x
    ensures Walk(parents, x, fuel) == Err(Diverges)
  {
    CycleLive(parents, x, p, fuel + 1);
    LiveSplit(parents, x, fuel, 1);
    DivergesIffLive(parents, x, fuel);
  }

  /** `k` live steps that do not stand on `-1` leave the outcome to the walk from where they end. */
  lemma {:induction false} WalkShift(parents: seq<int>, c: int, k: nat, fuel: nat)
    requires k <= fuel && Live(parents, c, k)
    requires Walk(parents, Pos(parents, c, k), fuel - k) == Err(Diverges)
    ensures Walk(parents, c, fuel) == Err(Diverges)
    decreases k
  {
    if k > 0 {
      WalkShift(parents, Next(parents, c), k - 1, fuel - 1);
    }
  }

  /** Among `n + 1` values below `n`, two are equal. */
  lemma {:induction false} Pigeonhole(s: seq<nat>, n: nat)
    requires |s| > n && forall i :: 0 <= i < |s| ==> s[i] < n
    ensures exists i, j :: 0 <= i < j < |s| && s[i] == s[j]
    decreases n
  {
    var v := s[|s| - 1];
    if exists i :: 0 <= i < |s| - 1 && s[i] == v {
      var i :| 0 <= i < |s| - 1 && s[i] == v;
      assert s[i] == s[|s| - 1];
    } else {
      var t := seq(|s| - 1, i requires 0 <= i < |s| - 1 => if s[i] > v then s[i] - 1 else s[i]);
      forall i | 0 <= i < |t| ensures t[i] < n - 1 {
        assert s[i] != v;
      }
      Pigeonhole(t, n - 1);
      var i, j :| 0 <= i < j < |t| && t[i] == t[j];
      assert s[i] != v && s[j] != v;
      assert s[i] == s[j];
    }
  }

  /** A walk live for `n + 1` steps over `n` slots comes back: some index is reached twice. */
  lemma Repeats(parents: seq<int>, c: int)
    requires Live(parents, c, |parents| + 1)
    ensures exists i, j :: 0 < i < j <= |parents| + 1 && Live(parents, c, j) && Live(parents, c, i) && Pos(parents, c, i) == Pos(parents, c, j)
  {
    var n := |parents|;
    forall k | 0 <= k <= n ensures Live(parents, c, k) && InRange(parents, Pos(parents, c, k)) {
      LivePrefix(parents, c, k + 1, n + 1);
      LiveSplit(parents, c, k, 1);
    }
    var slots := seq(n + 1, k requires 0 <= k <= n => Slot(parents, Pos(parents, c, k)));
    Pigeonhole(slots, n);
    var i, j :| 0 <= i < j < |slots| && slots[i] == slots[j];
    // equal slots have equal successors
    LivePrefix(parents, c, i + 1, n + 1);
    LivePrefix(parents, c, j + 1, n + 1);
    LiveSplit(parents, c, i, 1);
    LiveSplit(parents, c, j, 1);
  }

  /** Standing on the same index twice makes the walk cycle: whatever the fuel, it runs out. */
  lemma RevisitDiverges(parents: seq<int>, c: int, i: nat, j: nat, fuel: nat)
    requires i < j && Live(parents, c, i) && Live(parents, c, j) && Pos(parents, c, i) == Pos(parents, c, j)
    ensures Walk(parents, c, fuel) == Err(Diverges)
  {
    var x := Pos(parents, c, i);
    LiveSplit(parents, c, i, j - i);
    if fuel >= i {
      CycleDiverges(parents, x, j - i, fuel - i);
      WalkShift(parents, c, i, fuel);
    } else {
      LivePrefix(parents, c, fuel + 1, j);
      LiveSplit(parents, c, fuel, 1);
      DivergesIffLive(parents, c, fuel);
    }
  }

  /**
   The fuel is enough: when `|parents| + 1` steps do not end the walk,
   no number of steps does — an index repeats, and the loop of the source
   cycles forever.
   */
  lemma DivergesForever(parents: seq<int>, c: int, fuel: nat)
    requires Walk(parents, c, |parents| + 1) == Err(Diverges)
    ensures Walk(parents, c, fuel) == Err(Diverges)
  {
    DivergesIffLive(parents, c, |parents| + 1);
    Repeats(parents, c);
    var i, j :| 0 < i < j <= |parents| + 1 && Live(parents, c, j) && Live(parents, c, i) && Pos(parents, c, i) == Pos(parents, c, j);
    RevisitDiverges(parents, c, i, j, fuel);
  }

  /** The walk from `c` never stands on the same index twice. */
  ghost predicate NoRevisit(parents: seq<int>, c: int) {
    forall i: nat, j: nat :: i < j && Live(parents, c, i) && Live(parents, c, j) ==> Pos(parents, c, i) != Pos(parents, c, j)
  }

  /** Given one step per joint and one more, the walk runs out of fuel exactly when it stands on some index twice. */
  lemma DivergesIffRevisits(parents: seq<int>, c: int, fuel: nat)
    requires |parents| < fuel
    ensures Walk(parents, c, fuel) == Err(Diverges) <==> !NoRevisit(parents, c)
  {
    if Walk(parents, c, fuel) == Err(Diverges) {
      DivergesIffLive(parents, c, fuel);
      LivePrefix(parents, c, |parents| + 1, fuel);
      Repeats(parents, c);
    }
    if !NoRevisit(parents, c) {
      var i: nat, j: nat :| i < j && Live(parents, c, i) && Live(parents, c, j) && Pos(parents, c, i) == Pos(parents, c, j);
      RevisitDiverges(parents, c, i, j, fuel);
    }
  }

  // ---------------------------------------------------------------------
  // Any skeleton, in any numbering

  /** A parent array as a kinematic table gives it: the root's parent is `-1`, every other joint's parent is a joint. */
  predicate Skeleton(parents: seq<int>) {
    && |parents| > 0 && parents[0] == -1
    && forall j :: 1 <= j < |parents| ==> 0 <= parents[j] < |parents|
  }

  /** On a skeleton the walk from a joint never indexes out of range: it reaches the root `0` and stops, or runs out of fuel. */
  lemma {:induction false} SkeletonWalk(parents: seq<int>, c: int, fuel: nat)
    requires Skeleton(parents) && 0 <= c < |parents|
    ensures Walk(parents, c, fuel).Ok? || Walk(parents, c, fuel) == Err(Diverges)
    ensures Walk(parents, c, fuel).Ok? ==>
      var chain := Walk(parents, c, fuel).value;
      |chain| > 0 && chain[0] == c && chain[|chain| - 1] == 0
    decreases fuel
  {
    if fuel > 0 && c != 0 {
      SkeletonWalk(parents, parents[c], fuel - 1);
    }
  }

  /** On a skeleton, the walk from a joint succeeds exactly when it stands on no index twice, and then ends at the root. */
  lemma AcyclicWalk(parents: seq<int>, c: int, fuel: nat)
    requires Skeleton(parents) && 0 <= c < |parents| && |parents| < fuel
    ensures Walk(parents, c, fuel).Ok? <==> NoRevisit(parents, c)
    ensures Walk(parents, c, fuel).Ok? ==>
      var chain := Walk(parents, c, fuel).value;
      |chain| > 0 && chain[0] == c && chain[|chain| - 1] == 0
  {
    SkeletonWalk(parents, c, fuel);
    DivergesIffRevisits(parents, c, fuel);
  }

  /**
   For any kinematic table whose entries past the root are joints, however
   they are numbered, the neck chain is found exactly when the walk from
   the neck meets no joint twice, and then it runs from the neck to the root.
   */
  lemma NeckChainOfAcyclic(kintree: seq<int>)
    requires |kintree| > NeckIdx
    requires forall j :: 1 <= j < |kintree| ==> 0 <= kintree[j] < |kintree|
    ensures NeckKinChain(kintree).Ok? <==> NoRevisit(Parents(kintree).value, NeckIdx)
    ensures NeckKinChain(kintree).Ok? ==>
      var chain := NeckKinChain(kintree).value;
      chain[0] == NeckIdx && chain[|chain| - 1] == 0
  {
    var parents := Parents(kintree).value;
    assert Skeleton(parents);
    AcyclicWalk(parents, NeckIdx, |parents| + 1);
  }

  /** A table numbered child first: the neck's parent is joint 2, whose parent is the root. */
  lemma ChildFirstNeckChain()
    ensures NeckKinChain([4294967295, 2, 0]) == Ok([1, 2, 0])
  {
    var parents := Parents([4294967295, 2, 0]).value;
    assert parents == [-1, 2, 0];
    assert InRange(parents, 0) && InRange(parents, 1) && InRange(parents, 2);
    assert Next(parents, 0) == -1 && Next(parents, 2) == 0 && Next(parents, 1) == 2;
    assert [0] + [] == [0] && [2] + [0] == [2, 0] && [1] + [2, 0] == [1, 2, 0];
    assert Walk(parents, -1, 1) == Ok([]);
    assert Walk(parents, 0, 2) == Ok([0]);
    assert Walk(parents, 2, 3) == Ok([2, 0]);
    assert Walk(parents, 1, 4) == Ok([1, 2, 0]);
  }

  /** A two-joint cycle never reaches `-1`. */
  lemma CyclicDiverges()
    ensures Walk([-1, 2, 1], NeckIdx, 4) == Err(Diverges)
  {
  }
}

=== FILE: frame_key.dfy ===
/**
 The frame key codec of the data engine: frame `i` is stored under
 `'f_{:07d}.jpg'.format(i)` and its index is read back with
 `int(key[2:-4])`.
 */
module FrameKey {
  import opened Common

  const Prefix: string := "f_"
  const Suffix: string := ".jpg"
  /** The minimum field width of the `{:07d}` format. */
  const Width: nat := 7

  function Pow10(k: nat): (p: nat)
    ensures p >= 1
  {
    if k == 0 then 1 else 10 * Pow10(k - 1)
  }

  predicate IsDigit(c: char) {
    '0' <= c <= '9'
  }

  predicate AllDigits(s: string) {
    forall i :: 0 <= i < |s| ==> IsDigit(s[i])
  }

  function DigitOf(c: char): (d: nat)
    requires IsDigit(c)
    ensures d < 10
  {
    c as int - '0' as int
  }

  function DigitChar(d: nat): (c: char)
    requires d < 10
    ensures IsDigit(c) && DigitOf(c) == d
  {
    ('0' as int + d) as char
  }

  /** Value of a string of decimal digits, most significant first (leading zeros allowed). */
  function DigitsValue(s: string): nat
    requires AllDigits(s)
  {
    if |s| == 0 then 0 else DigitsValue(s[..|s| - 1]) * 10 + DigitOf(s[|s| - 1])
  }

  /** Shortest decimal spelling of `n` (Python's `str(n)` for `n >= 0`). */
  function Decimal(n: nat): (s: string)
    ensures 1 <= |s| && AllDigits(s)
  {
    if n < 10 then [DigitChar(n)] else Decimal(n / 10) + [DigitChar(n % 10)]
  }

  /** `k` zero characters. */
  function Zeros(k: nat): (s: string)
    ensures |s| == k && AllDigits(s)
    ensures forall i :: 0 <= i < k ==> s[i] == '0'
  {
    if k == 0 then "" else Zeros(k - 1) + "0"
  }

  /** The `0` fill of `{:07d}`: pad on the left up to `width`, never truncate. */
  function ZeroPad(s: string, width: nat): (r: string)
  {
    if |s| >= width then s else Zeros(width - |s|) + s
  }

  /** `'f_{:07d}.jpg'.format(i)` — the store key of frame `i`. */
  function Key(i: nat): string {
    Prefix + ZeroPad(Decimal(i), Width) + Suffix
  }

  /** Python's `key[2:-4]`, with Python's clipping of out-of-range slice bounds. */
  function IndexField(key: string): (f: string)
    ensures |key| >= 6 ==> f == key[2..|key| - 4]
    ensures |key| < 6 ==> f == ""
  {
    if |key| >= 6 then key[2..|key| - 4] else ""
  }

  /** Python's `int(s)` on an optionally signed run of ASCII digits; `None` where it raises `ValueError`. */
  function ParseInt(s: string): (r: Option<int>)
    ensures r.Some? ==> |s| > 0
  {
    if |s| > 0 && (s[0] == '+' || s[0] == '-') then
      var body := s[1..];
      if |body| > 0 && AllDigits(body) then
        var v: int := DigitsValue(body);
        Some(if s[0] == '-' then -v else v)
      else
        None
    else if |s| > 0 && AllDigits(s) then
      Some(DigitsValue(s))
    else
      None
  }

  /** The sort key of `frames()`: `int(key[2:-4])`. */
  function KeyIndex(key: string): Option<int> {
    ParseInt(IndexField(key))
  }

  // ---------------------------------------------------------------------
  // Arithmetic of digit strings

  lemma {:induction false} DecimalValue(n: nat)
    ensures DigitsValue(Decimal(n)) == n
  {
    if n >= 10 {
      var s := Decimal(n);
      assert s[..|s| - 1] == Decimal(n / 10);
      DecimalValue(n / 10);
    }
  }

  lemma {:induction false} ZerosValue(k: nat)
    ensures DigitsValue(Zeros(k)) == 0
  {
    if k > 0 {
      var s := Zeros(k);
      assert s[..k - 1] == Zeros(k - 1);
      ZerosValue(k - 1);
      assert DigitsValue(s) == DigitsValue(Zeros(k - 1)) * 10 + DigitOf(s[k - 1]);
    }
  }

  /** Leading zeros do not change the value of a digit string. */
  lemma {:induction false} LeadingZeros(k: nat, s: string)
    requires AllDigits(s)
    ensures AllDigits(Zeros(k) + s)
    ensures DigitsValue(Zeros(k) + s) == DigitsValue(s)
  {
    var z := Zeros(k) + s;
    assert AllDigits(z) by {
      forall i | 0 <= i < |z| ensures IsDigit(z[i]) {
        if i < k { assert z[i] == Zeros(k)[i]; } else { assert z[i] == s[i - k]; }
      }
    }
    if |s| == 0 {
      assert z == Zeros(k);
      ZerosValue(k);
    } else {
      assert z[..|z| - 1] == Zeros(k) + s[..|s| - 1];
      assert z[|z| - 1] == s[|s| - 1];
      LeadingZeros(k, s[..|s| - 1]);
    }
  }

  /** The value of a digit string stays below `10^length`. */
  lemma {:induction false} DigitsValueBound(s: string)
    requires AllDigits(s)
    ensures DigitsValue(s) < Pow10(|s|)
  {
    if |s| > 0 {
      DigitsValueBound(s[..|s| - 1]);
    }
  }

  /** Splitting off the most significant digit. */
  lemma {:induction false} DigitsValueHead(c: char, s: string)
    requires IsDigit(c) && AllDigits(s)
    ensures AllDigits([c] + s)
    ensures DigitsValue([c] + s) == DigitOf(c) * Pow10(|s|) + DigitsValue(s)
  {
    var z := [c] + s;
    assert AllDigits(z) by {
      forall i | 0 <= i < |z| ensures IsDigit(z[i]) {
        if i > 0 { assert z[i] == s[i - 1]; }
      }
    }
    if |s| > 0 {
      var init, last := s[..|s| - 1], DigitOf(s[|s| - 1]);
      assert z[..|z| - 1] == [c] + init;
      DigitsValueHead(c, init);
      var d, p := DigitOf(c), Pow10(|init|);
      calc {
        DigitsValue(z);
        DigitsValue([c] + init) * 10 + last;
        (d * p + DigitsValue(init)) * 10 + last;
        { MulShift(d, p); }
        d * Pow10(|s|) + (DigitsValue(init) * 10 + last);
        d * Pow10(|s|) + DigitsValue(s);
      }
    }
  }

  /** `(d * p + v) * 10 == d * (10 * p) + v * 10`, kept apart from the digit reasoning. */
  lemma MulShift(d: nat, p: nat)
    ensures forall v: int :: (d * p + v) * 10 == d * (10 * p) + v * 10
  {
  }

  /** A number below `10^w` needs at most `w` digits. */
  lemma {:induction false} DecimalLength(n: nat, w: nat)
    requires 1 <= w && n < Pow10(w)
    ensures |Decimal(n)| <= w
  {
    if n >= 10 {
      assert w >= 2;
      DecimalLength(n / 10, w - 1);
    }
  }

  // ---------------------------------------------------------------------
  // The key codec

  /** `int()` reads back what `str()` wrote. */
  lemma ParseDecimal(n: nat)
    ensures ParseInt(Decimal(n)) == Some(n)
  {
    DecimalValue(n);
  }

  /** The zero-padded spelling of `n` is a digit string worth `n`. */
  lemma PaddedValue(n: nat)
    ensures AllDigits(ZeroPad(Decimal(n), Width))
    ensures DigitsValue(ZeroPad(Decimal(n), Width)) == n
  {
    var d := Decimal(n);
    DecimalValue(n);
    if |d| < Width {
      LeadingZeros(Width - |d|, d);
    }
  }

  /** The index field of `Key(i)` is the zero-padded decimal spelling of `i`. */
  lemma KeyField(i: nat)
    ensures IndexField(Key(i)) == ZeroPad(Decimal(i), Width)
  {
    var k := Key(i);
    var p := ZeroPad(Decimal(i), Width);
    assert k == Prefix + p + Suffix;
    assert k[2..|k| - 4] == p;
  }

  /** Round trip of the codec: parsing the key of frame `i` gives back `i`, for every `i >= 0`. */
  lemma KeyRoundTrip(i: nat)
    ensures KeyIndex(Key(i)) == Some(i)
  {
    KeyField(i);
    PaddedValue(i);
    var p := ZeroPad(Decimal(i), Width);
    assert p[0] != '+' && p[0] != '-' by { assert IsDigit(p[0]); }
  }

  /** Distinct frame indices get distinct keys. */
  lemma KeyInjective(i: nat, j: nat)
    ensures Key(i) == Key(j) <==> i == j
  {
    KeyRoundTrip(i);
    KeyRoundTrip(j);
  }

  /** Below `10^7` every key has the fixed shape `f_` + 7 digits + `.jpg` (13 characters). */
  lemma KeyFixedWidth(i: nat)
    requires i < Pow10(Width)
    ensures |ZeroPad(Decimal(i), Width)| == Width
    ensures |Key(i)| == |Prefix| + Width + |Suffix| == 13
  {
    DecimalLength(i, Width);
  }

  /** The worked example of the key format. */
  lemma KeyExample()
    ensures Key(42) == "f_0000042.jpg"
    ensures KeyIndex("f_0000042.jpg") == Some(42)
  {
    assert Decimal(42) == "42";
    KeyRoundTrip(42);
  }
}

=== FILE: frame_store.dfy ===
/**
 The LMDB frame store and the ingestion loop of `build_data_lmdb`: every
 decoded frame is put under its key unless the key is already present,
 the write transaction is committed after every 1000 inserts, and once
 more at the end.
 */
module FrameStore {
  import opened Common
  import opened FrameKey

  /** An LMDB environment's contents: frame key to encoded frame bytes. */
  type Store = map<string, Bytes>

  /** Inserts per write transaction. */
  const CommitEvery: nat := 1000

  /** The keys of frames `0 .. n-1`: `{Key(0), ..., Key(n-1)}`. */
  function KeysUpTo(n: nat): set<string> {
    if n == 0 then {} else KeysUpTo(n - 1) + {Key(n - 1)}
  }

  /** A write transaction: the durable contents and this transaction's not yet committed puts. */
  datatype WriteTxn = WriteTxn(committed: Store, pending: Store) {

    /** What `txn.get` observes: the durable contents overlaid with the transaction's own writes. */
    function View(): Store {
      committed + pending
    }

    /** `txn.get(key)`: `None` when absent. */
    function Get(key: string): (r: Option<Bytes>)
      ensures r.Some? <==> key in View()
      ensures r.Some? ==> r.value == View()[key]
    {
      if key in pending then Some(pending[key])
      else if key in committed then Some(committed[key])
      else None
    }

    /** `txn.put(key, value)`; the write stays pending until the next commit. */
    function Put(key: string, value: Bytes): (t: WriteTxn)
      ensures t.committed == committed
      ensures t.View() == View()[key := value]
    {
      WriteTxn(committed, pending[key := value])
    }

    /** `txn.commit()` followed by `env.begin(write=True)`: pending writes become durable. */
    function Commit(): (t: WriteTxn)
      ensures t.pending == map[]
      ensures t.View() == View()
      ensures forall k :: k in committed ==> k in t.committed
    {
      WriteTxn(committed + pending, map[])
    }
  }

  /** The loop state of `build_data_lmdb`: the open transaction, `counter`, and how many commits happened. */
  datatype IngestState = IngestState(txn: WriteTxn, counter: nat, commits: nat)

  /** `env.begin(write=True)` on a store, `counter = 0`. */
  function Begin(store: Store): IngestState {
    IngestState(WriteTxn(store, map[]), 0, 0)
  }

  /** One iteration of the loop body for a frame stored under `key`: skip if present, else put, count, maybe commit. */
  function PutIfAbsent(st: IngestState, key: string, frame: Bytes): (st': IngestState)
    ensures key in st.txn.View() ==> st' == st
    ensures key !in st.txn.View() ==>
      && st'.txn.View() == st.txn.View()[key := frame]
      && st'.counter == st.counter + 1
  {
    if st.txn.Get(key).Some? then
      st
    else
      var txn := st.txn.Put(key, frame);
      var counter := st.counter + 1;
      if counter % CommitEvery == 0 then
        IngestState(txn.Commit(), counter, st.commits + 1)
      else
        IngestState(txn, counter, st.commits)
  }

  /** One iteration of the loop, for frame number `idx`. */
  function Step(st: IngestState, idx: nat, frame: Bytes): IngestState {
    PutIfAbsent(st, Key(idx), frame)
  }

  /** The loop state after frames `0 .. |frames|-1` have been handled. */
  function Run(st: IngestState, frames: seq<Bytes>): IngestState
    decreases |frames|
  {
    if |frames| == 0 then st
    else Step(Run(st, frames[..|frames| - 1]), |frames| - 1, frames[|frames| - 1])
  }

  /** What a finished ingestion leaves: the store on disk, `counter`, and the number of commits. */
  datatype IngestReport = IngestReport(store: Store, counter: nat, commits: nat)

  /** The loop followed by the final `txn.commit()`. */
  function Ingest(initial: Store, frames: seq<Bytes>): IngestReport {
    var st := Run(Begin(initial), frames);
    IngestReport(st.txn.Commit().committed, st.counter, st.commits + 1)
  }

  // ---------------------------------------------------------------------
  // Invariants of the loop

  /**
   The arithmetic of the chunked commits, over plain numbers: after
   `commits` full chunks, `pending` puts are waiting and `durable` entries
   were added to the store by commits.
   */
  ghost predicate Tally(counter: nat, commits: nat, pending: nat, durable: int) {
    && pending < CommitEvery
    && counter == commits * CommitEvery + pending
    && durable == commits * CommitEvery
  }

  /** The layout of a write transaction: pending puts are for keys not yet durable, and the initial entries stay durable. */
  ghost predicate Layout(initial: Store, txn: WriteTxn) {
    && txn.committed.Keys !! txn.pending.Keys
    && (forall k :: k in initial ==> k in txn.committed && txn.committed[k] == initial[k])
  }

  /** Bookkeeping of the chunked commits. */
  ghost predicate ChunkInv(initial: Store, st: IngestState) {
    && Layout(initial, st.txn)
    && Tally(st.counter, st.commits, |st.txn.pending|, |st.txn.committed| - |initial|)
  }

  /** The visible contents after `n` frames: the initial entries untouched, every new key holding its frame. */
  ghost predicate Contents(initial: Store, frames: seq<Bytes>, n: nat, v: Store)
    requires n <= |frames|
  {
    && v.Keys == initial.Keys + KeysUpTo(n)
    && (forall k :: k in initial ==> v[k] == initial[k])
    && (forall i :: 0 <= i < n && Key(i) !in initial ==> Key(i) in v && v[Key(i)] == frames[i])
  }

  lemma DisjointUnionSize(a: Store, b: Store)
    requires a.Keys !! b.Keys
    ensures |a + b| == |a| + |b|
  {
    assert (a + b).Keys == a.Keys + b.Keys;
    assert |(a + b).Keys| == |a.Keys| + |b.Keys|;
  }

  /** Frame `i`'s key is among the first `n` keys exactly when `i < n`. */
  lemma {:induction false} KeyInKeysUpTo(i: nat, n: nat)
    ensures Key(i) in KeysUpTo(n) <==> i < n
  {
    if n > 0 {
      KeyInKeysUpTo(i, n - 1);
      KeyInjective(i, n - 1);
    }
  }

  /** Every member of `KeysUpTo(n)` is the key of some frame below `n`. */
  lemma {:induction false} KeysUpToMember(k: string, n: nat)
    requires k in KeysUpTo(n)
    ensures exists i :: 0 <= i < n && Key(i) == k
  {
    if k != Key(n - 1) {
      KeysUpToMember(k, n - 1);
    }
  }

  lemma KeysUpToStep(n: nat)
    ensures KeysUpTo(n + 1) == KeysUpTo(n) + {Key(n)}
    ensures Key(n) !in KeysUpTo(n)
  {
    KeyInKeysUpTo(n, n);
  }

  /** Frames `0 .. n-1` have `n` distinct keys. */
  lemma {:induction false} KeysUpToSize(n: nat)
    ensures |KeysUpTo(n)| == n
  {
    if n > 0 {
      KeysUpToSize(n - 1);
      KeysUpToStep(n - 1);
    }
  }

  /** The first `m` keys are among the first `n` when `m <= n`. */
  lemma {:induction false} KeysUpToMonotone(m: nat, n: nat)
    requires m <= n
    ensures KeysUpTo(m) <= KeysUpTo(n)
  {
    if m < n {
      KeysUpToMonotone(m, n - 1);
    }
  }

  /** `counter % 1000 == 0` after an increment exactly when the chunk has just become full. */
  lemma TallyDue(counter: nat, commits: nat, pending: nat, durable: int)
    requires Tally(counter, commits, pending, durable)
    ensures (counter + 1) % CommitEvery == 0 <==> pending + 1 == CommitEvery
  {
    var n := counter + 1;
    if pending + 1 < CommitEvery {
      assert n == commits * CommitEvery + (pending + 1);
      assert n % CommitEvery == pending + 1;
    } else {
      assert n == (commits + 1) * CommitEvery;
    }
  }

  /** One more put moves the tally on; a full chunk turns into one more commit. */
  lemma TallyStep(counter: nat, commits: nat, pending: nat, durable: int)
    requires Tally(counter, commits, pending, durable)
    ensures pending + 1 == CommitEvery ==> Tally(counter + 1, commits + 1, 0, durable + pending + 1)
    ensures pending + 1 < CommitEvery ==> Tally(counter + 1, commits, pending + 1, durable)
  {
  }

  /** Pending and durable puts add up to `counter`. */
  lemma TallyCount(counter: nat, commits: nat, pending: nat, durable: int)
    requires Tally(counter, commits, pending, durable)
    ensures counter == durable + pending
  {
  }

  /** The chunk bookkeeping in the terms of the source: commits so far and pending puts are `counter`'s quotient and remainder. */
  lemma TallyQuotient(counter: nat, commits: nat, pending: nat, durable: int)
    requires Tally(counter, commits, pending, durable)
    ensures commits == counter / CommitEvery && pending == counter % CommitEvery
  {
  }

  /** A put of an absent key keeps the layout and adds one pending entry. */
  lemma PutLayout(initial: Store, txn: WriteTxn, key: string, frame: Bytes)
    requires Layout(initial, txn) && key !in txn.View()
    ensures Layout(initial, txn.Put(key, frame))
    ensures |txn.Put(key, frame).pending| == |txn.pending| + 1
    ensures txn.Put(key, frame).committed == txn.committed
  {
    assert txn.Put(key, frame) == WriteTxn(txn.committed, txn.pending[key := frame]);
  }

  /** A commit keeps the layout and makes every pending entry durable. */
  lemma CommitLayout(initial: Store, txn: WriteTxn)
    requires Layout(initial, txn)
    ensures Layout(initial, txn.Commit())
    ensures |txn.Commit().committed| == |txn.committed| + |txn.pending|
    ensures |txn.Commit().pending| == 0
  {
    DisjointUnionSize(txn.committed, txn.pending);
  }

  /** A put into a chunk that is not yet full keeps the bookkeeping. */
  lemma PutKeepsChunkInv(initial: Store, st: IngestState, key: string, frame: Bytes)
    requires ChunkInv(initial, st) && key !in st.txn.View()
    requires |st.txn.pending| + 1 < CommitEvery
    ensures ChunkInv(initial, IngestState(st.txn.Put(key, frame), st.counter + 1, st.commits))
  {
    PutLayout(initial, st.txn, key, frame);
    TallyStep(st.counter, st.commits, |st.txn.pending|, |st.txn.committed| - |initial|);
  }

  /** The put that fills a chunk, followed by the commit, keeps the bookkeeping. */
  lemma CommitKeepsChunkInv(initial: Store, st: IngestState, key: string, frame: Bytes)
    requires ChunkInv(initial, st) && key !in st.txn.View()
    requires |st.txn.pending| + 1 == CommitEvery
    ensures ChunkInv(initial, IngestState(st.txn.Put(key, frame).Commit(), st.counter + 1, st.commits + 1))
  {
    var txn := st.txn.Put(key, frame);
    PutLayout(initial, st.txn, key, frame);
    CommitLayout(initial, txn);
    TallyStep(st.counter, st.commits, |st.txn.pending|, |st.txn.committed| - |initial|);
  }

  /** How one put-if-absent of an absent key changes the state, by whether `counter % 1000 == 0` after the increment. */
  lemma PutIfAbsentAbsent(st: IngestState, key: string, frame: Bytes)
    requires key !in st.txn.View()
    ensures (st.counter + 1) % CommitEvery == 0 ==>
      PutIfAbsent(st, key, frame) == IngestState(st.txn.Put(key, frame).Commit(), st.counter + 1, st.commits + 1)
    ensures (st.counter + 1) % CommitEvery != 0 ==>
      PutIfAbsent(st, key, frame) == IngestState(st.txn.Put(key, frame), st.counter + 1, st.commits)
  {
  }

  /** The put that fills a chunk, in the terms of `PutIfAbsent`. */
  lemma FullChunkInv(initial: Store, st: IngestState, key: string, frame: Bytes)
    requires ChunkInv(initial, st) && key !in st.txn.View()
    requires |st.txn.pending| + 1 == CommitEvery && (st.counter + 1) % CommitEvery == 0
    ensures ChunkInv(initial, PutIfAbsent(st, key, frame))
  {
    PutIfAbsentAbsent(st, key, frame);
    CommitKeepsChunkInv(initial, st, key, frame);
  }

  /** A put into a chunk that stays open, in the terms of `PutIfAbsent`. */
  lemma OpenChunkInv(initial: Store, st: IngestState, key: string, frame: Bytes)
    requires ChunkInv(initial, st) && key !in st.txn.View()
    requires |st.txn.pending| + 1 < CommitEvery && (st.counter + 1) % CommitEvery != 0
    ensures ChunkInv(initial, PutIfAbsent(st, key, frame))
  {
    PutIfAbsentAbsent(st, key, frame);
    PutKeepsChunkInv(initial, st, key, frame);
  }

  /** Within the bookkeeping, the source's `counter % 1000 == 0` test fires exactly on the put that fills a chunk. */
  lemma ChunkDue(initial: Store, st: IngestState)
    requires ChunkInv(initial, st)
    ensures (st.counter + 1) % CommitEvery == 0 <==> |st.txn.pending| + 1 == CommitEvery
  {
    TallyDue(st.counter, st.commits, |st.txn.pending|, |st.txn.committed| - |initial|);
  }

  /** Every loop iteration keeps the chunk bookkeeping. */
  lemma PutIfAbsentChunkInv(initial: Store, st: IngestState, key: string, frame: Bytes)
    requires ChunkInv(initial, st)
    ensures ChunkInv(initial, PutIfAbsent(st, key, frame))
  {
    if key !in st.txn.View() {
      ChunkDue(initial, st);
      if |st.txn.pending| + 1 == CommitEvery {
        FullChunkInv(initial, st, key, frame);
      } else {
        OpenChunkInv(initial, st, key, frame);
      }
    }
  }

  lemma StepContents(initial: Store, frames: seq<Bytes>, n: nat, st: IngestState)
    requires n < |frames|
    requires Contents(initial, frames, n, st.txn.View())
    ensures Contents(initial, frames, n + 1, Step(st, n, frames[n]).txn.View())
  {
    KeysUpToStep(n);
    var v := st.txn.View();
    var v' := Step(st, n, frames[n]).txn.View();
    if Key(n) !in v {
      forall i | 0 <= i < n + 1 && Key(i) !in initial
        ensures Key(i) in v' && v'[Key(i)] == frames[i]
      {
        if i < n {
          KeyInjective(i, n);
        }
      }
    }
  }

  /** After any number of frames the chunk bookkeeping holds. */
  lemma {:induction false} RunChunkInv(initial: Store, frames: seq<Bytes>)
    ensures ChunkInv(initial, Run(Begin(initial), frames))
  {
    if |frames| > 0 {
      var n := |frames| - 1;
      RunChunkInv(initial, frames[..n]);
      PutIfAbsentChunkInv(initial, Run(Begin(initial), frames[..n]), Key(n), frames[n]);
    }
  }

  /** After any number of frames the visible contents are the initial entries plus every frame under its key. */
  lemma {:induction false} RunContents(initial: Store, frames: seq<Bytes>)
    ensures Contents(initial, frames, |frames|, Run(Begin(initial), frames).txn.View())
  {
    if |frames| == 0 {
      assert Begin(initial).txn.View() == initial;
    } else {
      var n := |frames| - 1;
      var init := frames[..n];
      RunContents(initial, init);
      var st := Run(Begin(initial), init);
      assert Contents(initial, frames, n, st.txn.View());
      StepContents(initial, frames, n, st);
    }
  }

  // ---------------------------------------------------------------------
  // Properties of a whole ingestion

  /** Every put is counted once: `counter` is the number of entries the loop added. */
  lemma ChunkCount(initial: Store, st: IngestState)
    requires ChunkInv(initial, st)
    ensures st.counter == |st.txn.View()| - |initial|
  {
    DisjointUnionSize(st.txn.committed, st.txn.pending);
    TallyCount(st.counter, st.commits, |st.txn.pending|, |st.txn.committed| - |initial|);
  }

  /**
   Put-if-absent: entries that were in the store keep their value, every
   frame whose key was absent is stored under its key, nothing else appears,
   and `counter` is the number of keys actually inserted.
   */
  lemma IngestPutIfAbsent(initial: Store, frames: seq<Bytes>)
    ensures var r := Ingest(initial, frames);
      && r.store.Keys == initial.Keys + KeysUpTo(|frames|)
      && (forall k :: k in initial ==> r.store[k] == initial[k])
      && (forall i :: 0 <= i < |frames| && Key(i) !in initial ==> Key(i) in r.store && r.store[Key(i)] == frames[i])
      && r.counter == |r.store| - |initial|
  {
    RunChunkInv(initial, frames);
    RunContents(initial, frames);
    ChunkCount(initial, Run(Begin(initial), frames));
  }

  /**
   Chunked commits: before the final commit, `counter / 1000` commits have
   made exactly `(counter / 1000) * 1000` inserts durable and the rest are
   pending; the final commit adds one more.
   */
  lemma IngestCommits(initial: Store, frames: seq<Bytes>)
    ensures var st := Run(Begin(initial), frames);
      && st.commits == st.counter / CommitEvery
      && |st.txn.committed| - |initial| == (st.counter / CommitEvery) * CommitEvery
      && |st.txn.pending| == st.counter % CommitEvery
      && Ingest(initial, frames).commits == st.counter / CommitEvery + 1
  {
    RunChunkInv(initial, frames);
    var st := Run(Begin(initial), frames);
    TallyQuotient(st.counter, st.commits, |st.txn.pending|, |st.txn.committed| - |initial|);
  }

  /** A fresh store ends up holding exactly the keys of frames `0 .. N-1`, each with its frame. */
  lemma IngestFresh(frames: seq<Bytes>)
    ensures var r := Ingest(map[], frames);
      && r.store.Keys == KeysUpTo(|frames|)
      && |r.store| == |frames|
      && r.counter == |frames|
      && (forall i :: 0 <= i < |frames| ==> Key(i) in r.store && r.store[Key(i)] == frames[i])
  {
    IngestPutIfAbsent(map[], frames);
    KeysUpToSize(|frames|);
  }

  // ---------------------------------------------------------------------
  // Interrupted runs

  /** What is durable if the process dies after the loop has handled `k` frames of a fresh run. */
  function Durable(frames: seq<Bytes>, k: nat): Store
    requires k <= |frames|
  {
    Run(Begin(map[]), frames[..k]).txn.committed
  }

  /** How many of the first `k` puts `k / 1000` commits made durable: `k` rounded down to a multiple of 1000. */
  function CommittedPrefix(k: nat): (c: nat)
    ensures c <= k < c + CommitEvery
    ensures c % CommitEvery == 0
  {
    (k / CommitEvery) * CommitEvery
  }

  /** A store holding exactly frames `0 .. |frames|-1`, each under its key. */
  ghost predicate HoldsExactly(frames: seq<Bytes>, m: Store) {
    && m.Keys == KeysUpTo(|frames|)
    && (forall i :: 0 <= i < |frames| ==> Key(i) in m && m[Key(i)] == frames[i])
  }

  /** The loop over a fresh store has put every frame so far. */
  lemma FreshContents(frames: seq<Bytes>)
    ensures HoldsExactly(frames, Run(Begin(map[]), frames).txn.View())
  {
    RunContents(map[], frames);
  }

  /** The loop over a fresh store has counted every frame so far. */
  lemma FreshCount(frames: seq<Bytes>)
    ensures Run(Begin(map[]), frames).counter == |frames|
  {
    var st := Run(Begin(map[]), frames);
    RunChunkInv(map[], frames);
    ChunkCount(map[], st);
    FreshContents(frames);
    KeysUpToSize(|frames|);
    assert |st.txn.View()| == |st.txn.View().Keys|;
  }

  /** Handling frame `k-1` of a fresh run commits everything exactly when `k` is a multiple of 1000. */
  lemma DurableStep(frames: seq<Bytes>, k: nat)
    requires 0 < k <= |frames|
    ensures k % CommitEvery == 0 ==> Durable(frames, k) == Run(Begin(map[]), frames[..k]).txn.View()
    ensures k % CommitEvery != 0 ==> Durable(frames, k) == Durable(frames, k - 1)
  {
    var fs := frames[..k];
    assert fs[..k - 1] == frames[..k - 1];
    var st := Run(Begin(map[]), frames[..k - 1]);
    assert Run(Begin(map[]), fs) == PutIfAbsent(st, Key(k - 1), frames[k - 1]);
    FreshCount(frames[..k - 1]);
    FreshContents(frames[..k - 1]);
    KeysUpToStep(k - 1);
    PutIfAbsentAbsent(st, Key(k - 1), frames[k - 1]);
  }

  /** `CommittedPrefix` only moves when `k` reaches a multiple of 1000. */
  lemma CommittedPrefixStep(k: nat)
    requires k > 0
    ensures k % CommitEvery == 0 ==> CommittedPrefix(k) == k
    ensures k % CommitEvery != 0 ==> CommittedPrefix(k) == CommittedPrefix(k - 1)
  {
  }

  /** In a fresh run, exactly the first `(k / 1000) * 1000` frames are durable after `k` frames. */
  lemma {:induction false} FreshDurablePrefix(frames: seq<Bytes>, k: nat)
    requires k <= |frames|
    ensures var c := CommittedPrefix(k);
      && Durable(frames, k).Keys == KeysUpTo(c)
      && (forall i :: 0 <= i < c ==> Key(i) in Durable(frames, k) && Durable(frames, k)[Key(i)] == frames[i])
  {
    if k == 0 {
      assert KeysUpTo(0) == {};
    } else {
      DurableStep(frames, k);
      CommittedPrefixStep(k);
      if k % CommitEvery == 0 {
        FreshContents(frames[..k]);
      } else {
        FreshDurablePrefix(frames, k - 1);
      }
    }
  }

  /** The keys and the frames under them determine the store. */
  lemma HoldsExactlyUnique(frames: seq<Bytes>, m1: Store, m2: Store)
    requires HoldsExactly(frames, m1) && HoldsExactly(frames, m2)
    ensures m1 == m2
  {
    forall key | key in m1 ensures m1[key] == m2[key] {
      KeysUpToMember(key, |frames|);
      var i :| 0 <= i < |frames| && Key(i) == key;
    }
  }

  /** A resumed run leaves the same store as an uninterrupted one. */
  lemma ResumeStore(frames: seq<Bytes>, k: nat)
    requires k <= |frames|
    ensures Ingest(Durable(frames, k), frames).store == Ingest(map[], frames).store
  {
    var c := CommittedPrefix(k);
    var d := Durable(frames, k);
    var a := Ingest(d, frames).store;
    FreshDurablePrefix(frames, k);
    IngestPutIfAbsent(d, frames);
    KeysUpToMonotone(c, |frames|);
    forall i | 0 <= i < |frames| ensures a[Key(i)] == frames[i] {
      KeyInKeysUpTo(i, c);
    }
    IngestFresh(frames);
    HoldsExactlyUnique(frames, a, Ingest(map[], frames).store);
  }

  /** A resumed run inserts exactly the frames that were not durable. */
  lemma ResumeCount(frames: seq<Bytes>, k: nat)
    requires k <= |frames|
    ensures Ingest(Durable(frames, k), frames).counter == |frames| - CommittedPrefix(k)
  {
    var d := Durable(frames, k);
    FreshDurablePrefix(frames, k);
    KeysUpToSize(CommittedPrefix(k));
    IngestPutIfAbsent(d, frames);
    ResumeStore(frames, k);
    IngestFresh(frames);
  }

  /**
   Resuming the loop over the durable part of an interrupted fresh run
   inserts only the frames that were lost and leaves the same store as an
   uninterrupted run.
   */
  lemma ResumeAfterCrash(frames: seq<Bytes>, k: nat)
    requires k <= |frames|
    ensures var resumed := Ingest(Durable(frames, k), frames);
      && resumed.store == Ingest(map[], frames).store
      && resumed.counter == |frames| - CommittedPrefix(k)
  {
    ResumeStore(frames, k);
    ResumeCount(frames, k);
  }
}

=== FILE: key_order.dfy ===
/**
 The two orders frame keys are listed in: the byte-lexicographic order in
 which the LMDB cursor walks a store, and the order of `frames()`, which
 sorts the cursor's keys by the parsed frame index `int(key[2:-4])` with a
 stable sort.
 */
module KeyOrder {
  import opened Common
  import opened FrameKey

  // ---------------------------------------------------------------------
  // Byte-lexicographic order (the LMDB cursor order)

  /** `a` sorts strictly before `b` character by character, a proper prefix first. */
  predicate LexLess(a: string, b: string)
    decreases |a|
  {
    if |b| == 0 then false
    else if |a| == 0 then true
    else if a[0] != b[0] then a[0] < b[0]
    else LexLess(a[1..], b[1..])
  }

  lemma {:induction false} LexIrreflexive(a: string)
    ensures !LexLess(a, a)
    decreases |a|
  {
    if |a| > 0 {
      LexIrreflexive(a[1..]);
    }
  }

  lemma {:induction false} LexAsymmetric(a: string, b: string)
    ensures LexLess(a, b) ==> !LexLess(b, a)
    decreases |a|
  {
    if |a| > 0 && |b| > 0 && a[0] == b[0] {
      LexAsymmetric(a[1..], b[1..]);
    }
  }

  lemma {:induction false} LexTransitive(a: string, b: string, c: string)
    requires LexLess(a, b) && LexLess(b, c)
    ensures LexLess(a, c)
    decreases |a|
  {
    if |a| > 0 && a[0] == b[0] && b[0] == c[0] {
      LexTransitive(a[1..], b[1..], c[1..]);
    }
  }

  lemma {:induction false} LexTotal(a: string, b: string)
    requires a != b
    ensures LexLess(a, b) || LexLess(b, a)
    decreases |a|
  {
    if |a| > 0 && |b| > 0 && a[0] == b[0] {
      assert a == [a[0]] + a[1..] && b == [b[0]] + b[1..];
      LexTotal(a[1..], b[1..]);
    }
  }

  /** `m` is the lexicographically least element of `s`. */
  predicate IsLexMin(m: string, s: set<string>) {
    m in s && forall x :: x in s ==> x == m || LexLess(m, x)
  }

  lemma {:induction false} LexMinExists(s: set<string>)
    requires s != {}
    ensures exists m :: IsLexMin(m, s)
    decreases |s|
  {
    var x :| x in s;
    if s != {x} {
      var rest := s - {x};
      LexMinExists(rest);
      var m :| IsLexMin(m, rest);
      if LexLess(x, m) {
        forall y | y in s && y != x
          ensures LexLess(x, y)
        {
          if y != m {
            LexTransitive(x, m, y);
          }
        }
        assert IsLexMin(x, s);
      } else {
        LexTotal(x, m);
        assert IsLexMin(m, s);
      }
    } else {
      assert IsLexMin(x, s);
    }
  }

  lemma LexMinUnique(s: set<string>)
    ensures forall m, m' :: IsLexMin(m, s) && IsLexMin(m', s) ==> m == m'
  {
    forall m, m' | IsLexMin(m, s) && IsLexMin(m', s)
      ensures m == m'
    {
      LexAsymmetric(m, m');
    }
  }

  /** The least key of a non-empty key set. */
  function LexMin(s: set<string>): (m: string)
    requires s != {}
    ensures IsLexMin(m, s)
  {
    LexMinExists(s);
    LexMinUnique(s);
    var m :| IsLexMin(m, s);
    m
  }

  predicate LexSorted(ks: seq<string>) {
    forall i, j :: 0 <= i < j < |ks| ==> LexLess(ks[i], ks[j])
  }

  /** The keys of a store in cursor order: every key once, in ascending byte order. */
  function Ascending(s: set<string>): (ks: seq<string>)
    ensures |ks| == |s|
    ensures forall k :: k in ks <==> k in s
    ensures LexSorted(ks)
    decreases |s|
  {
    if s == {} then
      []
    else
      var m := LexMin(s);
      [m] + Ascending(s - {m})
  }

  // ---------------------------------------------------------------------
  // Fixed-width padding makes byte order agree with numeric order

  /** A larger leading digit outweighs any difference in the lower digits. */
  lemma HeadDominates(da: nat, db: nat, ra: nat, rb: nat, p: nat)
    requires da < db && ra < p && rb < p
    ensures da * p + ra < db * p + rb
  {
    MulMonotone(da + 1, db, p);
    assert (da + 1) * p == da * p + p;
  }

  lemma {:induction false} MulMonotone(a: nat, b: nat, p: nat)
    requires a <= b
    ensures a * p <= b * p
    decreases b - a
  {
    if a < b {
      MulMonotone(a, b - 1, p);
      assert b * p == (b - 1) * p + p;
    }
  }

  /** Equal-length digit strings compare lexicographically as their values compare. */
  lemma {:induction false} DigitsLexOrder(a: string, b: string)
    requires |a| == |b| && AllDigits(a) && AllDigits(b)
    ensures LexLess(a, b) <==> DigitsValue(a) < DigitsValue(b)
    decreases |a|
  {
    if |a| > 0 {
      var ta, tb := a[1..], b[1..];
      assert a == [a[0]] + ta && b == [b[0]] + tb;
      DigitsValueHead(a[0], ta);
      DigitsValueHead(b[0], tb);
      DigitsValueBound(ta);
      DigitsValueBound(tb);
      var p := Pow10(|ta|);
      if a[0] == b[0] {
        DigitsLexOrder(ta, tb);
      } else if a[0] < b[0] {
        HeadDominates(DigitOf(a[0]), DigitOf(b[0]), DigitsValue(ta), DigitsValue(tb), p);
      } else {
        HeadDominates(DigitOf(b[0]), DigitOf(a[0]), DigitsValue(tb), DigitsValue(ta), p);
      }
    }
  }

  /** A shared prefix does not affect the comparison. */
  lemma {:induction false} LexCommonPrefix(p: string, u: string, v: string)
    ensures LexLess(p + u, p + v) <==> LexLess(u, v)
    decreases |p|
  {
    if |p| > 0 {
      assert (p + u)[0] == (p + v)[0] == p[0];
      assert (p + u)[1..] == p[1..] + u;
      assert (p + v)[1..] == p[1..] + v;
      assert LexLess(p + u, p + v) == LexLess(p[1..] + u, p[1..] + v);
      LexCommonPrefix(p[1..], u, v);
    } else {
      assert p + u == u && p + v == v;
    }
  }

  /** Behind equal-length heads, a shared tail does not affect the comparison. */
  lemma {:induction false} LexCommonSuffix(x: string, y: string, q: string)
    requires |x| == |y|
    ensures LexLess(x + q, y + q) <==> LexLess(x, y)
    decreases |x|
  {
    if |x| == 0 {
      assert x + q == q && y + q == q;
      LexIrreflexive(q);
    } else {
      assert (x + q)[1..] == x[1..] + q;
      assert (y + q)[1..] == y[1..] + q;
      LexCommonSuffix(x[1..], y[1..], q);
    }
  }

  /** For frame indices below `10^7` the cursor order of keys is the numeric order of frames. */
  lemma KeyLexOrder(i: nat, j: nat)
    requires i < Pow10(Width) && j < Pow10(Width)
    ensures LexLess(Key(i), Key(j)) <==> i < j
  {
    var pi := ZeroPad(Decimal(i), Width);
    var pj := ZeroPad(Decimal(j), Width);
    KeyFixedWidth(i);
    KeyFixedWidth(j);
    assert LexLess(Key(i), Key(j)) <==> LexLess(pi + Suffix, pj + Suffix) by {
      assert Key(i) == Prefix + (pi + Suffix);
      assert Key(j) == Prefix + (pj + Suffix);
      LexCommonPrefix(Prefix, pi + Suffix, pj + Suffix);
    }
    LexCommonSuffix(pi, pj, Suffix);
    PaddedValue(i);
    PaddedValue(j);
    DigitsLexOrder(pi, pj);
  }

  // ---------------------------------------------------------------------
  // The order of `frames()`: stable sort by parsed index

  /** A key paired with its parsed index, as `sort(key=...)` decorates it. */
  datatype Entry = Entry(index: int, key: string)

  /** Undecorate: the keys of the entries, in order. */
  function Keys(es: seq<Entry>): (ks: seq<string>)
    ensures |ks| == |es|
  {
    if |es| == 0 then [] else [es[0].key] + Keys(es[1..])
  }

  /** The `i`-th key is the key of the `i`-th entry. */
  lemma {:induction false} KeysAt(es: seq<Entry>)
    ensures forall i :: 0 <= i < |es| ==> Keys(es)[i] == es[i].key
  {
    if |es| > 0 {
      KeysAt(es[1..]);
    }
  }

  predicate IndexSorted(es: seq<Entry>) {
    forall i, j :: 0 <= i < j < |es| ==> es[i].index <= es[j].index
  }

  /** By frame index; keys with the same index (legacy spellings) by cursor order. */
  predicate Before(a: Entry, b: Entry) {
    a.index < b.index || (a.index == b.index && LexLess(a.key, b.key))
  }

  predicate BeforeSorted(es: seq<Entry>) {
    forall i, j :: 0 <= i < j < |es| ==> Before(es[i], es[j])
  }

  /** One step of a stable insertion sort: `x` goes behind every entry whose index is not larger. */
  function InsertByIndex(x: Entry, ys: seq<Entry>): (r: seq<Entry>)
    ensures multiset(r) == multiset(ys) + multiset{x}
  {
    if |ys| == 0 then
      [x]
    else if x.index < ys[0].index then
      [x] + ys
    else
      assert ys == [ys[0]] + ys[1..];
      [ys[0]] + InsertByIndex(x, ys[1..])
  }

  /** Python's stable `list.sort` by the decorated index. */
  function SortByIndex(es: seq<Entry>): (r: seq<Entry>)
    ensures multiset(r) == multiset(es)
  {
    if |es| == 0 then
      []
    else
      var init := es[..|es| - 1];
      assert es == init + [es[|es| - 1]];
      InsertByIndex(es[|es| - 1], SortByIndex(init))
  }

  lemma {:induction false} KeysAppend(a: seq<Entry>, b: seq<Entry>)
    ensures Keys(a + b) == Keys(a) + Keys(b)
    decreases |a|
  {
    if |a| > 0 {
      assert (a + b)[1..] == a[1..] + b;
      KeysAppend(a[1..], b);
    } else {
      assert a + b == b;
    }
  }

  lemma {:induction false} InsertByIndexKeys(x: Entry, ys: seq<Entry>)
    ensures multiset(Keys(InsertByIndex(x, ys))) == multiset(Keys(ys)) + multiset{x.key}
    decreases |ys|
  {
    if |ys| > 0 {
      var r := InsertByIndex(x, ys);
      if x.index < ys[0].index {
        assert Keys(r) == [x.key] + Keys(ys);
      } else {
        InsertByIndexKeys(x, ys[1..]);
        assert Keys(r) == [ys[0].key] + Keys(InsertByIndex(x, ys[1..]));
        assert Keys(ys) == [ys[0].key] + Keys(ys[1..]);
      }
    }
  }

  lemma KeysSnoc(init: seq<Entry>, last: Entry)
    ensures multiset(Keys(init + [last])) == multiset(Keys(init)) + multiset{last.key}
  {
    KeysAppend(init, [last]);
    assert Keys([last]) == [last.key];
  }

  lemma SortByIndexSnoc(es: seq<Entry>)
    requires |es| > 0
    ensures SortByIndex(es) == InsertByIndex(es[|es| - 1], SortByIndex(es[..|es| - 1]))
  {
  }

  /** A non-empty list is its front followed by its last entry. */
  lemma Snoc(es: seq<Entry>)
    requires |es| > 0
    ensures es == es[..|es| - 1] + [es[|es| - 1]]
  {
  }

  /** Sorting permutes the keys. */
  lemma {:induction false} SortByIndexKeys(es: seq<Entry>)
    ensures multiset(Keys(SortByIndex(es))) == multiset(Keys(es))
  {
    if |es| > 0 {
      var init, last := es[..|es| - 1], es[|es| - 1];
      var s := SortByIndex(init);
      calc {
        multiset(Keys(SortByIndex(es)));
      == { SortByIndexSnoc(es); }
        multiset(Keys(InsertByIndex(last, s)));
      == { InsertByIndexKeys(last, s); }
        multiset(Keys(s)) + multiset{last.key};
      == { SortByIndexKeys(init); }
        multiset(Keys(init)) + multiset{last.key};
      == { KeysSnoc(init, last); Snoc(es); }
        multiset(Keys(es));
      }
    }
  }

  /** Apply the key function `int(x[2:-4])` to every key in list order; `ValueError` on the first that fails. */
  function Decorate(ks: seq<string>): (r: Result<seq<Entry>>)
    ensures r.Ok? ==> |r.value| == |ks|
    ensures r.Ok? ==> forall i :: 0 <= i < |ks| ==> r.value[i].key == ks[i] && KeyIndex(ks[i]) == Some(r.value[i].index)
    ensures r.Ok? <==> forall i :: 0 <= i < |ks| ==> KeyIndex(ks[i]).Some?
    ensures r.Err? ==> r.error.InvalidKey? && r.error.key in ks && KeyIndex(r.error.key).None?
  {
    if |ks| == 0 then
      Ok([])
    else
      match KeyIndex(ks[0])
      case None => Err(InvalidKey(ks[0]))
      case Some(n) =>
        var rest := Decorate(ks[1..]);
        assert forall i :: 1 <= i < |ks| ==> ks[i] == ks[1..][i - 1];
        if rest.Err? then
          Err(rest.error)
        else
          Ok([Entry(n, ks[0])] + rest.value)
  }

  /**
   The whole ordering step of `frames()`: decorate, stable sort, undecorate.
   It fails, naming the key, exactly when some key's index field does not
   parse; otherwise it permutes the keys into ascending parsed index.
   */
  function NumericOrder(ks: seq<string>): (r: Result<seq<string>>)
    ensures r.Ok? <==> forall i :: 0 <= i < |ks| ==> KeyIndex(ks[i]).Some?
    ensures r.Err? ==> r.error.InvalidKey? && r.error.key in ks && KeyIndex(r.error.key).None?
    ensures r.Ok? ==> multiset(r.value) == multiset(ks)
    ensures r.Ok? ==> forall i, j :: 0 <= i < j < |r.value| ==>
      KeyIndex(r.value[i]).Some? && KeyIndex(r.value[j]).Some? && KeyIndex(r.value[i]).value <= KeyIndex(r.value[j]).value
  {
    var d := Decorate(ks);
    if d.Err? then
      Err(d.error)
    else
      var s := SortByIndex(d.value);
      DecorateKeys(ks);
      SortByIndexKeys(d.value);
      PermutationDecorated(d.value, s);
      DecoratedAt(s);
      SortByIndexSorted(d.value);
      Ok(Keys(s))
  }

  /** Inserting adds nothing but `x`. */
  lemma InsertByIndexFrom(x: Entry, ys: seq<Entry>)
    ensures forall e :: e in InsertByIndex(x, ys) ==> e == x || e in ys
  {
    var r := InsertByIndex(x, ys);
    forall e | e in r ensures e == x || e in ys {
      assert e in multiset(r);
    }
  }

  /** Every entry behind the head of a sorted list has an index no smaller than the head's. */
  lemma TailAtLeastHead(ys: seq<Entry>)
    requires |ys| > 0 && IndexSorted(ys)
    ensures forall e :: e in ys[1..] ==> ys[0].index <= e.index
  {
    forall e | e in ys[1..] ensures ys[0].index <= e.index {
      var m :| 0 <= m < |ys[1..]| && ys[1..][m] == e;
      assert e == ys[m + 1];
    }
  }

  lemma {:induction false} InsertKeepsIndexSorted(x: Entry, ys: seq<Entry>)
    requires IndexSorted(ys)
    ensures IndexSorted(InsertByIndex(x, ys))
    decreases |ys|
  {
    if |ys| > 0 && x.index >= ys[0].index {
      var tail := ys[1..];
      var r := InsertByIndex(x, tail);
      assert IndexSorted(r) by {
        InsertKeepsIndexSorted(x, tail);
      }
      assert forall k :: 0 <= k < |r| ==> ys[0].index <= r[k].index by {
        InsertByIndexFrom(x, tail);
        TailAtLeastHead(ys);
        assert forall k :: 0 <= k < |r| ==> r[k] in r;
      }
      assert InsertByIndex(x, ys) == [ys[0]] + r;
    }
  }

  lemma {:induction false} SortByIndexSorted(es: seq<Entry>)
    ensures IndexSorted(SortByIndex(es))
  {
    if |es| > 0 {
      SortByIndexSorted(es[..|es| - 1]);
      InsertKeepsIndexSorted(es[|es| - 1], SortByIndex(es[..|es| - 1]));
    }
  }

  /** Every entry behind the head of a (index, bytes)-sorted list comes after the head. */
  lemma TailBehindHead(ys: seq<Entry>)
    requires |ys| > 0 && BeforeSorted(ys)
    ensures forall e :: e in ys[1..] ==> Before(ys[0], e)
  {
    forall e | e in ys[1..] ensures Before(ys[0], e) {
      var m :| 0 <= m < |ys[1..]| && ys[1..][m] == e;
      assert e == ys[m + 1];
    }
  }

  lemma {:induction false} InsertKeepsBeforeSorted(x: Entry, ys: seq<Entry>)
    requires BeforeSorted(ys)
    requires forall k :: 0 <= k < |ys| ==> LexLess(ys[k].key, x.key)
    ensures BeforeSorted(InsertByIndex(x, ys))
    decreases |ys|
  {
    if |ys| > 0 {
      if x.index < ys[0].index {
        forall k | 0 <= k < |ys| ensures Before(x, ys[k]) {
          if k > 0 { assert Before(ys[0], ys[k]); }
        }
      } else {
        var tail := ys[1..];
        var r := InsertByIndex(x, tail);
        assert BeforeSorted(r) by {
          InsertKeepsBeforeSorted(x, tail);
        }
        assert forall k :: 0 <= k < |r| ==> Before(ys[0], r[k]) by {
          InsertByIndexFrom(x, tail);
          TailBehindHead(ys);
          assert forall k :: 0 <= k < |r| ==> r[k] in r;
        }
        assert InsertByIndex(x, ys) == [ys[0]] + r;
      }
    }
  }

  /** The entries' keys are in cursor order. */
  predicate KeysLexSorted(es: seq<Entry>) {
    forall i, j :: 0 <= i < j < |es| ==> LexLess(es[i].key, es[j].key)
  }

  /** Sorting adds no entries. */
  lemma SortByIndexFrom(es: seq<Entry>)
    ensures forall e :: e in SortByIndex(es) ==> e in es
  {
    var s := SortByIndex(es);
    forall e | e in s ensures e in es {
      assert e in multiset(s);
    }
  }

  /** In a list whose keys are in cursor order, every earlier key is below the last one. */
  lemma EarlierKeysLess(es: seq<Entry>)
    requires |es| > 0 && KeysLexSorted(es)
    ensures forall e :: e in es[..|es| - 1] ==> LexLess(e.key, es[|es| - 1].key)
  {
    var n := |es| - 1;
    forall e | e in es[..n] ensures LexLess(e.key, es[n].key) {
      var m :| 0 <= m < n && es[..n][m] == e;
      assert es[m] == e;
    }
  }

  /** Stability: fed in cursor order, keys with equal index keep cursor order, so the result is sorted by (index, bytes). */
  lemma {:induction false} SortByIndexOrdersTies(es: seq<Entry>)
    requires KeysLexSorted(es)
    ensures BeforeSorted(SortByIndex(es))
  {
    if |es| > 0 {
      var init := es[..|es| - 1];
      var x := es[|es| - 1];
      assert KeysLexSorted(init) by {
        assert forall i :: 0 <= i < |init| ==> init[i] == es[i];
      }
      SortByIndexOrdersTies(init);
      var s := SortByIndex(init);
      assert forall k :: 0 <= k < |s| ==> LexLess(s[k].key, x.key) by {
        SortByIndexFrom(init);
        EarlierKeysLess(es);
        assert forall k :: 0 <= k < |s| ==> s[k] in s;
      }
      SortByIndexSnoc(es);
      InsertKeepsBeforeSorted(x, s);
    }
  }

  lemma {:induction false} InsertAtEnd(x: Entry, ys: seq<Entry>)
    requires forall k :: 0 <= k < |ys| ==> ys[k].index < x.index
    ensures InsertByIndex(x, ys) == ys + [x]
    decreases |ys|
  {
    if |ys| > 0 {
      InsertAtEnd(x, ys[1..]);
      assert ys == [ys[0]] + ys[1..];
    }
  }

  /** Entries already in strictly increasing index order are left where they are. */
  lemma {:induction false} SortByIndexFixesSorted(es: seq<Entry>)
    requires forall i, j :: 0 <= i < j < |es| ==> es[i].index < es[j].index
    ensures SortByIndex(es) == es
  {
    if |es| > 0 {
      var init, last := es[..|es| - 1], es[|es| - 1];
      assert SortByIndex(init) == init by {
        assert forall k :: 0 <= k < |init| ==> init[k] == es[k];
        SortByIndexFixesSorted(init);
      }
      assert InsertByIndex(last, init) == init + [last] by {
        assert forall k :: 0 <= k < |init| ==> init[k].index < last.index by {
          assert forall k :: 0 <= k < |init| ==> init[k] == es[k];
        }
        InsertAtEnd(last, init);
      }
      SortByIndexSnoc(es);
      Snoc(es);
    }
  }

  /** Every entry carries the parsed index of its key. */
  ghost predicate Decorated(es: seq<Entry>) {
    forall e :: e in es ==> KeyIndex(e.key) == Some(e.index)
  }

  /** Decorating and undecorating gives the keys back, and every entry is correctly decorated. */
  lemma DecorateKeys(ks: seq<string>)
    requires Decorate(ks).Ok?
    ensures Keys(Decorate(ks).value) == ks
    ensures Decorated(Decorate(ks).value)
  {
    var es := Decorate(ks).value;
    assert Keys(es) == ks by {
      KeysAt(es);
    }
    forall e | e in es ensures KeyIndex(e.key) == Some(e.index) {
      var m :| 0 <= m < |es| && es[m] == e;
    }
  }

  /** Rearranging entries keeps them correctly decorated. */
  lemma PermutationDecorated(es: seq<Entry>, s: seq<Entry>)
    requires multiset(s) == multiset(es) && Decorated(es)
    ensures Decorated(s)
  {
    forall e | e in s ensures KeyIndex(e.key) == Some(e.index) {
      assert e in multiset(s);
    }
  }

  /** Undecorating a correctly decorated list: each key parses to its entry's index. */
  lemma DecoratedAt(s: seq<Entry>)
    requires Decorated(s)
    ensures forall i :: 0 <= i < |s| ==> Keys(s)[i] == s[i].key && KeyIndex(Keys(s)[i]) == Some(s[i].index)
  {
    KeysAt(s);
    assert forall i :: 0 <= i < |s| ==> s[i] in s;
  }

  /** When every key parses, the result is the undecorated stable sort. */
  lemma NumericOrderValue(ks: seq<string>)
    requires Decorate(ks).Ok?
    ensures NumericOrder(ks) == Ok(Keys(SortByIndex(Decorate(ks).value)))
  {
  }

  /** Applied to keys in cursor order, the result is strictly increasing by (index, bytes). */
  lemma NumericOrderOfCursor(ks: seq<string>)
    requires LexSorted(ks)
    requires NumericOrder(ks).Ok?
    ensures var r := NumericOrder(ks).value;
      forall i, j :: 0 <= i < j < |r| ==>
        KeyIndex(r[i]).Some? && KeyIndex(r[j]).Some? &&
        (KeyIndex(r[i]).value < KeyIndex(r[j]).value ||
         (KeyIndex(r[i]) == KeyIndex(r[j]) && LexLess(r[i], r[j])))
  {
    var es := Decorate(ks).value;
    var s := SortByIndex(es);
    NumericOrderValue(ks);
    DecorateKeys(ks);
    assert KeysLexSorted(es) by {
      KeysAt(es);
    }
    SortByIndexOrdersTies(es);
    PermutationDecorated(es, s);
    DecoratedAt(s);
  }

  /** Canonical keys come out of the cursor already in frame order, so the sort leaves them in place. */
  lemma CanonicalKeysNeedNoSort(ks: seq<string>, idx: seq<nat>)
    requires |ks| == |idx|
    requires forall i :: 0 <= i < |idx| ==> idx[i] < Pow10(Width) && ks[i] == Key(idx[i])
    requires LexSorted(ks)
    ensures NumericOrder(ks) == Ok(ks)
  {
    forall i | 0 <= i < |ks| ensures KeyIndex(ks[i]) == Some(idx[i] as int) {
      KeyRoundTrip(idx[i]);
    }
    var es := Decorate(ks).value;
    forall i, j | 0 <= i < j < |es| ensures es[i].index < es[j].index {
      KeyLexOrder(idx[i], idx[j]);
    }
    SortByIndexFixesSorted(es);
    NumericOrderValue(ks);
    DecorateKeys(ks);
  }

  lemma LegacyIndices()
    ensures KeyIndex("f_10.jpg") == Some(10)
    ensures KeyIndex("f_2.jpg") == Some(2)
  {
    assert IndexField("f_10.jpg") == "10" && IndexField("f_2.jpg") == "2";
    assert "10"[..1] == "1" && "1"[..0] == "" && "2"[..0] == "";
    assert AllDigits("10") && DigitsValue("10") == 10;
    assert AllDigits("2") && DigitsValue("2") == 2;
  }

  /** Legacy keys without padding: the cursor lists `f_10` before `f_2` ... */
  lemma LegacyCursorOrder()
    ensures Ascending({"f_10.jpg", "f_2.jpg"}) == ["f_10.jpg", "f_2.jpg"]
  {
    var s := {"f_10.jpg", "f_2.jpg"};
    assert LexLess("f_10.jpg", "f_2.jpg");
    assert LexMin(s) == "f_10.jpg";
    assert s - {"f_10.jpg"} == {"f_2.jpg"};
    assert LexMin({"f_2.jpg"}) == "f_2.jpg";
    assert {"f_2.jpg"} - {"f_2.jpg"} == {};
  }

  /** Two parsable keys decorate to their two entries, in list order. */
  lemma DecoratePair(a: string, b: string)
    requires KeyIndex(a).Some? && KeyIndex(b).Some?
    ensures Decorate([a, b]) == Ok([Entry(KeyIndex(a).value, a), Entry(KeyIndex(b).value, b)])
  {
    var ks := [a, b];
    assert KeyIndex(ks[0]).Some? && KeyIndex(ks[1]).Some?;
    var r := Decorate(ks);
    assert r.Ok?;
    assert r.value[0] == Entry(KeyIndex(a).value, a);
    assert r.value[1] == Entry(KeyIndex(b).value, b);
    assert |r.value| == 2;
    assert r.value == [Entry(KeyIndex(a).value, a), Entry(KeyIndex(b).value, b)];
  }

  /** Sorting two entries listed against index order swaps them. */
  lemma SortPair(x: Entry, y: Entry)
    requires y.index < x.index
    ensures SortByIndex([x, y]) == [y, x]
  {
    assert [x, y][..1] == [x];
    assert SortByIndex([x]) == [x] by {
      assert [x][..0] == [];
    }
    assert InsertByIndex(y, [x]) == [y] + [x];
  }

  /** Undecorating two entries. */
  lemma KeysPair(x: Entry, y: Entry)
    ensures Keys([x, y]) == [x.key, y.key]
  {
    KeysAt([x, y]);
  }

  /** Two keys listed against frame order are swapped. */
  lemma SwapPair(a: string, b: string)
    requires KeyIndex(a).Some? && KeyIndex(b).Some? && KeyIndex(b).value < KeyIndex(a).value
    ensures NumericOrder([a, b]) == Ok([b, a])
  {
    var ea, eb := Entry(KeyIndex(a).value, a), Entry(KeyIndex(b).value, b);
    DecoratePair(a, b);
    SortPair(ea, eb);
    KeysPair(eb, ea);
    NumericOrderValue([a, b]);
  }

  /** ... while `frames()` lists `f_2` before `f_10`. */
  lemma LegacyNumericOrder()
    ensures NumericOrder(["f_10.jpg", "f_2.jpg"]) == Ok(["f_2.jpg", "f_10.jpg"])
  {
    LegacyIndices();
    SwapPair("f_10.jpg", "f_2.jpg");
  }
}

=== FILE: read_path.dfy ===
/**
 The read path of `DataEngine`: `get_frame`, the per-name annotation
 lookups and `get_frames`, which gathers frames (and, with
 `'annotation'`, expression records and landmarks) in input order and
 collates each list into one batch.
 */
module ReadPath {
  import opened Common
  import opened FrameStore
  import opened Values
  import opened Files
  import opened DataEngine

  /** `torchvision.io.ImageReadMode`: colour for three channels, grey otherwise. */
  datatype ReadMode = Rgb | Gray

  function ModeOf(channel: int): ReadMode {
    if channel == 3 then Rgb else Gray
  }

  /** `torchvision.io.decode_image`: the image, or `None` when the bytes do not decode. */
  type Decoder = (Bytes, ReadMode) -> Option<Value>

  /** Reading one frame from an open store: `txn.get(name)` and decoding it. */
  function DecodeFrame(store: Store, decode: Decoder, name: string, channel: int): (r: Result<Value>)
    ensures r.Ok? <==> name in store && decode(store[name], ModeOf(channel)).Some?
    ensures r.Ok? ==> r.value == decode(store[name], ModeOf(channel)).value
    ensures r.Err? ==> r.error == (if name in store then DecodeFailure(name) else FrameNotFound(name))
  {
    if name !in store then
      Err(FrameNotFound(name))
    else
      match decode(store[name], ModeOf(channel))
      case None => Err(DecodeFailure(name))
      case Some(image) => Ok(image)
  }

  /** `get_frame(name, channel)`: open the store if needed, then read the frame. */
  function GetFrame(e: Engine, disk: Disk, decode: Decoder, name: string, channel: int): Outcome<Value> {
    match OpenReader(e, disk)
    case Err(err) => Outcome(e, Err(err))
    case Ok(e1) => Outcome(e1, DecodeFrame(e1.reader.value, decode, name, channel))
  }

  // ---------------------------------------------------------------------
  // What the engine reads

  /**
   What the store handle and the two annotation caches give the engine:
   what it already holds, or else what loading from the disk gives.
   */
  datatype Sources = Sources(store: Result<Store>, landmarks: Result<Value>, emoca: Result<Value>)

  function SourcesOf(e: Engine, disk: Disk): Sources {
    Sources(
      StoreSource(e, disk),
      CacheSource(e.landmarks, e, disk, LandmarksKey),
      CacheSource(e.emoca, e, disk, EmocaKey))
  }

  /** The frame a name reads to. */
  function FrameFrom(src: Sources, decode: Decoder, name: string, channel: int): Result<Value> {
    var store :- src.store;
    DecodeFrame(store, decode, name, channel)
  }

  /** The expression record a name reads to. */
  function EmocaFrom(src: Sources, name: string): Result<Value> {
    var table :- src.emoca;
    Subscript(table, name)
  }

  /** The landmarks a name reads to. */
  function LandmarkFrom(src: Sources, name: string): Result<Value> {
    var table :- src.landmarks;
    Subscript(table, name)
  }

  /** Opening the store changes nothing else and fixes what later reads see. */
  lemma GetFrameReads(e: Engine, disk: Disk, decode: Decoder, name: string, channel: int)
    ensures var o := GetFrame(e, disk, decode, name, channel);
      && o.result == FrameFrom(SourcesOf(e, disk), decode, name, channel)
      && SourcesOf(o.engine, disk) == SourcesOf(e, disk)
      && o.engine.paths == e.paths
  {
  }

  /** The first successful lookup loads the expression records; every later one reads the same collection. */
  lemma GetEmocaReads(e: Engine, disk: Disk, name: string)
    ensures var o := GetEmocaParams(e, disk, name);
      && o.result == EmocaFrom(SourcesOf(e, disk), name)
      && SourcesOf(o.engine, disk) == SourcesOf(e, disk)
      && o.engine.paths == e.paths
  {
  }

  /** The same for the landmarks. */
  lemma GetLandmarksReads(e: Engine, disk: Disk, name: string)
    ensures var o := GetLandmarks(e, disk, name);
      && o.result == LandmarkFrom(SourcesOf(e, disk), name)
      && SourcesOf(o.engine, disk) == SourcesOf(e, disk)
      && o.engine.paths == e.paths
  {
  }

  /**
   Load at most once: after a getter has loaded its collection, a later
   lookup does not touch the disk — even a changed disk — and leaves the
   engine as it is.
   */
  lemma CachesLoadOnce(e: Engine, disk: Disk, later: Disk, name: string, other: string)
    ensures var o := GetLandmarks(e, disk, name);
      o.engine.landmarks.Some? ==> GetLandmarks(o.engine, later, other) == Outcome(o.engine, Subscript(o.engine.landmarks.value, other))
    ensures var o := GetEmocaParams(e, disk, name);
      o.engine.emoca.Some? ==> GetEmocaParams(o.engine, later, other) == Outcome(o.engine, Subscript(o.engine.emoca.value, other))
    ensures var o := GetCameraParams(e, disk);
      o.engine.camera.Some? ==> GetCameraParams(o.engine, later) == Outcome(o.engine, Ok(o.engine.camera.value))
  {
  }

  /** A failed load caches nothing, and a successful one caches exactly what `torch.load` read. */
  lemma CacheFillsOnSuccess(e: Engine, disk: Disk, name: string)
    requires e.landmarks.None? && LandmarksKey in e.paths
    ensures var o := GetLandmarks(e, disk, name);
      && (o.engine.landmarks.Some? <==> TorchLoad(disk, e.paths[LandmarksKey]).Ok?)
      && (o.engine.landmarks.Some? ==> o.engine.landmarks.value == disk[e.paths[LandmarksKey]].content)
      && (o.engine.landmarks.None? ==> o == Outcome(e, TorchLoad(disk, e.paths[LandmarksKey]).PropagateFailure()))
  {
  }

  // ---------------------------------------------------------------------
  // get_frames

  /** The three lists the loop of `get_frames` fills. */
  datatype Lists = Lists(frames: seq<Value>, emoca: seq<Value>, landmarks: seq<Value>)

  /**
   The loop of `get_frames` over `names`, in order. With `annotate`, a name
   whose expression record is `None` is dropped from all three lists, but
   its landmarks are still looked up first.
   */
  function Gather(e: Engine, disk: Disk, decode: Decoder, names: seq<string>, channel: int, annotate: bool): (o: Outcome<Lists>)
    decreases |names|
  {
    if |names| == 0 then
      Outcome(e, Ok(Lists([], [], [])))
    else
      var name := names[0];
      var f := GetFrame(e, disk, decode, name, channel);
      if f.result.Err? then
        Outcome(f.engine, Err(f.result.error))
      else if !annotate then
        var rest := Gather(f.engine, disk, decode, names[1..], channel, annotate);
        if rest.result.Err? then rest
        else Outcome(rest.engine, Ok(Lists([f.result.value] + rest.result.value.frames, [], [])))
      else
        var emo := GetEmocaParams(f.engine, disk, name);
        if emo.result.Err? then
          Outcome(emo.engine, Err(emo.result.error))
        else
          var lmk := GetLandmarks(emo.engine, disk, name);
          if lmk.result.Err? then
            Outcome(lmk.engine, Err(lmk.result.error))
          else
            var rest := Gather(lmk.engine, disk, decode, names[1..], channel, annotate);
            if rest.result.Err? then rest
            else if emo.result.value.NoneValue? then rest
            else
              var l := rest.result.value;
              Outcome(rest.engine, Ok(Lists([f.result.value] + l.frames, [emo.result.value] + l.emoca, [lmk.result.value] + l.landmarks)))
  }

  // ---------------------------------------------------------------------
  // The loop as a function of what the engine reads

  /** The loop of `get_frames` over what `src` gives, with no engine state. */
  function GatherFrom(src: Sources, decode: Decoder, names: seq<string>, channel: int, annotate: bool): Result<Lists>
    decreases |names|
  {
    if |names| == 0 then
      Ok(Lists([], [], []))
    else
      var frame :- FrameFrom(src, decode, names[0], channel);
      if !annotate then
        var rest :- GatherFrom(src, decode, names[1..], channel, annotate);
        Ok(Lists([frame] + rest.frames, [], []))
      else
        var emo :- EmocaFrom(src, names[0]);
        var lmk :- LandmarkFrom(src, names[0]);
        var rest :- GatherFrom(src, decode, names[1..], channel, annotate);
        if emo.NoneValue? then Ok(rest)
        else Ok(Lists([frame] + rest.frames, [emo] + rest.emoca, [lmk] + rest.landmarks))
  }

  /**
   The engine's loop reads exactly what its sources give: loading a
   cache or opening the store in the middle of the loop changes what later
   names see in no way.
   */
  lemma {:induction false} GatherReads(e: Engine, disk: Disk, decode: Decoder, names: seq<string>, channel: int, annotate: bool)
    ensures var o := Gather(e, disk, decode, names, channel, annotate);
      && o.result == GatherFrom(SourcesOf(e, disk), decode, names, channel, annotate)
      && SourcesOf(o.engine, disk) == SourcesOf(e, disk)
      && o.engine.paths == e.paths
    decreases |names|
  {
    if |names| > 0 {
      var f := GetFrame(e, disk, decode, names[0], channel);
      GetFrameReads(e, disk, decode, names[0], channel);
      if f.result.Ok? {
        if !annotate {
          GatherReads(f.engine, disk, decode, names[1..], channel, annotate);
        } else {
          var emo := GetEmocaParams(f.engine, disk, names[0]);
          GetEmocaReads(f.engine, disk, names[0]);
          if emo.result.Ok? {
            var lmk := GetLandmarks(emo.engine, disk, names[0]);
            GetLandmarksReads(emo.engine, disk, names[0]);
            if lmk.result.Ok? {
              GatherReads(lmk.engine, disk, decode, names[1..], channel, annotate);
            }
          }
        }
      }
    }
  }

  /** Every name's frame reads, and with annotations its record and landmarks too. */
  predicate Readable(src: Sources, decode: Decoder, names: seq<string>, channel: int, annotate: bool) {
    forall i :: 0 <= i < |names| ==>
      && FrameFrom(src, decode, names[i], channel).Ok?
      && (annotate ==> EmocaFrom(src, names[i]).Ok? && LandmarkFrom(src, names[i]).Ok?)
  }

  /** `emo is not None`: the name is kept in an annotated batch. */
  predicate Keeps(src: Sources, name: string) {
    !(EmocaFrom(src, name).Ok? && EmocaFrom(src, name).value.NoneValue?)
  }

  /** The names an annotated batch keeps, in input order. */
  function Kept(src: Sources, names: seq<string>): (ks: seq<string>)
    ensures |ks| <= |names|
  {
    if |names| == 0 then []
    else (if Keeps(src, names[0]) then [names[0]] else []) + Kept(src, names[1..])
  }

  /** The positions at which a mask is set, counted from `base`, in increasing order. */
  function PositionsFrom(m: seq<bool>, base: nat): seq<nat> {
    if |m| == 0 then []
    else (if m[0] then [base] else []) + PositionsFrom(m[1..], base + 1)
  }

  /** Every position lies in the mask's range and is set there. */
  lemma {:induction false} PositionsSound(m: seq<bool>, base: nat)
    ensures forall j :: 0 <= j < |PositionsFrom(m, base)| ==>
      base <= PositionsFrom(m, base)[j] < base + |m| && m[PositionsFrom(m, base)[j] - base]
  {
    if |m| > 0 {
      PositionsSound(m[1..], base + 1);
      var rest := PositionsFrom(m[1..], base + 1);
      assert PositionsFrom(m, base) == (if m[0] then [base] else []) + rest;
      forall j | 0 <= j < |rest| ensures m[rest[j] - base] {
        assert m[1..][rest[j] - (base + 1)] == m[rest[j] - base];
      }
    }
  }

  /** The positions strictly increase. */
  lemma {:induction false} PositionsIncreasing(m: seq<bool>, base: nat)
    ensures forall a, b :: 0 <= a < b < |PositionsFrom(m, base)| ==> PositionsFrom(m, base)[a] < PositionsFrom(m, base)[b]
  {
    if |m| > 0 {
      PositionsIncreasing(m[1..], base + 1);
      PositionsSound(m[1..], base + 1);
      var rest := PositionsFrom(m[1..], base + 1);
      if m[0] {
        assert PositionsFrom(m, base) == [base] + rest;
      } else {
        assert PositionsFrom(m, base) == rest;
      }
    }
  }

  /** How many of the first `i` entries of a mask are set. */
  function SetBefore(m: seq<bool>, i: nat): nat
    requires i <= |m|
  {
    if i == 0 then 0 else (if m[0] then 1 else 0) + SetBefore(m[1..], i - 1)
  }

  /** No set entry is missed: it comes after as many positions as there are set entries before it. */
  lemma {:induction false} PositionsComplete(m: seq<bool>, base: nat, i: nat)
    requires i < |m| && m[i]
    ensures SetBefore(m, i) < |PositionsFrom(m, base)| && PositionsFrom(m, base)[SetBefore(m, i)] == base + i
  {
    var rest := PositionsFrom(m[1..], base + 1);
    if i > 0 {
      assert m[1..][i - 1];
      PositionsComplete(m[1..], base + 1, i - 1);
      if m[0] {
        assert PositionsFrom(m, base) == [base] + rest;
      } else {
        assert PositionsFrom(m, base) == rest;
      }
    } else {
      assert PositionsFrom(m, base) == [base] + rest;
    }
  }

  /** Which of the names an annotated batch keeps. */
  function KeptMask(src: Sources, names: seq<string>): (m: seq<bool>)
    ensures |m| == |names|
  {
    seq(|names|, i requires 0 <= i < |names| => Keeps(src, names[i]))
  }

  /** Where each kept name sits in the input: strictly increasing positions of names whose record is not `None`. */
  function KeptPositions(src: Sources, names: seq<string>): (idx: seq<nat>)
    ensures forall j :: 0 <= j < |idx| ==> idx[j] < |names| && Keeps(src, names[idx[j]])
    ensures forall a, b :: 0 <= a < b < |idx| ==> idx[a] < idx[b]
  {
    PositionsSound(KeptMask(src, names), 0);
    PositionsIncreasing(KeptMask(src, names), 0);
    PositionsFrom(KeptMask(src, names), 0)
  }

  /** The entries of `xs` whose mask entry is set, in order. */
  function Masked<T>(xs: seq<T>, m: seq<bool>): seq<T>
    requires |m| == |xs|
  {
    if |xs| == 0 then [] else (if m[0] then [xs[0]] else []) + Masked(xs[1..], m[1..])
  }

  /** The selected entries are the entries at the mask's positions, in order. */
  lemma {:induction false} MaskedAtPositions<T>(xs: seq<T>, m: seq<bool>, base: nat)
    requires |m| == |xs|
    ensures var idx := PositionsFrom(m, base);
      |idx| == |Masked(xs, m)| &&
      forall j :: 0 <= j < |idx| ==> base <= idx[j] < base + |xs| && Masked(xs, m)[j] == xs[idx[j] - base]
  {
    PositionsSound(m, base);
    if |xs| > 0 {
      MaskedAtPositions(xs[1..], m[1..], base + 1);
      var rest := PositionsFrom(m[1..], base + 1);
      var o := if m[0] then 1 else 0;
      assert PositionsFrom(m, base) == (if m[0] then [base] else []) + rest;
      assert Masked(xs, m) == (if m[0] then [xs[0]] else []) + Masked(xs[1..], m[1..]);
      forall j | 0 <= j < |rest| ensures Masked(xs, m)[j + o] == xs[rest[j] - base] {
        assert xs[1..][rest[j] - (base + 1)] == xs[rest[j] - base];
      }
    }
  }

  /** The names an annotated batch keeps are the names its mask keeps. */
  lemma {:induction false} KeptIsMasked(src: Sources, names: seq<string>)
    ensures Kept(src, names) == Masked(names, KeptMask(src, names))
  {
    if |names| > 0 {
      KeptIsMasked(src, names[1..]);
      assert KeptMask(src, names)[1..] == KeptMask(src, names[1..]);
    }
  }

  /** The kept names are the input's names at the kept positions, in order: an order-preserving sub-list. */
  lemma KeptSubList(src: Sources, names: seq<string>)
    ensures var idx := KeptPositions(src, names);
      |idx| == |Kept(src, names)| && forall j :: 0 <= j < |idx| ==> Kept(src, names)[j] == names[idx[j]]
  {
    KeptIsMasked(src, names);
    MaskedAtPositions(names, KeptMask(src, names), 0);
  }

  /** The sub-list skips exactly the `None` records: every other name has a position. */
  lemma KeptComplete(src: Sources, names: seq<string>, i: nat)
    requires i < |names| && Keeps(src, names[i])
    ensures i in KeptPositions(src, names)
  {
    PositionsComplete(KeptMask(src, names), 0, i);
  }

  /** A name is kept exactly when it is one of the inputs and its record is not `None`. */
  lemma {:induction false} KeptMembers(src: Sources, names: seq<string>)
    ensures forall n :: n in Kept(src, names) <==> n in names && Keeps(src, n)
  {
    if |names| > 0 {
      KeptMembers(src, names[1..]);
      assert names == [names[0]] + names[1..];
    }
  }

  /** With no `None` record, nothing is dropped. */
  lemma {:induction false} KeptAll(src: Sources, names: seq<string>)
    requires forall i :: 0 <= i < |names| ==> Keeps(src, names[i])
    ensures Kept(src, names) == names
  {
    if |names| > 0 {
      KeptAll(src, names[1..]);
      assert names == [names[0]] + names[1..];
    }
  }

  /** With every record `None`, everything is dropped. */
  lemma {:induction false} KeptNone(src: Sources, names: seq<string>)
    requires forall i :: 0 <= i < |names| ==> !Keeps(src, names[i])
    ensures Kept(src, names) == []
  {
    if |names| > 0 {
      KeptNone(src, names[1..]);
    }
  }

  /**
   The loop fails exactly when some name's frame, or (with annotations)
   record or landmarks, cannot be read — the landmarks of a name whose
   record is `None` included.
   */
  lemma {:induction false} GatherFromOk(src: Sources, decode: Decoder, names: seq<string>, channel: int, annotate: bool)
    ensures GatherFrom(src, decode, names, channel, annotate).Ok? <==> Readable(src, decode, names, channel, annotate)
  {
    if |names| > 0 {
      GatherFromOk(src, decode, names[1..], channel, annotate);
      ReadableCons(src, decode, names, channel, annotate);
    }
  }

  /** A list of names reads when its first name does and the rest read. */
  lemma ReadableCons(src: Sources, decode: Decoder, names: seq<string>, channel: int, annotate: bool)
    requires |names| > 0
    ensures Readable(src, decode, names, channel, annotate) <==>
      && FrameFrom(src, decode, names[0], channel).Ok?
      && (annotate ==> EmocaFrom(src, names[0]).Ok? && LandmarkFrom(src, names[0]).Ok?)
      && Readable(src, decode, names[1..], channel, annotate)
  {
    assert forall i :: 1 <= i < |names| ==> names[i] == names[1..][i - 1];
  }

  /** Without annotations, the frame list holds one frame per name, in input order. */
  lemma {:induction false} GatherFromPlain(src: Sources, decode: Decoder, names: seq<string>, channel: int)
    requires GatherFrom(src, decode, names, channel, false).Ok?
    ensures var l := GatherFrom(src, decode, names, channel, false).value;
      && l.emoca == [] && l.landmarks == []
      && |l.frames| == |names|
      && forall i :: 0 <= i < |names| ==> FrameFrom(src, decode, names[i], channel) == Ok(l.frames[i])
  {
    if |names| > 0 {
      GatherFromPlain(src, decode, names[1..], channel);
      var l := GatherFrom(src, decode, names, channel, false).value;
      var rest := GatherFrom(src, decode, names[1..], channel, false).value;
      assert l.frames == [FrameFrom(src, decode, names[0], channel).value] + rest.frames;
      forall i | 1 <= i < |names| ensures FrameFrom(src, decode, names[i], channel) == Ok(l.frames[i]) {
        assert l.frames[i] == rest.frames[i - 1] && names[1..][i - 1] == names[i];
      }
    }
  }

  /** `vs` is `ks` looked up through `f`, entry by entry. */
  predicate Pointwise(f: string -> Result<Value>, ks: seq<string>, vs: seq<Value>) {
    |vs| == |ks| && forall i :: 0 <= i < |ks| ==> f(ks[i]) == Ok(vs[i])
  }

  lemma PointwiseCons(f: string -> Result<Value>, k: string, ks: seq<string>, v: Value, vs: seq<Value>)
    requires Pointwise(f, ks, vs) && f(k) == Ok(v)
    ensures Pointwise(f, [k] + ks, [v] + vs)
  {
    forall i | 1 <= i <= |ks| ensures f(([k] + ks)[i]) == Ok(([v] + vs)[i]) {
      assert ([k] + ks)[i] == ks[i - 1] && ([v] + vs)[i] == vs[i - 1];
    }
  }

  /** The three lists line up with `ks`: entry `i` of each is what `ks[i]` reads to. */
  predicate AlignedWith(src: Sources, decode: Decoder, channel: int, ks: seq<string>, l: Lists) {
    && Pointwise(n => FrameFrom(src, decode, n, channel), ks, l.frames)
    && Pointwise(n => EmocaFrom(src, n), ks, l.emoca)
    && Pointwise(n => LandmarkFrom(src, n), ks, l.landmarks)
  }

  /**
   With annotations, the three lists line up: entry `i` of each is the
   frame, record and landmarks of the `i`-th kept name.
   */
  lemma {:induction false} GatherFromAnnotated(src: Sources, decode: Decoder, names: seq<string>, channel: int)
    requires GatherFrom(src, decode, names, channel, true).Ok?
    ensures AlignedWith(src, decode, channel, Kept(src, names), GatherFrom(src, decode, names, channel, true).value)
  {
    if |names| > 0 {
      var n := names[0];
      GatherFromAnnotated(src, decode, names[1..], channel);
      var rest := GatherFrom(src, decode, names[1..], channel, true).value;
      if Keeps(src, n) {
        assert Kept(src, names) == [n] + Kept(src, names[1..]);
        var ks := Kept(src, names[1..]);
        PointwiseCons(m => FrameFrom(src, decode, m, channel), n, ks, FrameFrom(src, decode, n, channel).value, rest.frames);
        PointwiseCons(m => EmocaFrom(src, m), n, ks, EmocaFrom(src, n).value, rest.emoca);
        PointwiseCons(m => LandmarkFrom(src, m), n, ks, LandmarkFrom(src, n).value, rest.landmarks);
      } else {
        assert Kept(src, names) == Kept(src, names[1..]);
      }
    }
  }

  /** No record in an annotated batch is `None`. */
  lemma NoNoneRecords(src: Sources, decode: Decoder, names: seq<string>, channel: int)
    requires GatherFrom(src, decode, names, channel, true).Ok?
    ensures var l := GatherFrom(src, decode, names, channel, true).value;
      forall i :: 0 <= i < |l.emoca| ==> !l.emoca[i].NoneValue?
  {
    var ks := Kept(src, names);
    GatherFromAnnotated(src, decode, names, channel);
    KeptMembers(src, names);
    var l := GatherFrom(src, decode, names, channel, true).value;
    forall i | 0 <= i < |l.emoca| ensures !l.emoca[i].NoneValue? {
      assert ks[i] in ks;
    }
  }

  // ---------------------------------------------------------------------
  // Collating

  /** An entry of the returned dict: the plain list when nothing was collated, otherwise the batch. */
  datatype Column = Unbatched(items: seq<Value>) | Batched(value: Value)

  /** `{'frames': ..., 'emoca': ..., 'landmarks': ...}`. */
  datatype Batch = Batch(frames: Value, emoca: Column, landmarks: Column)

  /** The collation at the end of `get_frames`: the frames first, then, with annotations, records and landmarks. */
  function CollateLists(l: Lists, annotate: bool): (r: Result<Batch>)
    ensures r.Ok? ==> Collate(l.frames) == Ok(r.value.frames)
    ensures r.Ok? && annotate ==> r.value.emoca.Batched? && Collate(l.emoca) == Ok(r.value.emoca.value)
    ensures r.Ok? && annotate ==> r.value.landmarks.Batched? && Collate(l.landmarks) == Ok(r.value.landmarks.value)
    ensures r.Ok? && !annotate ==> r.value.emoca == Unbatched(l.emoca) && r.value.landmarks == Unbatched(l.landmarks)
    ensures r.Ok? <==> Collate(l.frames).Ok? && (annotate ==> Collate(l.emoca).Ok? && Collate(l.landmarks).Ok?)
  {
    var frames :- Collate(l.frames);
    if annotate then
      var emo :- Collate(l.emoca);
      var lmk :- Collate(l.landmarks);
      Ok(Batch(frames, Batched(emo), Batched(lmk)))
    else
      Ok(Batch(frames, Unbatched(l.emoca), Unbatched(l.landmarks)))
  }

  /** `'annotation' in keys`. */
  function Annotated(keys: seq<string>): bool {
    "annotation" in keys
  }

  /** `get_frames(frame_names, channel, keys)`. */
  function GetFrames(e: Engine, disk: Disk, decode: Decoder, names: seq<string>, channel: int, keys: seq<string>): Outcome<Batch> {
    var annotate := Annotated(keys);
    var g := Gather(e, disk, decode, names, channel, annotate);
    match g.result
    case Err(err) => Outcome(g.engine, Err(err))
    case Ok(l) => Outcome(g.engine, CollateLists(l, annotate))
  }

  /** `get_frames` reads only through its sources and leaves them as they were. */
  lemma GetFramesReads(e: Engine, disk: Disk, decode: Decoder, names: seq<string>, channel: int, keys: seq<string>)
    ensures var o := GetFrames(e, disk, decode, names, channel, keys);
      var src := SourcesOf(e, disk);
      var g := GatherFrom(src, decode, names, channel, Annotated(keys));
      && SourcesOf(o.engine, disk) == src
      && (g.Ok? <==> Readable(src, decode, names, channel, Annotated(keys)))
      && o.result == (if g.Ok? then CollateLists(g.value, Annotated(keys)) else Err(g.error))
  {
    GatherReads(e, disk, decode, names, channel, Annotated(keys));
    GatherFromOk(SourcesOf(e, disk), decode, names, channel, Annotated(keys));
  }

  /**
   Without `'annotation'`, a batch of same-shape frames stacks into one
   tensor whose `i`-th slice is the frame of the `i`-th name; the other two
   entries are empty lists.
   */
  lemma GetFramesInOrder(e: Engine, disk: Disk, decode: Decoder, names: seq<string>, channel: int, keys: seq<string>, shape: seq<nat>)
    requires !Annotated(keys) && |names| > 0
    requires var src := SourcesOf(e, disk);
      forall i :: 0 <= i < |names| ==>
        && FrameFrom(src, decode, names[i], channel).Ok?
        && var f := FrameFrom(src, decode, names[i], channel).value; f.Tensor? && f.shape == shape && WellFormed(f)
    ensures var o := GetFrames(e, disk, decode, names, channel, keys);
      && o.result.Ok?
      && var b := o.result.value;
      && b.emoca == Unbatched([]) && b.landmarks == Unbatched([])
      && b.frames.Tensor? && WellFormed(b.frames) && b.frames.shape == [|names|] + shape
      && forall i :: 0 <= i < |names| ==> Select(b.frames, i) == FrameFrom(SourcesOf(e, disk), decode, names[i], channel).value
  {
    var src := SourcesOf(e, disk);
    GetFramesReads(e, disk, decode, names, channel, keys);
    GatherFromOk(src, decode, names, channel, false);
    GatherFromPlain(src, decode, names, channel);
    var l := GatherFrom(src, decode, names, channel, false).value;
    UnstackCollate(l.frames, shape);
  }

  /**
   With `'annotation'`, the frames of the kept names stack in input order;
   the records and landmarks are collated alongside.
   */
  lemma GetFramesAnnotated(e: Engine, disk: Disk, decode: Decoder, names: seq<string>, channel: int, keys: seq<string>, shape: seq<nat>)
    requires Annotated(keys)
    requires var src := SourcesOf(e, disk);
      forall i :: 0 <= i < |names| ==>
        && FrameFrom(src, decode, names[i], channel).Ok?
        && var f := FrameFrom(src, decode, names[i], channel).value; f.Tensor? && f.shape == shape && WellFormed(f)
    requires GetFrames(e, disk, decode, names, channel, keys).result.Ok?
    ensures var src := SourcesOf(e, disk);
      var ks := Kept(src, names);
      var b := GetFrames(e, disk, decode, names, channel, keys).result.value;
      && b.emoca.Batched? && b.landmarks.Batched?
      && b.frames.Tensor? && WellFormed(b.frames) && b.frames.shape == [|ks|] + shape
      && forall i :: 0 <= i < |ks| ==> FrameFrom(src, decode, ks[i], channel) == Ok(Select(b.frames, i))
  {
    var src := SourcesOf(e, disk);
    var ks := Kept(src, names);
    GetFramesReads(e, disk, decode, names, channel, keys);
    GatherFromAnnotated(src, decode, names, channel);
    KeptMembers(src, names);
    var l := GatherFrom(src, decode, names, channel, true).value;
    forall i | 0 <= i < |ks| ensures l.frames[i].Tensor? && l.frames[i].shape == shape && WellFormed(l.frames[i]) {
      assert ks[i] in names;
    }
    UnstackCollate(l.frames, shape);
  }

  /** With `'annotation'` and every record `None`, nothing is left to collate and `get_frames` fails. */
  lemma AllDroppedIsEmpty(e: Engine, disk: Disk, decode: Decoder, names: seq<string>, channel: int, keys: seq<string>)
    requires Annotated(keys)
    requires var src := SourcesOf(e, disk);
      && Readable(src, decode, names, channel, true)
      && forall i :: 0 <= i < |names| ==> !Keeps(src, names[i])
    ensures GetFrames(e, disk, decode, names, channel, keys).result == Err(EmptyBatch)
  {
    var src := SourcesOf(e, disk);
    GatherReads(e, disk, decode, names, channel, true);
    GatherFromOk(src, decode, names, channel, true);
    GatherFromAnnotated(src, decode, names, channel);
    KeptNone(src, names);
  }

  /** A name whose record is `None` is dropped, but a missing landmark entry for it still fails the call. */
  lemma DroppedNameStillReadsLandmarks(e: Engine, disk: Disk, decode: Decoder, names: seq<string>, channel: int, keys: seq<string>, j: nat)
    requires Annotated(keys) && j < |names|
    requires var src := SourcesOf(e, disk);
      EmocaFrom(src, names[j]) == Ok(NoneValue) && LandmarkFrom(src, names[j]).Err?
    ensures GetFrames(e, disk, decode, names, channel, keys).result.Err?
  {
    GetFramesReads(e, disk, decode, names, channel, keys);
  }
}

=== FILE: values.dfy ===
/**
 The values the read path handles: decoded frames, loaded annotation
 collections and their per-frame records, and `default_collate`, which
 stacks a list of per-frame values into one batched value.
 */
module Values {
  import opened Common

  /**
   A Python value as far as the read path looks at it: `None`, a tensor
   (its shape and its elements in row-major order) or a dict with string
   keys, in insertion order.
   */
  datatype Value =
    | NoneValue
    | Tensor(shape: seq<nat>, data: seq<int>)
    | Dict(items: seq<(string, Value)>)

  /** Number of elements of a tensor of the given shape. */
  function Size(shape: seq<nat>): nat {
    if |shape| == 0 then 1 else shape[0] * Size(shape[1..])
  }

  /** A tensor whose element list fits its shape. */
  predicate WellFormed(v: Value) {
    v.Tensor? ==> |v.data| == Size(v.shape)
  }

  /** The first binding of `key` in a dict's item list. */
  function Find(items: seq<(string, Value)>, key: string): (r: Option<Value>)
    ensures r.Some? ==> exists j :: 0 <= j < |items| && items[j] == (key, r.value)
    ensures r.None? <==> forall j :: 0 <= j < |items| ==> items[j].0 != key
  {
    if |items| == 0 then
      None
    else if items[0].0 == key then
      Some(items[0].1)
    else
      var r := Find(items[1..], key);
      assert forall j :: 1 <= j < |items| ==> items[j] == items[1..][j - 1];
      r
  }

  /** The key list of a dict. */
  function KeysOf(items: seq<(string, Value)>): (ks: seq<string>)
    ensures |ks| == |items|
    ensures forall j :: 0 <= j < |items| ==> ks[j] == items[j].0
  {
    if |items| == 0 then [] else [items[0].0] + KeysOf(items[1..])
  }

  /**
   Python's `v[key]` with a string key: a dict gives its binding, a missing
   key raises `KeyError`, anything else cannot be indexed by a string.
   */
  function Subscript(v: Value, key: string): (r: Result<Value>)
    ensures r.Ok? <==> v.Dict? && exists j :: 0 <= j < |v.items| && v.items[j].0 == key
    ensures r.Ok? ==> exists j :: 0 <= j < |v.items| && v.items[j] == (key, r.value)
    ensures r.Err? ==> r.error == (if v.Dict? then KeyNotFound(key) else NotSubscriptable)
  {
    match v
    case Dict(items) =>
      (match Find(items, key)
       case Some(x) => Ok(x)
       case None => Err(KeyNotFound(key)))
    case _ => Err(NotSubscriptable)
  }

  // ---------------------------------------------------------------------
  // default_collate

  /** The first element of a batch, which decides how the whole batch is collated. */
  function Head(batch: seq<Value>): Value {
    if |batch| == 0 then NoneValue else batch[0]
  }

  /** Every element of the batch is a tensor of shape `shape`. */
  predicate AllTensorsOf(batch: seq<Value>, shape: seq<nat>) {
    forall i :: 0 <= i < |batch| ==> batch[i].Tensor? && batch[i].shape == shape
  }

  /** The elements of a batch of tensors, one tensor after the other. */
  function Flatten(batch: seq<Value>): (d: seq<int>)
    requires forall i :: 0 <= i < |batch| ==> batch[i].Tensor?
  {
    if |batch| == 0 then [] else batch[0].data + Flatten(batch[1..])
  }

  /** `[d[key] for d in batch]`. */
  function Column(batch: seq<Value>, key: string): (r: Result<seq<Value>>)
    ensures r.Ok? ==> |r.value| == |batch|
    ensures r.Ok? <==> forall i :: 0 <= i < |batch| ==> Subscript(batch[i], key).Ok?
    ensures r.Ok? ==> forall i :: 0 <= i < |batch| ==> Subscript(batch[i], key) == Ok(r.value[i])
    ensures r.Err? ==> r.error == KeyNotFound(key) || r.error == NotSubscriptable
  {
    if |batch| == 0 then
      Ok([])
    else
      var x :- Subscript(batch[0], key);
      var rest :- Column(batch[1..], key);
      assert forall i :: 1 <= i < |batch| ==> batch[i] == batch[1..][i - 1];
      Ok([x] + rest)
  }

  /**
   `torch.utils.data.default_collate` on tensors and string-keyed dicts.
   The first element decides: an empty list raises `IndexError`, tensors
   are stacked along a new leading dimension (`torch.stack`), dicts are
   collated key by key in the first dict's key order, and `None` is
   rejected.
   */
  function Collate(batch: seq<Value>): (r: Result<Value>)
    ensures r == Err(EmptyBatch) <==> |batch| == 0
    ensures r.Ok? && Head(batch).Tensor? ==> r.value.Tensor? && r.value.shape == [|batch|] + Head(batch).shape
    ensures Head(batch).NoneValue? && |batch| > 0 ==> r == Err(NotCollatable)
    decreases Head(batch), 1, 0
  {
    if |batch| == 0 then
      Err(EmptyBatch)
    else
      match batch[0]
      case NoneValue => Err(NotCollatable)
      case Tensor(shape, _) =>
        if !forall i :: 0 <= i < |batch| ==> batch[i].Tensor? then
          Err(NotCollatable)
        else if !AllTensorsOf(batch, shape) then
          Err(ShapeMismatch)
        else
          Ok(Tensor([|batch|] + shape, Flatten(batch)))
      case Dict(items) =>
        var fields :- CollateFields(batch, KeysOf(items));
        Ok(Dict(fields))
  }

  /** `default_collate([d[key] for d in batch])`: one field of a collated batch of dicts. */
  function CollateField(batch: seq<Value>, key: string): (r: Result<Value>)
    requires |batch| > 0 && batch[0].Dict?
    ensures r.Err? ==> r.error != EmptyBatch
    decreases Head(batch), 0, 0
  {
    var column :- Column(batch, key);
    assert Subscript(batch[0], key) == Ok(column[0]);
    Collate(column)
  }

  /** `{key: default_collate([d[key] for d in batch]) for key in keys}`, the keys taken from `elem = batch[0]`. */
  function CollateFields(batch: seq<Value>, keys: seq<string>): (r: Result<seq<(string, Value)>>)
    requires |batch| > 0 && batch[0].Dict?
    ensures r.Ok? ==> |r.value| == |keys|
    ensures r.Ok? ==> forall k :: 0 <= k < |keys| ==> r.value[k].0 == keys[k] && CollateField(batch, keys[k]) == Ok(r.value[k].1)
    ensures r.Err? ==> r.error != EmptyBatch
    decreases Head(batch), 0, |keys|
  {
    if |keys| == 0 then
      Ok([])
    else
      var v :- CollateField(batch, keys[0]);
      var rest :- CollateFields(batch, keys[1..]);
      Ok([(keys[0], v)] + rest)
  }

  // ---------------------------------------------------------------------
  // Stacking tensors and taking them apart again

  /** `t[i]`: the `i`-th slice of a well-formed tensor along its leading dimension. */
  function Select(t: Value, i: nat): (r: Value)
    requires t.Tensor? && WellFormed(t) && |t.shape| > 0 && i < t.shape[0]
    ensures r.Tensor? && r.shape == t.shape[1..] && WellFormed(r)
  {
    var n := Size(t.shape[1..]);
    MulLe(i + 1, t.shape[0], n);
    Tensor(t.shape[1..], t.data[i * n..i * n + n])
  }

  /** Slice `i` of a tensor with `n`-element slices is the `i`-th block of `n` elements. */
  lemma SelectSlice(t: Value, i: nat, n: nat)
    requires t.Tensor? && WellFormed(t) && |t.shape| > 0 && i < t.shape[0]
    requires n == Size(t.shape[1..])
    ensures i * n + n <= |t.data|
    ensures Select(t, i) == Tensor(t.shape[1..], t.data[i * n..i * n + n])
  {
    MulLe(i + 1, t.shape[0], n);
  }

  lemma MulLe(a: nat, b: nat, n: nat)
    requires a <= b
    ensures a * n <= b * n
  {
  }

  /** A batch of tensors all holding `n` elements flattens to `|batch| * n` elements. */
  lemma {:induction false} FlattenLength(batch: seq<Value>, n: nat)
    requires forall j :: 0 <= j < |batch| ==> batch[j].Tensor? && |batch[j].data| == n
    ensures |Flatten(batch)| == |batch| * n
  {
    if |batch| > 0 {
      FlattenLength(batch[1..], n);
    }
  }

  /** A slice of the second half of a concatenation. */
  lemma SliceAfter(x: seq<int>, y: seq<int>, k: nat, m: nat)
    requires k + m <= |y|
    ensures (x + y)[|x| + k..|x| + k + m] == y[k..k + m]
  {
  }

  /** The `i`-th block of `n` elements of the flattened batch is the `i`-th tensor's data. */
  lemma {:induction false} FlattenChunk(batch: seq<Value>, n: nat, i: nat)
    requires forall j :: 0 <= j < |batch| ==> batch[j].Tensor? && |batch[j].data| == n
    requires i < |batch|
    ensures i * n + n <= |Flatten(batch)|
    ensures Flatten(batch)[i * n..i * n + n] == batch[i].data
  {
    var rest := batch[1..];
    var head := batch[0].data;
    FlattenLength(batch, n);
    assert Flatten(batch) == head + Flatten(rest);
    if i == 0 {
      assert (head + Flatten(rest))[..n] == head;
    } else {
      var k := (i - 1) * n;
      assert i * n == k + n;
      FlattenChunk(rest, n, i - 1);
      SliceAfter(head, Flatten(rest), k, n);
      assert rest[i - 1] == batch[i];
    }
  }

  /**
   Stacking succeeds exactly on a batch of tensors of one shape; otherwise a
   non-tensor raises before a shape difference does.
   */
  lemma CollateTensors(batch: seq<Value>)
    requires |batch| > 0 && batch[0].Tensor?
    ensures Collate(batch).Ok? <==> AllTensorsOf(batch, batch[0].shape)
    ensures Collate(batch).Err? ==>
      Collate(batch).error == (if forall i :: 0 <= i < |batch| ==> batch[i].Tensor? then ShapeMismatch else NotCollatable)
  {
  }

  /** A batch of tensors of one shape stacks into their concatenation. */
  lemma CollateStack(batch: seq<Value>, shape: seq<nat>)
    requires |batch| > 0 && AllTensorsOf(batch, shape)
    ensures Collate(batch) == Ok(Tensor([|batch|] + shape, Flatten(batch)))
  {
    assert batch[0].shape == shape;
  }

  /** Slice `i` of the stacked batch is the `i`-th tensor. */
  lemma StackSelect(batch: seq<Value>, shape: seq<nat>, i: nat)
    requires |batch| > 0 && AllTensorsOf(batch, shape)
    requires forall j :: 0 <= j < |batch| ==> WellFormed(batch[j])
    requires i < |batch|
    ensures var t := Tensor([|batch|] + shape, Flatten(batch));
      WellFormed(t) && Select(t, i) == batch[i]
  {
    var n := Size(shape);
    var t := Tensor([|batch|] + shape, Flatten(batch));
    FlattenLength(batch, n);
    assert t.shape[1..] == shape;
    assert Size(t.shape) == |batch| * n;
    FlattenChunk(batch, n, i);
    SelectSlice(t, i, n);
  }

  /**
   Round trip of `torch.stack`: the stacked tensor is well formed, its
   leading dimension is the batch size, and slice `i` is the `i`-th tensor.
   */
  lemma UnstackCollate(batch: seq<Value>, shape: seq<nat>)
    requires |batch| > 0 && AllTensorsOf(batch, shape)
    requires forall i :: 0 <= i < |batch| ==> WellFormed(batch[i])
    ensures Collate(batch).Ok?
    ensures var t := Collate(batch).value;
      && t.Tensor? && WellFormed(t) && t.shape == [|batch|] + shape
      && forall i :: 0 <= i < |batch| ==> Select(t, i) == batch[i]
  {
    CollateStack(batch, shape);
    StackSelect(batch, shape, 0);
    forall i | 0 <= i < |batch|
      ensures Select(Tensor([|batch|] + shape, Flatten(batch)), i) == batch[i]
    {
      StackSelect(batch, shape, i);
    }
  }

  /**
   A collated batch of dicts is a dict with the first dict's keys in its
   order, and each field holds the collation of that key's column.
   */
  lemma CollateDictFields(batch: seq<Value>)
    requires |batch| > 0 && batch[0].Dict? && Collate(batch).Ok?
    ensures var d := Collate(batch).value;
      && d.Dict? && |d.items| == |batch[0].items|
      && forall k :: 0 <= k < |d.items| ==>
        d.items[k].0 == batch[0].items[k].0 && CollateField(batch, batch[0].items[k].0) == Ok(d.items[k].1)
  {
    var keys := KeysOf(batch[0].items);
    assert Collate(batch) == Ok(Dict(CollateFields(batch, keys).value));
  }

  /** Collating fields succeeds exactly when every key's column collates. */
  lemma {:induction false} CollateFieldsOk(batch: seq<Value>, keys: seq<string>)
    requires |batch| > 0 && batch[0].Dict?
    ensures CollateFields(batch, keys).Ok? <==> forall j :: 0 <= j < |keys| ==> CollateField(batch, keys[j]).Ok?
  {
    if |keys| > 0 {
      CollateFieldsOk(batch, keys[1..]);
      assert forall j :: 1 <= j < |keys| ==> keys[j] == keys[1..][j - 1];
    }
  }

  /** A batch of dicts collates exactly when every key of the first dict collates across the batch. */
  lemma CollateDictOk(batch: seq<Value>)
    requires |batch| > 0 && batch[0].Dict?
    ensures Collate(batch).Ok? <==> forall j :: 0 <= j < |batch[0].items| ==> CollateField(batch, batch[0].items[j].0).Ok?
  {
    CollateFieldsOk(batch, KeysOf(batch[0].items));
  }
}
